=== FILE: README.md ===
# DataMapper core, modelled in Dafny

DataMapper is a small C# library. It runs a query through an Enterprise Library `Database` and turns the rows of the resulting `IDataReader` into objects of a caller's type `T`.

- `List<T>` builds a list with one item per row.
- `Get<T>` builds a single object.

Columns are matched to properties by lower-cased name. Dotted column names (`order.items.product`) fill nested objects and lists. Caller-supplied key properties decide whether a row refines an item that is already in a list or adds a new one.

This project models:

- the row-by-row materializer, in both copies:
  - the current engine (`Thimens.DataMapper/DatabaseExtensions.cs`);
  - the legacy engine (`DataMapper/DatabaseExtensions.cs`), with its ODBC decimal rule, its `"s"` boolean marker and its schema-driven column loop;
- the DataMap tree builder of `Thimens.DataMapper/New/Extensions.cs`;
- both `HashItemEqualityComparer<T>` variants;
- the `NameOf<T>` dotted-name builder;
- the `DatabaseProviderFactory` alias registry.

How the model is organised:

- Reflection becomes a reified type description (`TypeModel.Ty`).
- Objects are values (`TypeModel.Val`).
- A data reader is a list of field names, an optional schema table and a sequence of rows (`DataReader.Reader`).
- Library conversions the mapper calls are parameters: `Convert.ChangeType`, the unboxing cast `(T)reader[0]`, `ToString()` of a non-text cell, and the culture's decimal separator. They live in `Converter.Env`.
- `Converter.Variant` chooses between the two engines.

The code is modelled in its own form:

- Pure logic is written as functions.
- Loops are methods with invariants, proved equal to those functions. Examples are `Engine.List`, `Keys.ValidateKeyProperties`, `DataMapping.GetDataMap` and the comparers' `Equals`.
- State that the source updates in place is a class:
  - the comparers' `HashItem`;
  - the registry's dictionary.

## Model

| member | source | states |
|---|---|---|
| TypeModel.TypeKinds | Thimens.DataMapper/New/Extensions.cs:138-146 | Every type is exactly one of three kinds: a value type (or string), a collection, or a class. A string counts as a value and never as a collection. |
| TypeModel.Default | Thimens.DataMapper/DatabaseExtensions.cs:41 | `default(T)` is null exactly for strings, classes, collections and Nullable types. |
| TypeModel.Fresh | Thimens.DataMapper/DatabaseExtensions.cs:125 | `Activator.CreateInstance<T>()` behaves as follows: a class with a parameterless constructor gives an instance whose properties all hold their defaults; a value type gives its default; List<E> or another collection class gives an empty collection; anything else (string, an array, an interface, a class without such a constructor) fails with MissingMethodException. |
| TypeModel.FirstProp | Thimens.DataMapper/DatabaseExtensions.cs:326 | Returns the first property whose lower-cased name equals the column's property name, and no property precedes it with that name; it returns none only when no property has that name. |
| TypeModel.LastProp | Thimens.DataMapper/DatabaseExtensions.cs:218 | Returns the last property whose lower-cased name equals the key, and no later property has that name; it returns none only when no property has that name. |
| DataReader.ReadCell | Thimens.DataMapper/DatabaseExtensions.cs:303 | `dataReader[name]` succeeds exactly when the name resolves to a field of the row; otherwise it raises IndexOutOfRangeException. |
| DataReader.FirstCell | Thimens.DataMapper/DatabaseExtensions.cs:45 | `reader[0]` succeeds exactly when the row has a field. |
| DataReader.ColumnNamesSpec | Thimens.DataMapper/DatabaseExtensions.cs:422-439 | The column names hold each name of the schema table (or of the fields) once, lower-cased, and nothing else. |
| DataReader.GetColumnNames | Thimens.DataMapper/DatabaseExtensions.cs:422-439 | The HashSet loop: it uses the schema table's ColumnName cells, or GetName(i) when there is no schema table, adds each name lower-cased, and keeps the first occurrence of each. |
| DataReader.CaseInsensitiveIndex | Thimens.DataMapper/DatabaseExtensions.cs:303 | The case-insensitive fallback of the reader's field lookup finds the first field whose name equals the column name up to case, and finds none only when no field does. |
| DataReader.FirstsSpec | Thimens.DataMapper/DatabaseExtensions.cs:426-437 | Enumerating a HashSet filled from a sequence gives every value of the sequence exactly once and nothing else. |
| DataReader.LegacyColumnNames | DataMapper/DatabaseExtensions.cs:271-274 | The legacy column loop reads the schema table's ColumnName cells lower-cased, repeats included. Without a schema table it raises NotSupportedException. |
| Converter.ChangeType | Thimens.DataMapper/DatabaseExtensions.cs:388 | `Convert.ChangeType` targets the type under a Nullable. It fails exactly when the coercion fails, with the exception the coercion throws: InvalidCastException when there is no conversion, FormatException for a text that does not parse, OverflowException for a value out of range. |
| Converter.ScaleOf | DataMapper/DatabaseExtensions.cs:345-351 | The scale is 0 when the schema table has no NumericScale column or no row for the column. A DBNull scale, or a missing schema table, is an error. |
| Converter.SchemaRowOf | DataMapper/DatabaseExtensions.cs:346 | Returns the first schema row whose ColumnName equals the column up to case; it returns none only when no row does. |
| Converter.FirstRawMatch | Thimens.DataMapper/DatabaseExtensions.cs:371-377 | Returns the first enum member, in Enum.GetValues order (by value), whose DefaultValue equals the cell; it returns none only when no member's does. |
| Converter.ParseEnum | Thimens.DataMapper/DatabaseExtensions.cs:379 | `Enum.Parse(type, text, true)` succeeds exactly when some member's name equals the trimmed text up to case. The result is then the value of the first such member in Enum.GetValues order. Otherwise it raises ArgumentException. |
| Converter.FirstNamed | Thimens.DataMapper/DatabaseExtensions.cs:379 | Finds the first enum member whose lower-cased name is the lower-cased trimmed text: no earlier member matches. It finds none only when no member's name matches. |
| Converter.GetValueFromDataReader | Thimens.DataMapper/DatabaseExtensions.cs:366-389 | Reading an unknown column raises IndexOutOfRangeException. Otherwise the result is the conversion of the cell read from that column. |
| Converter.ConvertCell | Thimens.DataMapper/DatabaseExtensions.cs:368-388 | The conversion of a cell already read fails only with an exception of `Convert.ChangeType` (InvalidCastException, FormatException, OverflowException), with the ODBC rule's OverflowException or the schema lookup's NotSupportedException (DataMapper/DatabaseExtensions.cs:345-354), or with Enum.Parse's ArgumentException. An enum target gets one of its members, except for an ODBC decimal. A text cell read into a bool always gives a flag. |
| Converter.BoolMarker | Thimens.DataMapper/DatabaseExtensions.cs:381-384 | A text cell read into a bool never fails. It is true exactly when its trimmed, quote-normalised, lower-cased text is "y" in the current engine or "s" in the legacy one (DataMapper/DatabaseExtensions.cs:375). |
| Converter.TextTrimmedFirst | Thimens.DataMapper/DatabaseExtensions.cs:384-386 | For every target type except an enum, surrounding white space in a text cell never changes its conversion. |
| Converter.NonBoolText | Thimens.DataMapper/DatabaseExtensions.cs:386 | A text cell read into anything but a bool or an enum is coerced from its trimmed text, with `"` replaced by `'`, to the type under a Nullable. It succeeds exactly when that coercion does; a text the coercion cannot parse raises FormatException. |
| Converter.NullableUnwrapped | Thimens.DataMapper/DatabaseExtensions.cs:386-388 | A Nullable<U> target converts exactly like U when U is neither bool nor an enum. |
| Converter.NullableBoolSkipsMarker | Thimens.DataMapper/DatabaseExtensions.cs:383 | A Nullable<bool> target does not get the marker rule: its text goes to `Convert.ChangeType`. |
| Converter.EnumRawFirst | Thimens.DataMapper/DatabaseExtensions.cs:371-377 | For an enum target, the first member whose DefaultValue equals the cell is the result. |
| Converter.EnumByName | Thimens.DataMapper/DatabaseExtensions.cs:379 | When no DefaultValue matches, an enum target succeeds exactly when some member's name equals the trimmed cell text up to case; the result is the first member whose name matches. Otherwise it raises ArgumentException. |
| Converter.OdbcScaling | DataMapper/DatabaseExtensions.cs:353-354 | Under the ODBC factory, take a decimal whose column has a positive schema scale and whose text lacks the decimal separator. Up to scale 28 the cell handed to the coercion is worth that decimal's value divided by 10^scale. Beyond 28, `Convert.ToDecimal(Math.Pow(10, scale))` raises OverflowException. |
| Converter.DecScaled | DataMapper/DatabaseExtensions.cs:353-354 | Raising a decimal's scale by `scale` divides the number it stands for by 10^scale. |
| Converter.OdbcPassThrough | DataMapper/DatabaseExtensions.cs:348-356 | Under the ODBC factory, a decimal passes through unchanged in these cases: there is no NumericScale column, there is no schema row for the column, or its text has a separator. |
| Converter.OdbcBeforeEnum | DataMapper/DatabaseExtensions.cs:341-359 | The ODBC rule is tried before the enum rule, so an ODBC decimal is never matched against enum members: it is coerced, scaled or not, or the scaling overflows. |
| Converter.EnginesAgree | DataMapper/DatabaseExtensions.cs:359-379 | Outside ODBC the two engines convert every cell alike, except a text cell read into a bool. |
| Keys.ApplicableKeys | Thimens.DataMapper/DatabaseExtensions.cs:193 | A key applies at a level exactly when its count of '.' equals the prefix's count and it contains the prefix, compared case-insensitively. |
| Keys.NoneApply | Thimens.DataMapper/DatabaseExtensions.cs:193-196 | When no key applies, the filtered key list is empty. |
| Keys.TopLevelKeys | Thimens.DataMapper/DatabaseExtensions.cs:193 | At the top level, exactly the keys without a '.' apply. |
| Keys.ResolveFrom | Thimens.DataMapper/DatabaseExtensions.cs:214-223 | Each key maps to the last property with its lower-cased name. A key naming no property, or a key added twice, raises ArgumentException. |
| Keys.CheckScalar | Thimens.DataMapper/DatabaseExtensions.cs:228-232 | The key properties pass exactly when every one is a value type or a string. Otherwise ArgumentException is raised. |
| Keys.KeyProps | Thimens.DataMapper/DatabaseExtensions.cs:210-232 | On success there is one key property per applicable key. Every failure is an ArgumentException. |
| Keys.LastEqual | Thimens.DataMapper/DatabaseExtensions.cs:202-206 | Returns the last index holding the value, and no later index holds it; it returns none only when the value is absent. |
| Keys.KeyEquals | Thimens.DataMapper/DatabaseExtensions.cs:270 | One key filter passes an item exactly when its key value is not null and equals the cell converted to the key's type. A null key value raises NullReferenceException once the cell converts; a failed conversion raises its own exception. |
| Keys.SurvivesFrom | Thimens.DataMapper/DatabaseExtensions.cs:257-271 | An item that survives the filters from key k on passes every one of those key filters. |
| Keys.MatchFrom | Thimens.DataMapper/DatabaseExtensions.cs:273-276 | The selected index lies within the list, and an index selected by this scan is not before its starting position. |
| Keys.ObjectKeysFrom | Thimens.DataMapper/DatabaseExtensions.cs:236-251 | The single object is kept only if every key compared so far was equal. |
| Keys.KeyValidation | Thimens.DataMapper/DatabaseExtensions.cs:171-282 | With no applicable key, the result is always a new item. A selected item is an element of the list at the reported index, or it is the object itself. |
| Keys.LastMatchIsLast | Thimens.DataMapper/DatabaseExtensions.cs:273-276 | The selected list item passes every key filter, and every later item fails one. When nothing is selected, no item passes. |
| Keys.SurvivesIffAllEqual | Thimens.DataMapper/DatabaseExtensions.cs:270 | A list item survives the chained filters exactly when every key property equals the row's converted cell. |
| Keys.ObjectKeptIffAllEqual | Thimens.DataMapper/DatabaseExtensions.cs:236-251 | The single object is kept exactly when every key compares equal. |
| Keys.ObjectKeysReadAll | Thimens.DataMapper/DatabaseExtensions.cs:236-248 | For a single object every key is read, even after a mismatch, so an error on a later key is still raised. |
| Keys.UnknownKeyRejected | Thimens.DataMapper/DatabaseExtensions.cs:218-222 | A key that names no property makes key resolution fail. |
| Keys.DuplicateKeyRejected | Thimens.DataMapper/DatabaseExtensions.cs:220 | Two keys that coincide after prefix stripping make `dictProps.Add` fail. |
| Keys.KeyValidationRejectsUnknown | Thimens.DataMapper/DatabaseExtensions.cs:214-223 | ValidateKeyProperties raises ArgumentException for an applicable key that names no property. |
| Keys.KeyValidationRejectsNonScalar | Thimens.DataMapper/DatabaseExtensions.cs:228-232 | ValidateKeyProperties raises ArgumentException for a key property that is neither a value type nor a string. |
| Keys.ScalarListMatch | Thimens.DataMapper/DatabaseExtensions.cs:200-207 | In a list of values, the selected element is the last one equal to the cell the prefix names. |
| Keys.ObjectListMatch | Thimens.DataMapper/DatabaseExtensions.cs:253-277 | In a list of objects, the selected element is the last one that passes every key filter. |
| Keys.BuildKeyProperties | Thimens.DataMapper/DatabaseExtensions.cs:210-232 | The two `dictProps` loops compute the checked key properties. |
| Keys.ResolveKeys | Thimens.DataMapper/DatabaseExtensions.cs:214-223 | The first `dictProps` loop computes ResolveFrom: each stripped key is resolved to its property, and an unknown key or a repeated key ends the loop with ArgumentException. |
| Keys.CheckKeyProperties | Thimens.DataMapper/DatabaseExtensions.cs:228-232 | The second loop computes CheckScalar: it accepts exactly when every key property is a value type or a string. |
| Keys.CompareObjectKeys | Thimens.DataMapper/DatabaseExtensions.cs:234-252 | The single-object loop computes whether every key compared equal. |
| Keys.ItemSurvives | Thimens.DataMapper/DatabaseExtensions.cs:257-271 | One item is pulled through the chained Where filters. |
| Keys.LastSurvivor | Thimens.DataMapper/DatabaseExtensions.cs:273-276 | `Count()` then `LastOrDefault()` over the filtered list give the last survivor. |
| Keys.ValidateKeyProperties | Thimens.DataMapper/DatabaseExtensions.cs:171-282 | The method computes KeyValidation; its properties are the lemmas above. |
| Materializer.ColumnsOf | DataMapper/DatabaseExtensions.cs:271-274 | The current engine walks the column names computed once. The legacy engine re-reads the schema table. |
| Materializer.PropertyNameOf | Thimens.DataMapper/DatabaseExtensions.cs:312-317 | The property name a column fills never contains a '.'. It is the column, with every occurrence of the prefix removed, up to its first '.' (all of it when there is none). |
| Materializer.CurrentList | Thimens.DataMapper/DatabaseExtensions.cs:335 | A list property's existing items are kept. A null list becomes empty (a new array, List<E> or collection), except in the legacy engine, where an interface type cannot be instantiated. |
| Materializer.ConvertObjectList | Thimens.DataMapper/DatabaseExtensions.cs:399-415 | The items are stored in order as a List or an array. The result fits the property unless the property is an interface that List<E> does not implement or a collection class other than List<E>; then SetValue raises ArgumentException. |
| Materializer.ItemMerged | Thimens.DataMapper/DatabaseExtensions.cs:123-142 | After one row the list grows by at most one item, and every item is still an instance of T. |
| Materializer.ObjectRefreshed | Thimens.DataMapper/DatabaseExtensions.cs:144-157 | The object after one row is an instance of T. |
| Materializer.Filled | Thimens.DataMapper/DatabaseExtensions.cs:293-357 | CreateObjectWithDataReader keeps the object an instance of T. |
| Materializer.FilledFrom | Thimens.DataMapper/DatabaseExtensions.cs:300-356 | The column loop keeps the object an instance of T. |
| Materializer.ColumnFilled | Thimens.DataMapper/DatabaseExtensions.cs:303-353 | One column step keeps the object an instance of T. It adds at most one name to `properties`: a name not already there, and only for a column whose cell is not NULL and which carries the prefix. For a value-type T such a column replaces the value by its converted cell (`(T)GetValueFromDataReader`, line 307). For a class T, a column whose name is not yet handled and resolves to property j sets property j to the value PropertyFilled gives, failing exactly when that fails. No column changes a property it does not write. |
| Materializer.PropertyFilled | Thimens.DataMapper/DatabaseExtensions.cs:326-351 | The new value of a property fits the property's declared type. A value or string property gets GetValueFromDataReader of the column (line 351). The list and reference cases are stated by ListPropertyMerged and NestedReferenceRebuilt. |
| Materializer.ListedFrom | Thimens.DataMapper/DatabaseExtensions.cs:38-46 | Every element of the list built by the row loop is an instance of T. |
| Materializer.RowListed | Thimens.DataMapper/DatabaseExtensions.cs:40-45 | After one row, every element of the list is still an instance of T. |
| Materializer.GotFrom | Thimens.DataMapper/DatabaseExtensions.cs:70-78 | The Get row loop yields default(T) or an instance of T. |
| Materializer.Listed | Thimens.DataMapper/DatabaseExtensions.cs:29-50 | List<T> gives only instances of T, and an empty list when the reader has no rows. |
| Materializer.Got | Thimens.DataMapper/DatabaseExtensions.cs:63-83 | Get<T> gives default(T) or an instance of T, and default(T) when the reader has no rows. |
| Materializer.NullOrForeignColumnSkipped | Thimens.DataMapper/DatabaseExtensions.cs:303 | A NULL cell, or a column without the current prefix, changes nothing. |
| Materializer.FirstColumnWins | Thimens.DataMapper/DatabaseExtensions.cs:319-323 | Once a property name has been handled in a call, later columns with that name change nothing. |
| Materializer.OncePerProperty | Thimens.DataMapper/DatabaseExtensions.cs:297-323 | `properties` never holds a name twice, and a fill call only adds to it. |
| Materializer.UntouchedPropertyKept | Thimens.DataMapper/DatabaseExtensions.cs:300-356 | A property that no non-NULL column of the row writes keeps its earlier value. |
| Materializer.ListPropertyMerged | Thimens.DataMapper/DatabaseExtensions.cs:330-341 | An array, List<E> or implemented-interface list property becomes the list it held (empty when null, line 335) merged with this row's item by GetObjectFromDataReader under the prefix `name.`, stored in order by ConvertObjectList; it fails exactly when the merge fails. |
| Materializer.PropertyFilledLocal | Thimens.DataMapper/DatabaseExtensions.cs:335-351 | A property's new value depends on the object only through that property's current value. |
| Materializer.KeptOnceSeen | Thimens.DataMapper/DatabaseExtensions.cs:319-323 | Once a property's name is in `properties`, the property keeps its value to the end of the call. |
| Materializer.FirstWriterWins | Thimens.DataMapper/DatabaseExtensions.cs:300-353 | The first column that writes a property decides its final value: the value PropertyFilled gives for that column, computed from the property's value before the call. |
| Materializer.FilledFromFirstWriter | Thimens.DataMapper/DatabaseExtensions.cs:293-357 | CreateObjectWithDataReader leaves every property that a column of the row writes with the value the first such column gives it. A value or string property holds that column's converted cell. |
| Materializer.NoCarrierKeeps | Thimens.DataMapper/DatabaseExtensions.cs:303 | For a value-type T, columns that are NULL or lack the prefix leave the value unchanged. |
| Materializer.LastCarrierWins | Thimens.DataMapper/DatabaseExtensions.cs:300-307 | For a value-type T, the last column that is not NULL and carries the prefix decides the value: its converted cell. |
| Materializer.FilledFromLastColumn | Thimens.DataMapper/DatabaseExtensions.cs:293-307 | CreateObjectWithDataReader on a value-type T, such as an element of a list of values, gives the converted cell of the last column of the row that is not NULL and carries the prefix. |
| Materializer.NestedReferenceRebuilt | Thimens.DataMapper/DatabaseExtensions.cs:344-348 | A nested reference property is replaced by a fresh instance filled from this row alone, whatever its earlier value was. |
| Materializer.InterfaceListRejected | Thimens.DataMapper/DatabaseExtensions.cs:332-333 | In the current engine, a list property typed as an interface that List<E> does not implement raises ApplicationException. |
| Materializer.LegacyInterfaceListFails | DataMapper/DatabaseExtensions.cs:306 | In the legacy engine, a null list property of interface type fails to instantiate. |
| Materializer.CollectionClassRejected | Thimens.DataMapper/DatabaseExtensions.cs:335-341 | A list property of another collection class (HashSet<E>, Collection<E>) is created and merged, but storing the List<E> that ConvertObjectList returns fails. Filling it always fails, with ArgumentException once the merge has succeeded. |
| Materializer.UnkeyedListAppends | Thimens.DataMapper/DatabaseExtensions.cs:123-142 | With no key at this level, each row fills a fresh item and appends it, leaving the earlier items unchanged. |
| Materializer.KeyedListRefinesMatch | Thimens.DataMapper/DatabaseExtensions.cs:133-141 | When the keys select an item nothing is appended. A reference item is refilled in place; a value item is a copy, so the list is unchanged. |
| Materializer.KeyedListAppendsOnMiss | Thimens.DataMapper/DatabaseExtensions.cs:134-139 | When the keys select nothing, one item is appended at the end and the rest is unchanged. |
| Materializer.UnkeyedAccumulation | Thimens.DataMapper/DatabaseExtensions.cs:29-50 | With no top-level key, List<T> yields one element per row, duplicates included. |
| Materializer.ScalarListOnePerRow | Thimens.DataMapper/DatabaseExtensions.cs:44-45 | List<T> of a scalar T is the first column of every row cast to T, in row order. |
| Materializer.ScalarGetLastRow | Thimens.DataMapper/DatabaseExtensions.cs:70-78 | Get<T> of a scalar T is the first column of the last row, or default(T) when there are no rows. |
| Materializer.RefreshIgnoresPrevious | Thimens.DataMapper/DatabaseExtensions.cs:149-154 | With no key at this level the earlier object is never selected. |
| Materializer.UnkeyedGetLastRowOnly | Thimens.DataMapper/DatabaseExtensions.cs:63-83 | With no top-level key, Get<T> of an object T is built from the last row alone. |
| Engine.List | Thimens.DataMapper/DatabaseExtensions.cs:29-50 | The row loop computes Listed (both engines; DataMapper/DatabaseExtensions.cs:26-46). |
| Engine.ListRow | Thimens.DataMapper/DatabaseExtensions.cs:40-45 | One row computes RowListed, failures included. |
| Engine.Get | Thimens.DataMapper/DatabaseExtensions.cs:63-83 | The row loop computes Got (DataMapper/DatabaseExtensions.cs:58-77 for the legacy engine). |
| Engine.GetObjectFromDataReaderForList | Thimens.DataMapper/DatabaseExtensions.cs:123-142 | The method computes ItemMerged (DataMapper/DatabaseExtensions.cs:101-120 for the legacy engine). |
| Engine.GetObjectFromDataReader | Thimens.DataMapper/DatabaseExtensions.cs:144-157 | The method computes ObjectRefreshed (DataMapper/DatabaseExtensions.cs:122-135 for the legacy engine). |
| Engine.CreateObjectWithDataReader | Thimens.DataMapper/DatabaseExtensions.cs:293-357 | The column loop computes Filled (DataMapper/DatabaseExtensions.cs:264-328 for the legacy engine). |
| Engine.FillColumns | Thimens.DataMapper/DatabaseExtensions.cs:300-356 | The loop over the visited columns computes FilledFrom from the first column. |
| Engine.FillColumn | Thimens.DataMapper/DatabaseExtensions.cs:303-353 | One column computes ColumnFilled. |
| Engine.FillProperty | Thimens.DataMapper/DatabaseExtensions.cs:326-351 | One property computes PropertyFilled. |
| DataMapping.ColumnsFor | Thimens.DataMapper/New/Extensions.cs:129-133 | Each field name becomes one entry, lower-cased, with its '.'-split path, in field order. |
| DataMapping.GetColumnsDictonary | Thimens.DataMapper/New/Extensions.cs:125-136 | It succeeds exactly when the lower-cased field names are distinct; otherwise Dictionary.Add raises ArgumentException. Each path joined with '.' gives back its name. |
| DataMapping.FirstColumn | Thimens.DataMapper/New/Extensions.cs:70 | `First()` of a group is the earliest column with that first segment. |
| DataMapping.GroupOf | Thimens.DataMapper/New/Extensions.cs:63 | A GroupBy group holds exactly the columns whose first segment is the key. |
| DataMapping.GroupHead | Thimens.DataMapper/New/Extensions.cs:70 | A group opens with the first column of its key. |
| DataMapping.Rest | Thimens.DataMapper/New/Extensions.cs:97-104 | `columnsDict` holds exactly the group's columns with more than one segment, each with its first segment removed. |
| DataMapping.DataMaps | Thimens.DataMapper/New/Extensions.cs:55-123 | Two properties with the same lower-cased name make ToDictionary throw. No node is ever of the ValueList kind. |
| DataMapping.MapsFrom | Thimens.DataMapper/New/Extensions.cs:63-120 | The group loop fails only with the duplicate-property error and produces no ValueList node. |
| DataMapping.NodeFor | Thimens.DataMapper/New/Extensions.cs:65-118 | The node for one group fails only with the duplicate-property error and is never of the ValueList kind. |
| DataMapping.NodeForShape | Thimens.DataMapper/New/Extensions.cs:65-118 | A value property gives a Value node on the group's first column, marked as a key exactly when a caller key equals that column ignoring case. Any other property gives a List or Reference node over the stripped columns of the element or property type. |
| DataMapping.MapsFromCovers | Thimens.DataMapper/New/Extensions.cs:63-120 | The loop adds exactly one well-shaped node for each group that names a property. |
| DataMapping.DataMapsSpec | Thimens.DataMapper/New/Extensions.cs:55-123 | The nodes have distinct property names, each has the shape above, and every first segment that names a property has its node. |
| DataMapping.GetDataMap | Thimens.DataMapper/New/Extensions.cs:55-123 | The loop over groups computes DataMaps. |
| DataMapping.MapGroup | Thimens.DataMapper/New/Extensions.cs:63-120 | One group of the loop advances MapsFrom by one step, or ends it with the same error. |
| DataMapping.BuildNode | Thimens.DataMapper/New/Extensions.cs:65-118 | The loop body, including the `columnsDict` loop, computes NodeFor. |
| HashComparer.Wrap32 | Thimens.DataMapper/HashItemEqualityComparer.cs:44 | Int32 arithmetic stays within [-2^31, 2^31) and is exact inside that range. |
| HashComparer.GetValue | Thimens.DataMapper/HashItemEqualityComparer.cs:25 | `prop.GetValue(item)` fails exactly on a null item, with TargetException. |
| HashComparer.EqualsSpec | Thimens.DataMapper/HashItemEqualityComparer.cs:20-33 | Equals raises only NullReferenceException or TargetException. With a null key set it fails exactly when x is null. For two instances it is true exactly when every key value of x is not null and equals y's. |
| HashComparer.HashFrom | Thimens.DataMapper/HashItemEqualityComparer.cs:42-44 | The key fold stays an Int32 once a key has been folded in, and on an instance it fails exactly when some remaining key value is null. |
| HashComparer.HashSpec | Thimens.DataMapper/HashItemEqualityComparer.cs:38-48 | GetHashCode is an Int32. It raises only NullReferenceException or TargetException. With a null key set it fails exactly on a null item. For an instance it fails exactly when a key value is null. |
| HashComparer.KeysEqualIff | Thimens.DataMapper/HashItemEqualityComparer.cs:24-26 | Two instances are equal exactly when every key value of x is not null and equals y's. The only exception raised is the NullReferenceException of a null key value of x. |
| HashComparer.KeysEqualReflexive | Thimens.DataMapper/HashItemEqualityComparer.cs:24-26 | An instance whose key values are not null equals itself. |
| HashComparer.EmptyKeySet | Thimens.DataMapper/HashItemEqualityComparer.cs:22-49 | With no key properties, all items are equal and all hash to 27. |
| HashComparer.HashFromAgrees | Thimens.DataMapper/HashItemEqualityComparer.cs:43-44 | Items whose key loop finds them equal give the same hash fold. |
| HashComparer.EqualItemsHashAlike | Thimens.DataMapper/HashItemEqualityComparer.cs:20-49 | Items that Equals finds equal get equal hash codes. |
| HashComparer.HashItemEqualityComparer.constructor | Thimens.DataMapper/HashItemEqualityComparer.cs:14-18 | HashItem starts as default(T). |
| HashComparer.HashItemEqualityComparer.Equals | Thimens.DataMapper/HashItemEqualityComparer.cs:20-36 | Compares by key values, or by T's Equals when the key set is null. HashItem becomes x exactly on a true result. |
| HashComparer.HashItemEqualityComparer.GetHashCode | Thimens.DataMapper/HashItemEqualityComparer.cs:38-49 | Starts at 27 and folds `13*h + hash(v)` over the key values, or over T's own hash when the key set is null. |
| DraftHashComparer.DraftHashMatchesReleased | Thimens.DataMapper/New/HashItemEqualityComparer.cs:30-36 | On a key set the draft hash equals the released one. On a null key set it raises NullReferenceException. |
| DraftHashComparer.DraftKeySetEdges | Thimens.DataMapper/New/HashItemEqualityComparer.cs:20-28 | An empty key set makes all items equal. A null key set raises NullReferenceException. |
| DraftHashComparer.BoxedKeyNeverMatches | Thimens.DataMapper/New/HashItemEqualityComparer.cs:23 | A key of value type holding a value never compares equal under reference `!=`. |
| DraftHashComparer.DraftNotReflexive | Thimens.DataMapper/New/HashItemEqualityComparer.cs:20-28 | An item with the int key 1 is not equal to itself under the draft, while the released comparer finds it equal. |
| DraftHashComparer.SameReference | Thimens.DataMapper/New/HashItemEqualityComparer.cs:23 | Reference equality holds between two nulls, never between null and a value, and never for a value of a value type, which is boxed afresh. |
| DraftHashComparer.DraftKeysEqualFrom | Thimens.DataMapper/New/HashItemEqualityComparer.cs:22-24 | The draft key loop is true on two instances exactly when every key value pair is the same reference; it fails only with TargetException on a null item. |
| DraftHashComparer.DraftEqualsSpec | Thimens.DataMapper/New/HashItemEqualityComparer.cs:20-28 | A null key set raises NullReferenceException. Otherwise two instances are equal exactly when every key value pair is the same reference, and a failure is the TargetException of a null item. |
| DraftHashComparer.DraftHashSpec | Thimens.DataMapper/New/HashItemEqualityComparer.cs:30-36 | The draft hash is an Int32. A null key set raises NullReferenceException. For an instance it fails exactly when a key value is null. |
| DraftHashComparer.DraftHashItemEqualityComparer.constructor | Thimens.DataMapper/New/HashItemEqualityComparer.cs:14-18 | HashItem starts as default(T). |
| DraftHashComparer.DraftHashItemEqualityComparer.Equals | Thimens.DataMapper/New/HashItemEqualityComparer.cs:20-28 | Compares key values by reference. HashItem becomes x exactly on a true result. |
| DraftHashComparer.DraftHashItemEqualityComparer.GetHashCode | Thimens.DataMapper/New/HashItemEqualityComparer.cs:30-36 | Starts at 27 and folds `13*h + hash(v)` over the key values, with no fallback. |
| DottedNames.Create | Thimens.DataMapper/NameOf.cs:13-16 | The default constructor gives no name and empty affixes. |
| DottedNames.CreateWithAffixes | Thimens.DataMapper/NameOf.cs:18-22 | The custom constructor stores the given prefix and suffix. |
| DottedNames.CreateWithAffix | Thimens.DataMapper/NameOf.cs:28-44 | SQL gives `[`/`]` and DB2 gives `"`/`"`. Every other value raises ArgumentOutOfRangeException. |
| DottedNames.ToString | Thimens.DataMapper/NameOf.cs:53 | ToString is the prefix, then the name, then the suffix. |
| DottedNames.ToSQL | Thimens.DataMapper/NameOf.cs:54 | ToSQL is the name between `[` and `]`. |
| DottedNames.ToDB2 | Thimens.DataMapper/NameOf.cs:55 | ToDB2 is the name between double quotes. |
| DottedNames.AsString | Thimens.DataMapper/NameOf.cs:57 | The implicit conversion to string is ToString: the prefix, the name and the suffix; the bare name when there are no affixes. |
| DottedNames.Walk | Thimens.DataMapper/NameOf.cs:47-50 | A chain of dynamic member accesses keeps the affixes; no member gives the name itself, and a failure is AmbiguousMatchException or the MissingMemberException of one of the members. |
| DottedNames.Renderings | Thimens.DataMapper/NameOf.cs:53-57 | Without affixes, ToString is the bare name. The implicit conversion is ToString. ToSQL and ToDB2 depend on the name alone. With the SQL or DB2 affixes, ToString equals ToSQL or ToDB2. |
| DottedNames.MatchingFrom | Thimens.DataMapper/NameOf.cs:62 | Lists exactly the properties whose names equal the member ignoring case, in order. |
| DottedNames.GetProperty | Thimens.DataMapper/NameOf.cs:59-77 | Member access succeeds exactly when one property matches ignoring case. None gives MissingMemberException; several give AmbiguousMatchException. The child carries the declared name appended with '.' (no leading dot), is scoped to the element type for a list, and inherits the affixes. |
| DottedNames.WalkPath | Thimens.DataMapper/NameOf.cs:72 | A chain of member accesses keeps the affixes. Up to case, its name is the accessed members joined with '.'. |
| DottedNames.AffixesCarryOver | Thimens.DataMapper/NameOf.cs:73 | For names reached from the SQL (DB2) constructor, ToString equals ToSQL (ToDB2). |
| ProviderRegistry.Registered | Thimens.DataMapper/DatabaseProviderFactory.cs:54 | AddOrUpdate adds a new alias and keeps an existing alias's factory. Every other entry is unchanged. |
| ProviderRegistry.FirstRegistrationWins | Thimens.DataMapper/DatabaseProviderFactory.cs:54 | Registering an alias again changes nothing. |
| ProviderRegistry.RegistrationsCommute | Thimens.DataMapper/DatabaseProviderFactory.cs:52-55 | Registrations under different aliases commute. |
| ProviderRegistry.Created | Thimens.DataMapper/DatabaseProviderFactory.cs:76-94 | A null connection string raises ArgumentNullException and an empty one raises ArgumentException; both are checked before the lookup and are not wrapped. An unknown name raises InvalidOperationException wrapping ArgumentOutOfRangeException. A known name gives a database over that alias's factory. |
| ProviderRegistry.CreateAfterRegister | Thimens.DataMapper/DatabaseProviderFactory.cs:82-83 | After a registration, Create under that alias uses the factory registered first. |
| ProviderRegistry.DatabaseProviderFactory.constructor | Thimens.DataMapper/DatabaseProviderFactory.cs:29 | The dictionary starts empty. |
| ProviderRegistry.DatabaseProviderFactory.RegisterFactoryAs | Thimens.DataMapper/DatabaseProviderFactory.cs:52-55 | Registers under the alias; the first registration wins. A null alias raises ArgumentNullException and leaves the dictionary as it was. |
| ProviderRegistry.DatabaseProviderFactory.RegisterFactory | Thimens.DataMapper/DatabaseProviderFactory.cs:42-45 | Registers under the factory's type name. A null factory raises NullReferenceException. |
| ProviderRegistry.DatabaseProviderFactory.Create | Thimens.DataMapper/DatabaseProviderFactory.cs:76-94 | The method computes Created. |
| ProviderRegistry.DatabaseProviderFactory.CreateForType | Thimens.DataMapper/DatabaseProviderFactory.cs:63-66 | Behaves as Create under the type's name. A null type raises NullReferenceException. |

## Left out

- Types are finite trees (`TypeModel.Ty` is an inductive datatype), so a class that contains itself, directly or through a list (a `Category` with a `List<Category> Children`), is represented by unrolling it to the depth of the longest column path in the row. The source stops on such types when the columns run out, so behaviour up to that depth is the same; the unrolled type is not derived from the class inside the model.
- Command execution and reader I/O (`CreateCommand`, `ExecuteReader`, `ExecuteNonQuery`, `ExecuteScalar`) and the `Database`/`GenericDatabase` classes are not modelled. Their effects are not observable in the mapping logic. The reader is given as data.
- Reflection calls through `MakeGenericMethod(...).Invoke` are direct recursive calls here. The wrapping of exceptions in TargetInvocationException is not modelled: errors surface unwrapped.
- Keys of the `prop@nested` form are excluded by a precondition (`Keys.NoNestedKeys`). Their branch depends on reflective `Invoke` writing an `out` argument back into an object array.
- `Convert.ChangeType`, the unboxing cast, `ToString()` of non-text cells, and the culture's decimal separator are abstract functions. For `Convert.ChangeType` the model keeps which exception it throws (InvalidCastException, FormatException or OverflowException), not the rules by which .NET chooses it. `Enum.Parse` is modelled for member names only; its numeric and flag forms are not.
- Case mapping is ASCII-only and all string searches are ordinal. Culture-sensitive `ToLower`, `IndexOf` and `Replace` are not modelled.
- `DataTable.Select` is modelled as a case-insensitive ColumnName match. A quote inside a column name, which would break its filter string, is not modelled.
- The ODBC rule: `Math.Pow(10, scale)` is an exact power of ten, and a decimal is a mantissa with a scale. Decimal arithmetic precision and rounding are not modelled. A decimal's Equals is structural here, so 1.0 and 1.00 differ.
- The stub materializer in Thimens.DataMapper/New/Extensions.cs:15-48 is not modelled: it only returns fresh instances. DataMapping models the map it builds first.
- The `ConcurrentDictionary` registry is a sequential map held by one object, not a static field shared by threads.
- `T` itself being a collection type: its own properties (Count, Capacity) are not modelled. A collection-typed `T` has no properties here.
- Objects are values, so aliasing is not modelled. A list item refined in place is the element replaced at its index, and the object a method fills is returned rather than updated through a reference.
- Property initialisers: a fresh instance holds the defaults of its properties' types.
- The list overload of GetObjectFromDataReader is never called with a null list by List<T> or by the fill loop. Its null-list branch (`Activator.CreateInstance<IList<T>>()`) is therefore not modelled.
- A null prefix and an empty prefix behave the same in every use, so the top-level prefix is "".
- Comparer items are null or instances of T. Reading a property of a null item gives TargetException.
- DottedNames: `TryGetMember` always succeeds or throws, because GetProperty never returns null.
- DottedNames: properties of non-class types (such as string.Length) and static properties are not modelled.
- Materializer.Filled: its own contract states only that the result is an instance of T; the values the columns write are stated by Materializer.FilledFromFirstWriter (class T) and Materializer.FilledFromLastColumn (value-type T).
- Materializer.FilledFrom: its own contract states only that the object stays an instance of T; which column decides each property is stated by Materializer.FirstWriterWins, Materializer.KeptOnceSeen and Materializer.LastCarrierWins.
- Materializer.PropertyFilled: a list property of a non-generic collection class (ArrayList), for which `GetGenericArguments().First()` throws, is not modelled; every collection here has an element type.
- Converter.FirstRawMatch: for an enum value with several names, the source reads the DefaultValue of the one name that `ToString()` gives for the value, once per alias. The model checks each member's own DefaultValue.
- DottedNames: a list property of a non-generic collection type, where `GetGenericArguments()[0]` would throw, is not modelled.
- DottedNames: null affixes are not distinguished from empty ones; they render the same.
- ProviderRegistry: what GenericDatabase's constructor does with a null factory is not modelled, because the Database classes are not part of this model. The resource text of the InvalidOperationException is not modelled either.
- Keys.ApplicableKeys: its contract states which keys apply, but not that caller order is kept; the order follows from its definition.
- TypeModel.FirstProp: the lookup is written as a case-insensitive match on ASCII-lowered names; .NET's culture rules are not modelled.

Where the code and the library's own description differ, the model follows the code:

- Get<T> without a top-level key rebuilds the object from each row in turn, so the last row wins. Rows are not merged.
- A NULL key cell does not dismiss a list item. It goes through the conversion like any other cell.
- Nullable<bool> and Nullable<enum> targets do not get the marker and enum rules. Those tests compare the declared type itself.

## Findings

| source | as written | input that shows it | evidently intended | confidence | as-written member | corrected member |
|---|---|---|---|---|---|---|
| Thimens.DataMapper/New/HashItemEqualityComparer.cs:23 | `prop.GetValue(x) != prop.GetValue(y)` compares two `object`s by reference. Each GetValue boxes a value-type key afresh. | T has one `int` key `ID` with `ID = 1`; `Equals(x, x)` returns false. | Compare key values with `Equals`, as Thimens.DataMapper/HashItemEqualityComparer.cs:25 does. Then an item equals itself. | high; not executed | DraftHashComparer.DraftNotReflexive | HashComparer.KeysEqualReflexive |

=== FILE: comparer.dfy ===
/** HashItemEqualityComparer<T>: equality of items by their key properties, a hash that agrees
    with it, and HashItem, the left operand of the last comparison that found two items equal. */
module HashComparer {
  import opened Wrappers
  import opened TypeModel

  const TwoTo31: int := 0x8000_0000

  /** Int32 arithmetic without overflow checks: n brought into [-2^31, 2^31) modulo 2^32. */
  function Wrap32(n: int): (r: int)
    ensures -TwoTo31 <= r < TwoTo31
    ensures -TwoTo31 <= n < TwoTo31 ==> r == n
  {
    (n + TwoTo31) % (2 * TwoTo31) - TwoTo31
  }

  /** `hash = (13 * hash) + h`, in Int32 arithmetic. */
  function Mix(hash: int, h: int): int {
    Wrap32(13 * hash + h)
  }

  /** The hash both comparers start from. */
  const Seed: int := 27

  /** An item as the comparer receives it: null, or an instance with one value per property of T. */
  predicate IsItem(item: Val, width: nat) {
    item.Null? || (item.Obj? && |item.fields| == width)
  }

  /** The key properties, as indices into the properties of T. */
  predicate KeysWithin(keys: seq<nat>, width: nat) {
    forall j :: 0 <= j < |keys| ==> keys[j] < width
  }

  /** `prop.GetValue(item)`: reading a property of a null item raises TargetException. */
  function GetValue(item: Val, k: nat): (r: Result<Val>)
    requires item.Null? || (item.Obj? && k < |item.fields|)
    ensures r.Err? <==> item.Null?
    ensures r.Err? ==> r.error == Target
    ensures r.Ok? ==> r.value == item.fields[k]
  {
    if item.Null? then Err(Target) else Ok(item.fields[k])
  }

  /** The key loop of Equals from key i on: the value of x must `.Equals` the value of y;
      the first mismatch ends the loop, and a null value on x raises NullReferenceException. */
  function KeysEqualFrom(keys: seq<nat>, width: nat, i: nat, x: Val, y: Val): Result<bool>
    requires i <= |keys| && KeysWithin(keys, width) && IsItem(x, width) && IsItem(y, width)
    decreases |keys| - i
  {
    if i == |keys| then Ok(true)
    else
      var vx :- GetValue(x, keys[i]);
      var vy :- GetValue(y, keys[i]);
      if vx.Null? then Err(NullReference)
      else if vx != vy then Ok(false)
      else KeysEqualFrom(keys, width, i + 1, x, y)
  }

  /** Equals(x, y): the key comparison, or T's own Equals when the key set is null. */
  function EqualsSpec(keyProperties: Option<seq<nat>>, width: nat, same: (Val, Val) -> bool, x: Val, y: Val): (r: Result<bool>)
    requires keyProperties.Some? ==> KeysWithin(keyProperties.value, width)
    requires IsItem(x, width) && IsItem(y, width)
    ensures r.Err? ==> r.error == NullReference || r.error == Target
    ensures keyProperties.None? ==> (r.Err? <==> x.Null?)
    ensures keyProperties.Some? && x.Obj? && y.Obj? ==>
      (r == Ok(true) <==>
       forall j :: 0 <= j < |keyProperties.value| ==>
         !x.fields[keyProperties.value[j]].Null? && x.fields[keyProperties.value[j]] == y.fields[keyProperties.value[j]])
  {
    match keyProperties
    case Some(keys) =>
      if x.Obj? && y.Obj? then
        KeysEqualIff(keys, width, 0, x, y);
        KeysEqualFrom(keys, width, 0, x, y)
      else KeysEqualFrom(keys, width, 0, x, y)
    case None => if x.Null? then Err(NullReference) else Ok(same(x, y))
  }

  /** The key loop of GetHashCode from key i on, with the hash so far; a null key value raises
      NullReferenceException. */
  function HashFrom(keys: seq<nat>, width: nat, i: nat, hash: int, hashOf: Val -> int, obj: Val): (r: Result<int>)
    requires i <= |keys| && KeysWithin(keys, width) && IsItem(obj, width)
    ensures r.Ok? ==> r.value == hash || -TwoTo31 <= r.value < TwoTo31
    ensures r.Err? ==> r.error == NullReference || r.error == Target
    ensures obj.Obj? ==> (r.Ok? <==> forall j :: i <= j < |keys| ==> !obj.fields[keys[j]].Null?)
    decreases |keys| - i
  {
    if i == |keys| then Ok(hash)
    else
      var v :- GetValue(obj, keys[i]);
      if v.Null? then Err(NullReference)
      else HashFrom(keys, width, i + 1, Mix(hash, hashOf(v)), hashOf, obj)
  }

  /** GetHashCode(obj): the fold over the key values, or over T's own hash when the key set is null. */
  function HashSpec(keyProperties: Option<seq<nat>>, width: nat, hashOf: Val -> int, objHash: Val -> int, obj: Val): (r: Result<int>)
    requires keyProperties.Some? ==> KeysWithin(keyProperties.value, width)
    requires IsItem(obj, width)
    ensures r.Ok? ==> -TwoTo31 <= r.value < TwoTo31
    ensures r.Err? ==> r.error == NullReference || r.error == Target
    ensures keyProperties.None? ==> (r.Err? <==> obj.Null?)
    ensures keyProperties.Some? && obj.Obj? ==>
      (r.Ok? <==> forall j :: 0 <= j < |keyProperties.value| ==> !obj.fields[keyProperties.value[j]].Null?)
  {
    match keyProperties
    case Some(keys) => HashFrom(keys, width, 0, Seed, hashOf, obj)
    case None => if obj.Null? then Err(NullReference) else Ok(Mix(Seed, objHash(obj)))
  }

  /** Two instances are equal iff every key value of x is not null and equals the one of y;
      the only exception the key loop raises on instances is the NullReferenceException of a
      null key value of x. */
  lemma {:induction false} KeysEqualIff(keys: seq<nat>, width: nat, i: nat, x: Val, y: Val)
    requires i <= |keys| && KeysWithin(keys, width) && x.Obj? && y.Obj? && IsItem(x, width) && IsItem(y, width)
    ensures KeysEqualFrom(keys, width, i, x, y) == Ok(true) <==>
      forall j :: i <= j < |keys| ==> !x.fields[keys[j]].Null? && x.fields[keys[j]] == y.fields[keys[j]]
    ensures KeysEqualFrom(keys, width, i, x, y).Err? ==>
      KeysEqualFrom(keys, width, i, x, y).error == NullReference &&
      exists j :: i <= j < |keys| && x.fields[keys[j]].Null?
    decreases |keys| - i
  {
    if i < |keys| {
      KeysEqualIff(keys, width, i + 1, x, y);
    }
  }

  /** An instance whose key values are not null equals itself. */
  lemma KeysEqualReflexive(keys: seq<nat>, width: nat, x: Val)
    requires KeysWithin(keys, width) && x.Obj? && IsItem(x, width)
    requires forall j :: 0 <= j < |keys| ==> !x.fields[keys[j]].Null?
    ensures KeysEqualFrom(keys, width, 0, x, x) == Ok(true)
  {
    KeysEqualIff(keys, width, 0, x, x);
  }

  /** With an empty key set any two items, null ones included, are equal and hash alike. */
  lemma EmptyKeySet(width: nat, same: (Val, Val) -> bool, hashOf: Val -> int, objHash: Val -> int, x: Val, y: Val)
    requires IsItem(x, width) && IsItem(y, width)
    ensures EqualsSpec(Some([]), width, same, x, y) == Ok(true)
    ensures HashSpec(Some([]), width, hashOf, objHash, x) == HashSpec(Some([]), width, hashOf, objHash, y) == Ok(Seed)
  {
  }

  lemma {:induction false} HashFromAgrees(keys: seq<nat>, width: nat, i: nat, hash: int, hashOf: Val -> int, x: Val, y: Val)
    requires i <= |keys| && KeysWithin(keys, width) && IsItem(x, width) && IsItem(y, width)
    requires KeysEqualFrom(keys, width, i, x, y) == Ok(true)
    ensures HashFrom(keys, width, i, hash, hashOf, x).Ok?
    ensures HashFrom(keys, width, i, hash, hashOf, x) == HashFrom(keys, width, i, hash, hashOf, y)
    decreases |keys| - i
  {
    if i < |keys| {
      HashFromAgrees(keys, width, i + 1, Mix(hash, hashOf(x.fields[keys[i]])), hashOf, x, y);
    }
  }

  /** Items that Equals finds equal get equal hashes, provided T's own Equals and GetHashCode
      agree when the key set is null. */
  lemma EqualItemsHashAlike(keyProperties: Option<seq<nat>>, width: nat, same: (Val, Val) -> bool,
                            hashOf: Val -> int, objHash: Val -> int, x: Val, y: Val)
    requires keyProperties.Some? ==> KeysWithin(keyProperties.value, width)
    requires IsItem(x, width) && IsItem(y, width)
    requires keyProperties.None? ==> (same(x, y) ==> !y.Null? && objHash(x) == objHash(y))
    requires EqualsSpec(keyProperties, width, same, x, y) == Ok(true)
    ensures HashSpec(keyProperties, width, hashOf, objHash, x).Ok?
    ensures HashSpec(keyProperties, width, hashOf, objHash, x) == HashSpec(keyProperties, width, hashOf, objHash, y)
  {
    if keyProperties.Some? {
      HashFromAgrees(keyProperties.value, width, 0, Seed, hashOf, x, y);
    }
  }

  class HashItemEqualityComparer {
    /** `_keyProperties`, by index into the properties of T; None for a null key set. */
    const keyProperties: Option<seq<nat>>
    /** The number of properties of T. */
    const width: nat
    /** T's own Equals, used when the key set is null. */
    const same: (Val, Val) -> bool
    /** GetHashCode of a key value. */
    const hashOf: Val -> int
    /** T's own GetHashCode, used when the key set is null. */
    const objHash: Val -> int
    /** HashItem. */
    var hashItem: Val

    predicate Valid() {
      keyProperties.Some? ==> KeysWithin(keyProperties.value, width)
    }

    /** The constructor: HashItem starts as default(T). */
    constructor (keyProperties: Option<seq<nat>>, width: nat, ty: Ty, same: (Val, Val) -> bool,
                 hashOf: Val -> int, objHash: Val -> int)
      requires keyProperties.Some? ==> KeysWithin(keyProperties.value, width)
      ensures Valid()
      ensures this.keyProperties == keyProperties && this.width == width && this.same == same
      ensures this.hashOf == hashOf && this.objHash == objHash
      ensures hashItem == Default(ty)
    {
      this.keyProperties := keyProperties;
      this.width := width;
      this.same := same;
      this.hashOf := hashOf;
      this.objHash := objHash;
      hashItem := Default(ty);
    }

    /** Equals: on a true result HashItem becomes x; otherwise it is left as it was. */
    method Equals(x: Val, y: Val) returns (r: Result<bool>)
      requires Valid() && IsItem(x, width) && IsItem(y, width)
      modifies this
      ensures r == EqualsSpec(keyProperties, width, same, x, y)
      ensures hashItem == if r == Ok(true) then x else old(hashItem)
    {
      if keyProperties.Some? {
        var keys := keyProperties.value;
        var i := 0;
        while i < |keys|
          invariant 0 <= i <= |keys| && hashItem == old(hashItem)
          invariant KeysEqualFrom(keys, width, 0, x, y) == KeysEqualFrom(keys, width, i, x, y)
        {
          var vx :- GetValue(x, keys[i]);
          var vy :- GetValue(y, keys[i]);
          if vx.Null? {
            return Err(NullReference);
          }
          if vx != vy {
            return Ok(false);
          }
          i := i + 1;
        }
      } else {
        if x.Null? {
          return Err(NullReference);
        }
        if !same(x, y) {
          return Ok(false);
        }
      }
      hashItem := x;
      return Ok(true);
    }

    /** GetHashCode: starts at 27 and folds `13 * hash + hash(value)` over the key values. */
    method GetHashCode(obj: Val) returns (r: Result<int>)
      requires Valid() && IsItem(obj, width)
      ensures r == HashSpec(keyProperties, width, hashOf, objHash, obj)
    {
      var hash := Seed;
      if keyProperties.Some? {
        var keys := keyProperties.value;
        var i := 0;
        while i < |keys|
          invariant 0 <= i <= |keys|
          invariant HashFrom(keys, width, 0, Seed, hashOf, obj) == HashFrom(keys, width, i, hash, hashOf, obj)
        {
          var v :- GetValue(obj, keys[i]);
          if v.Null? {
            return Err(NullReference);
          }
          hash := Mix(hash, hashOf(v));
          i := i + 1;
        }
      } else {
        if obj.Null? {
          return Err(NullReference);
        }
        hash := Mix(hash, objHash(obj));
      }
      return Ok(hash);
    }
  }
}

=== FILE: converter.dfy ===
/** GetValueFromDataReader: turning one cell into the value of a property,
    in the current engine and in the legacy engine (ODBC decimal rule, "s" marker). */
module Converter {
  import opened Wrappers
  import opened Text
  import opened TypeModel
  import opened DataReader

  /** Which copy of the engine runs. The legacy one knows the Database's provider factory. */
  datatype Variant = Current | Legacy(providerFactory: string)

  const OdbcFactory: string := "System.Data.Odbc.OdbcFactory"

  predicate IsOdbc(variant: Variant) {
    variant.Legacy? && variant.providerFactory == OdbcFactory
  }

  /** How `Convert.ChangeType` ends: with a value, or with the exception it throws. */
  datatype Coercion =
    | Converted(value: Val)
    | NotConvertible   // InvalidCastException: no conversion between the two types
    | BadFormat        // FormatException: a text that does not parse as the target type
    | OutOfRange       // OverflowException: a value outside the target type's range

  /** The library behaviour the converter calls into:
      coerce    Convert.ChangeType(cell, type), with the exception it throws;
      unbox     the cast `(T)reader[0]`, None when it throws;
      render    ToString() of a cell that is neither text nor DBNull;
      separator NumberFormatInfo.CurrentInfo.CurrencyDecimalSeparator. */
  datatype Env = Env(
    variant: Variant,
    coerce: (Cell, Ty) -> Coercion,
    unbox: (Cell, Ty) -> Option<Val>,
    render: Cell -> string,
    separator: string)

  /** The text that a boolean property reads as true. */
  function Marker(variant: Variant): (m: string)
    ensures |m| == 1
  {
    if variant.Current? then "y" else "s"
  }

  /** `Convert.ChangeType(cell, Nullable.GetUnderlyingType(type) ?? type)`. */
  function ChangeType(env: Env, cell: Cell, ty: Ty): (r: Result<Val>)
    ensures r.Ok? <==> env.coerce(cell, Unwrap(ty)).Converted?
    ensures r.Ok? ==> r.value == env.coerce(cell, Unwrap(ty)).value
    ensures env.coerce(cell, Unwrap(ty)).NotConvertible? ==> r == Err(InvalidCast)
    ensures env.coerce(cell, Unwrap(ty)).BadFormat? ==> r == Err(Format)
    ensures env.coerce(cell, Unwrap(ty)).OutOfRange? ==> r == Err(Overflow)
  {
    match env.coerce(cell, Unwrap(ty))
    case Converted(v) => Ok(v)
    case NotConvertible => Err(InvalidCast)
    case BadFormat => Err(Format)
    case OutOfRange => Err(Overflow)
  }

  /** The largest scale a decimal has: `Convert.ToDecimal` of 10^n overflows beyond it. */
  const MaxDecimalScale: nat := 28

  /** `cell.ToString()`. */
  function CellText(env: Env, cell: Cell): string {
    match cell
    case DbNull => ""
    case Text(s) => s
    case _ => env.render(cell)
  }

  /** 10^n. */
  function Pow10(n: nat): (p: nat)
    ensures p >= 1
  {
    if n == 0 then 1 else 10 * Pow10(n - 1)
  }

  /** The number a decimal cell stands for: its mantissa divided by 10^scale. */
  function DecValue(c: Cell): real
    requires c.Dec?
  {
    c.mantissa as real / Pow10(c.scale) as real
  }

  lemma {:induction false} Pow10Add(a: nat, b: nat)
    ensures Pow10(a + b) == Pow10(a) * Pow10(b)
  {
    if a > 0 {
      Pow10Add(a - 1, b);
      assert Pow10(a + b) == 10 * Pow10(a - 1 + b);
    }
  }

  /** The NumericScale the schema table declares for a column: the first schema row whose
      ColumnName equals the column up to case (DataTable.Select), 0 when there is no such
      row or no NumericScale column; a DBNull scale makes Convert.ToInt32 throw. */
  function ScaleOf(reader: Reader, column: string): (r: Result<int>)
    ensures r.Err? ==> r.error == NotSupported || r.error == InvalidCast
    ensures reader.schema.Some? && !reader.schema.value.hasNumericScale ==> r == Ok(0)
  {
    match reader.schema
    case None => Err(NotSupported)
    case Some(schema) =>
      if !schema.hasNumericScale then Ok(0)
      else match SchemaRowOf(schema.rows, column)
        case None => Ok(0)
        case Some(row) =>
          match row.numericScale
          case None => Err(InvalidCast)
          case Some(scale) => Ok(scale)
  }

  /** The first schema row for a column, compared without case. */
  function SchemaRowOf(rows: seq<SchemaRow>, column: string): (r: Option<SchemaRow>)
    ensures r.Some? ==> r.value in rows && Lower(r.value.columnName) == Lower(column)
    ensures r.None? ==> forall i :: 0 <= i < |rows| ==> Lower(rows[i].columnName) != Lower(column)
  {
    if rows == [] then None
    else if Lower(rows[0].columnName) == Lower(column) then Some(rows[0])
    else SchemaRowOf(rows[1..], column)
  }

  /** The first enum member, in Enum.GetValues order, whose DefaultValue equals the cell. */
  function FirstRawMatch(members: seq<EnumMember>, cell: Cell): (r: Option<nat>)
    ensures r.Some? ==> r.value < |members| && members[r.value].raw == Some(cell)
    ensures r.Some? ==> forall j :: 0 <= j < r.value ==> members[j].raw != Some(cell)
    ensures r.None? ==> forall j :: 0 <= j < |members| ==> members[j].raw != Some(cell)
  {
    if members == [] then None
    else if members[0].raw == Some(cell) then Some(0)
    else match FirstRawMatch(members[1..], cell)
      case None => None
      case Some(k) => Some(k + 1)
  }

  /** The first member whose lower-cased name is `name`. */
  function FirstNamed(members: seq<EnumMember>, name: string): (r: Option<nat>)
    ensures r.Some? ==> r.value < |members| && Lower(members[r.value].name) == name
    ensures r.Some? ==> forall j :: 0 <= j < r.value ==> Lower(members[j].name) != name
    ensures r.None? ==> forall j :: 0 <= j < |members| ==> Lower(members[j].name) != name
    ensures forall j ::
      (0 <= j < |members| && Lower(members[j].name) == name &&
       forall i :: 0 <= i < j ==> Lower(members[i].name) != name) ==> r == Some(j)
  {
    FirstIndex(MemberNames(members), name)
  }

  /** The lower-cased names of the members, in order. */
  function MemberNames(members: seq<EnumMember>): (r: seq<string>)
    ensures |r| == |members|
    ensures forall i :: 0 <= i < |members| ==> r[i] == Lower(members[i].name)
  {
    seq(|members|, i requires 0 <= i < |members| => Lower(members[i].name))
  }

  /** `Enum.Parse(type, text, true)` by member name. */
  function ParseEnum(members: seq<EnumMember>, text: string): (r: Result<Val>)
    ensures r.Ok? <==> exists j :: 0 <= j < |members| && Lower(members[j].name) == Lower(Trim(text))
    ensures r.Ok? ==>
      exists j :: 0 <= j < |members| && Lower(members[j].name) == Lower(Trim(text)) && r.value == Member(members[j].value)
    ensures forall j ::
      (0 <= j < |members| && Lower(members[j].name) == Lower(Trim(text)) &&
       forall i :: 0 <= i < j ==> Lower(members[i].name) != Lower(Trim(text))) ==>
        r == Ok(Member(members[j].value))
    ensures r.Err? ==> r.error == ArgumentError(NotEnumMember)
  {
    var name := Lower(Trim(text));
    match FirstNamed(members, name)
    case None => Err(ArgumentError(NotEnumMember))
    case Some(j) => Ok(Member(members[j].value))
  }

  /** The conversion of a cell already read from `column` into a value of type `ty`: it fails
      only with the coercion's, the schema lookup's or Enum.Parse's exception; an enum target
      gets one of its members, and a text cell read into a bool always gives a flag. */
  function ConvertCell(env: Env, reader: Reader, column: string, cell: Cell, ty: Ty): (r: Result<Val>)
    ensures r.Err? ==>
      (r.error == InvalidCast || r.error == Format || r.error == Overflow || r.error == NotSupported ||
       r.error == ArgumentError(NotEnumMember))
    ensures ty.Enum? && !(IsOdbc(env.variant) && cell.Dec?) && r.Ok? ==>
      exists j :: 0 <= j < |ty.members| && r.value == Member(ty.members[j].value)
    ensures ty.Bool? && cell.Text? ==> r.Ok? && r.value.Flag?
  {
    if IsOdbc(env.variant) && cell.Dec? then
      // the driver may drop the decimal point: divide by 10^scale when its text has no separator
      var scale :- ScaleOf(reader, column);
      if scale > 0 && !Contains(env.render(cell), env.separator) then
        if scale > MaxDecimalScale then Err(Overflow)
        else ChangeType(env, Dec(cell.mantissa, cell.scale + scale), ty)
      else
        ChangeType(env, cell, ty)
    else if ty.Enum? then
      match FirstRawMatch(ty.members, cell)
      case Some(j) => Ok(Member(ty.members[j].value))
      case None => ParseEnum(ty.members, CellText(env, cell))
    else if cell.Text? then
      if ty.Bool? then Ok(Flag(Lower(Normalised(cell.s)) == Marker(env.variant)))
      else ChangeType(env, Text(Normalised(cell.s)), ty)
    else
      ChangeType(env, cell, ty)
  }

  /** GetValueFromDataReader: reads `dataReader[column]` and converts it. */
  function GetValueFromDataReader(env: Env, reader: Reader, row: seq<Cell>, column: string, ty: Ty): (r: Result<Val>)
    ensures ReadCell(reader, row, column).Err? ==> r == Err(IndexOutOfRange)
    ensures ReadCell(reader, row, column).Ok? ==> r == ConvertCell(env, reader, column, ReadCell(reader, row, column).value, ty)
  {
    var cell :- ReadCell(reader, row, column);
    ConvertCell(env, reader, column, cell, ty)
  }

  /** A text cell read into a bool property is true exactly when its trimmed, quote-normalised,
      lower-cased text is the marker ("y" in the current engine, "s" in the legacy one),
      and false otherwise: it never fails. */
  lemma BoolMarker(env: Env, reader: Reader, column: string, s: string)
    ensures ConvertCell(env, reader, column, Text(s), Bool).Ok?
    ensures ConvertCell(env, reader, column, Text(s), Bool) == Ok(Flag(true))
      <==> Lower(Normalised(s)) == Marker(env.variant)
    ensures env.variant.Current? ==>
      (ConvertCell(env, reader, column, Text(s), Bool) == Ok(Flag(true)) <==> Lower(Normalised(s)) == "y")
    ensures env.variant.Legacy? ==>
      (ConvertCell(env, reader, column, Text(s), Bool) == Ok(Flag(true)) <==> Lower(Normalised(s)) == "s")
  {
  }

  /** Surrounding white space never changes how a text cell converts, except for enums,
      whose DefaultValue comparison sees the untrimmed cell. */
  lemma TextTrimmedFirst(env: Env, reader: Reader, column: string, s: string, ty: Ty)
    requires !ty.Enum?
    ensures ConvertCell(env, reader, column, Text(Trim(s)), ty) == ConvertCell(env, reader, column, Text(s), ty)
  {
    NormalisedTrim(s);
    TextCell(env, reader, column, s, ty);
    TextCell(env, reader, column, Trim(s), ty);
  }

  /** How a text cell converts to anything but an enum: through its normalised text only. */
  lemma TextCell(env: Env, reader: Reader, column: string, s: string, ty: Ty)
    requires !ty.Enum?
    ensures ConvertCell(env, reader, column, Text(s), ty) ==
      if ty.Bool? then Ok(Flag(Lower(Normalised(s)) == Marker(env.variant)))
      else ChangeType(env, Text(Normalised(s)), ty)
  {
  }

  /** A text cell read into anything but a bool or an enum is converted from its trimmed,
      quote-normalised text, against the type under a Nullable. */
  lemma NonBoolText(env: Env, reader: Reader, column: string, s: string, ty: Ty)
    requires !ty.Bool? && !ty.Enum?
    ensures ConvertCell(env, reader, column, Text(s), ty).Ok? <==> env.coerce(Text(Normalised(s)), Unwrap(ty)).Converted?
    ensures ConvertCell(env, reader, column, Text(s), ty).Ok? ==>
      Converted(ConvertCell(env, reader, column, Text(s), ty).value) == env.coerce(Text(Normalised(s)), Unwrap(ty))
    ensures env.coerce(Text(Normalised(s)), Unwrap(ty)).BadFormat? ==>
      ConvertCell(env, reader, column, Text(s), ty) == Err(Format)
  {
    TextCell(env, reader, column, s, ty);
  }

  /** A Nullable<U> target converts like U itself, for every U that is neither bool nor an enum
      (those two rules look at the declared type, which a Nullable is not). */
  lemma NullableUnwrapped(env: Env, reader: Reader, column: string, cell: Cell, u: Ty)
    requires !u.Bool? && !u.Enum? && !u.Nullable?
    ensures ConvertCell(env, reader, column, cell, Nullable(u)) == ConvertCell(env, reader, column, cell, u)
  {
  }

  /** A Nullable<bool> target does not get the marker rule: "y" (or "s") goes to
      Convert.ChangeType instead. */
  lemma NullableBoolSkipsMarker(env: Env, reader: Reader, column: string, s: string)
    ensures ConvertCell(env, reader, column, Text(s), Nullable(Bool)) == ChangeType(env, Text(Normalised(s)), Bool)
  {
  }

  /** Enum targets: the first member, in order, whose DefaultValue equals the cell wins;
      otherwise the cell's text is parsed as a member name without case, and a text that
      names no member is rejected. */
  lemma EnumRawFirst(env: Env, reader: Reader, column: string, cell: Cell, ty: Ty, j: nat)
    requires ty.Enum? && !(IsOdbc(env.variant) && cell.Dec?)
    requires j < |ty.members| && ty.members[j].raw == Some(cell)
    requires forall i :: 0 <= i < j ==> ty.members[i].raw != Some(cell)
    ensures ConvertCell(env, reader, column, cell, ty) == Ok(Member(ty.members[j].value))
  {
    var r := FirstRawMatch(ty.members, cell);
    assert r == Some(j);
  }

  lemma EnumByName(env: Env, reader: Reader, column: string, cell: Cell, ty: Ty)
    requires ty.Enum? && !(IsOdbc(env.variant) && cell.Dec?)
    requires forall i :: 0 <= i < |ty.members| ==> ty.members[i].raw != Some(cell)
    ensures ConvertCell(env, reader, column, cell, ty).Ok? <==>
      exists i :: 0 <= i < |ty.members| && Lower(ty.members[i].name) == Lower(Trim(CellText(env, cell)))
    ensures forall j ::
      (0 <= j < |ty.members| && Lower(ty.members[j].name) == Lower(Trim(CellText(env, cell))) &&
       forall i :: 0 <= i < j ==> Lower(ty.members[i].name) != Lower(Trim(CellText(env, cell)))) ==>
        ConvertCell(env, reader, column, cell, ty) == Ok(Member(ty.members[j].value))
    ensures ConvertCell(env, reader, column, cell, ty).Err? ==>
      ConvertCell(env, reader, column, cell, ty).error == ArgumentError(NotEnumMember)
  {
    assert FirstRawMatch(ty.members, cell).None?;
    assert ConvertCell(env, reader, column, cell, ty) == ParseEnum(ty.members, CellText(env, cell));
    var f := FirstNamed(ty.members, Lower(Trim(CellText(env, cell))));
    if f.Some? {
      assert ConvertCell(env, reader, column, cell, ty) == Ok(Member(ty.members[f.value].value));
    }
  }

  /** ODBC, scaling case: a decimal whose schema scale is positive and whose text has no
      separator is divided by 10^scale before the coercion; a scale beyond 28 makes
      `Convert.ToDecimal(Math.Pow(10, scale))` overflow. */
  lemma OdbcScaling(env: Env, reader: Reader, column: string, m: int, s: nat, ty: Ty, scale: nat)
    requires IsOdbc(env.variant)
    requires ScaleOf(reader, column) == Ok(scale) && scale > 0
    requires !Contains(env.render(Dec(m, s)), env.separator)
    ensures scale <= MaxDecimalScale ==> ConvertCell(env, reader, column, Dec(m, s), ty) == ChangeType(env, Dec(m, s + scale), ty)
    ensures scale > MaxDecimalScale ==> ConvertCell(env, reader, column, Dec(m, s), ty) == Err(Overflow)
    ensures DecValue(Dec(m, s + scale)) == DecValue(Dec(m, s)) / Pow10(scale) as real
  {
    OdbcScaledCell(env, reader, column, m, s, ty, scale);
    DecScaled(m, s, scale);
  }

  /** The cell OdbcScaling hands to the coercion, or the overflow. */
  lemma OdbcScaledCell(env: Env, reader: Reader, column: string, m: int, s: nat, ty: Ty, scale: nat)
    requires IsOdbc(env.variant)
    requires ScaleOf(reader, column) == Ok(scale) && scale > 0
    requires !Contains(env.render(Dec(m, s)), env.separator)
    ensures scale <= MaxDecimalScale ==> ConvertCell(env, reader, column, Dec(m, s), ty) == ChangeType(env, Dec(m, s + scale), ty)
    ensures scale > MaxDecimalScale ==> ConvertCell(env, reader, column, Dec(m, s), ty) == Err(Overflow)
  {
  }

  /** Adding `scale` to a decimal's scale divides its value by 10^scale. */
  lemma DecScaled(m: int, s: nat, scale: nat)
    ensures DecValue(Dec(m, s + scale)) == DecValue(Dec(m, s)) / Pow10(scale) as real
  {
    Pow10Add(s, scale);
    RealOfProduct(Pow10(s), Pow10(scale));
    DivideTwice(m as real, Pow10(s) as real, Pow10(scale) as real);
  }

  lemma RealOfProduct(a: int, b: int)
    ensures (a * b) as real == a as real * b as real
  {
  }

  lemma DivideTwice(m: real, x: real, y: real)
    requires x > 0.0 && y > 0.0
    ensures m / (x * y) == (m / x) / y
  {
  }

  /** ODBC, other cases: no schema row for the column, or no NumericScale column, gives scale 0,
      and a decimal with scale 0 or with a separator in its text passes through unchanged. */
  lemma OdbcPassThrough(env: Env, reader: Reader, column: string, cell: Cell, ty: Ty)
    requires IsOdbc(env.variant) && cell.Dec? && reader.schema.Some?
    requires !reader.schema.value.hasNumericScale
          || SchemaRowOf(reader.schema.value.rows, column).None?
          || Contains(env.render(cell), env.separator)
    requires ScaleOf(reader, column).Ok?
    ensures ConvertCell(env, reader, column, cell, ty) == ChangeType(env, cell, ty)
  {
  }

  /** The ODBC rule comes before the enum rule: an ODBC decimal is never matched against
      DefaultValue attributes or member names; it is coerced, scaled or not, or overflows. */
  lemma OdbcBeforeEnum(env: Env, reader: Reader, column: string, cell: Cell, ty: Ty)
    requires IsOdbc(env.variant) && cell.Dec? && ty.Enum?
    requires ScaleOf(reader, column).Ok?
    ensures ConvertCell(env, reader, column, cell, ty) == ChangeType(env, cell, ty)
         || ConvertCell(env, reader, column, cell, ty) ==
              ChangeType(env, Dec(cell.mantissa, cell.scale + ScaleOf(reader, column).value as nat), ty)
         || ConvertCell(env, reader, column, cell, ty) == Err(Overflow)
  {
  }

  /** Outside ODBC, the legacy and the current engines convert every cell alike except a
      text cell read into a bool, where only the marker differs. */
  lemma EnginesAgree(env: Env, reader: Reader, column: string, cell: Cell, ty: Ty)
    requires env.variant.Legacy? && !IsOdbc(env.variant)
    requires !(cell.Text? && ty.Bool?)
    ensures ConvertCell(env, reader, column, cell, ty) == ConvertCell(env.(variant := Current), reader, column, cell, ty)
  {
  }
}

=== FILE: datamap.dfy ===
/** The map builder: from the lower-cased, dotted column names of a reader, a tree of DataMap
    nodes saying which column fills which property of T, which properties are lists or nested
    objects, and which columns are caller keys. */
module DataMapping {
  import opened Wrappers
  import opened Text
  import opened TypeModel
  import opened DataReader

  /** An entry of a columns dictionary: a lower-cased column name and the segments of it still
      to be matched (all of them at the top level, one fewer at each level down). */
  datatype Column = Column(name: string, path: seq<string>)

  datatype MapType = ValueMap | ReferenceMap | ListMap | ValueListMap

  /** A DataMap node: the property it fills, its column (value nodes only), whether that column
      is a caller key, its kind, and the nodes of the property's own type. */
  datatype DataMap = DataMap(property: Prop, column: Option<string>, isKey: bool, mapType: MapType, maps: seq<DataMap>)

  /** A dictionary from column name to path: the names are distinct and every path has a first segment. */
  predicate IsDictionary(cols: seq<Column>) {
    (forall i :: 0 <= i < |cols| ==> |cols[i].path| > 0) &&
    (forall i, j :: 0 <= i < j < |cols| ==> cols[i].name != cols[j].name)
  }

  /** The entries GetColumnsDictonary adds for these field names, in field order. */
  function ColumnsFor(names: seq<string>): (r: seq<Column>)
    ensures |r| == |names|
    ensures forall i :: 0 <= i < |names| ==> r[i] == Column(Lower(names[i]), Split(Lower(names[i]), '.'))
  {
    seq(|names|, i requires 0 <= i < |names| => Column(Lower(names[i]), Split(Lower(names[i]), '.')))
  }

  /** GetColumnsDictonary: every field name, lower-cased, with its path; two names equal up to
      case make Dictionary.Add throw. */
  method GetColumnsDictonary(reader: Reader) returns (r: Result<seq<Column>>)
    ensures r.Ok? <==> NoDup(LowerAll(reader.fieldNames))
    ensures r.Err? ==> r.error == ArgumentError(DuplicateColumn)
    ensures r.Ok? ==> r.value == ColumnsFor(reader.fieldNames) && IsDictionary(r.value)
    ensures r.Ok? ==> forall i :: 0 <= i < |r.value| ==> Join(r.value[i].path, '.') == r.value[i].name
  {
    var names := reader.fieldNames;
    var dict: seq<Column> := [];
    for i := 0 to |names|
      invariant dict == ColumnsFor(names[..i])
      invariant NoDup(LowerAll(names[..i]))
    {
      var column := Lower(names[i]);
      if exists k :: 0 <= k < |dict| && dict[k].name == column {
        var k :| 0 <= k < |dict| && dict[k].name == column;
        assert LowerAll(names)[k] == LowerAll(names)[i];
        return Err(ArgumentError(DuplicateColumn));
      }
      dict := dict + [Column(column, Split(column, '.'))];
      assert names[..i + 1] == names[..i] + [names[i]];
    }
    assert names[..|names|] == names;
    forall i | 0 <= i < |dict|
      ensures Join(dict[i].path, '.') == dict[i].name
    {
      SplitJoin(Lower(names[i]), '.');
    }
    return Ok(dict);
  }

  /** The first segment of every column, in dictionary order. */
  function Heads(cols: seq<Column>): (r: seq<string>)
    requires IsDictionary(cols)
    ensures |r| == |cols|
    ensures forall i :: 0 <= i < |cols| ==> r[i] == cols[i].path[0]
  {
    seq(|cols|, i requires 0 <= i < |cols| && IsDictionary(cols) => cols[i].path[0])
  }

  /** The keys of `GroupBy(c => c.Value[0])`: each first segment once, in order of first appearance. */
  function GroupKeys(cols: seq<Column>): seq<string>
    requires IsDictionary(cols)
  {
    Firsts(Heads(cols))
  }

  /** The index of the first column whose first segment is `key`. */
  function FirstColumn(cols: seq<Column>, key: string): (r: Option<nat>)
    requires IsDictionary(cols)
    ensures r.Some? ==> r.value < |cols| && cols[r.value].path[0] == key
    ensures r.Some? ==> forall d :: 0 <= d < r.value ==> cols[d].path[0] != key
    ensures r.None? ==> forall d :: 0 <= d < |cols| ==> cols[d].path[0] != key
  {
    if cols == [] then None
    else if cols[0].path[0] == key then Some(0)
    else match FirstColumn(cols[1..], key)
      case None => None
      case Some(k) => Some(k + 1)
  }

  /** One group of the GroupBy: the columns whose first segment is `key`, in dictionary order. */
  function GroupOf(cols: seq<Column>, key: string): (r: seq<Column>)
    requires IsDictionary(cols)
    ensures IsDictionary(r)
    ensures forall c :: c in r <==> c in cols && |c.path| > 0 && c.path[0] == key
  {
    if cols == [] then []
    else
      TailIsDictionary(cols);
      var rest := GroupOf(cols[1..], key);
      if cols[0].path[0] == key then
        HeadOntoDictionary(cols, rest);
        [cols[0]] + rest
      else rest
  }

  /** The first column put before a dictionary of later columns keeps it a dictionary. */
  lemma HeadOntoDictionary(cols: seq<Column>, rest: seq<Column>)
    requires IsDictionary(cols) && cols != [] && IsDictionary(rest)
    requires forall c :: c in rest ==> c in cols[1..]
    ensures IsDictionary([cols[0]] + rest)
  {
    forall j | 0 <= j < |rest| ensures rest[j].name != cols[0].name {
      assert rest[j] in cols[1..];
      var k :| 0 <= k < |cols[1..]| && cols[1..][k] == rest[j];
      assert cols[k + 1] == rest[j];
    }
    var r := [cols[0]] + rest;
    forall a, b | 0 <= a < b < |r| ensures r[a].name != r[b].name {
      if a == 0 {
        assert r[b] == rest[b - 1];
      } else {
        assert r[a] == rest[a - 1] && r[b] == rest[b - 1];
      }
    }
  }

  /** A group opens with the first column of its key, and there is one for every first segment. */
  lemma {:induction false} GroupHead(cols: seq<Column>, key: string)
    requires IsDictionary(cols) && key in Heads(cols)
    ensures FirstColumn(cols, key).Some?
    ensures GroupOf(cols, key) != [] && GroupOf(cols, key)[0] == cols[FirstColumn(cols, key).value]
  {
    var j :| 0 <= j < |Heads(cols)| && Heads(cols)[j] == key;
    var tail := cols[1..];
    TailIsDictionary(cols);
    if cols[0].path[0] == key {
      assert GroupOf(cols, key) == [cols[0]] + GroupOf(tail, key);
    } else {
      assert j > 0 && Heads(tail)[j - 1] == key;
      GroupHead(tail, key);
      GroupHeadStep(cols, key);
    }
  }

  /** A first column whose first segment is not `key` changes neither the group nor its head. */
  lemma GroupHeadStep(cols: seq<Column>, key: string)
    requires IsDictionary(cols) && cols != [] && cols[0].path[0] != key
    requires IsDictionary(cols[1..]) && FirstColumn(cols[1..], key).Some?
    requires GroupOf(cols[1..], key) != [] && GroupOf(cols[1..], key)[0] == cols[1..][FirstColumn(cols[1..], key).value]
    ensures FirstColumn(cols, key).Some?
    ensures GroupOf(cols, key) != [] && GroupOf(cols, key)[0] == cols[FirstColumn(cols, key).value]
  {
    var k := FirstColumn(cols[1..], key).value;
    assert FirstColumn(cols, key) == Some(k + 1);
    assert GroupOf(cols, key) == GroupOf(cols[1..], key);
  }

  lemma TailIsDictionary(cols: seq<Column>)
    requires IsDictionary(cols) && cols != []
    ensures IsDictionary(cols[1..])
  {
    assert forall i :: 0 <= i < |cols| - 1 ==> cols[1..][i] == cols[i + 1];
  }

  /** `columnsDict`: every column of the group under its full name with its first segment
      removed; a column with nothing left is dropped. */
  function Rest(group: seq<Column>): (r: seq<Column>)
    requires IsDictionary(group)
    ensures IsDictionary(r)
    ensures forall e :: e in r <==> exists c :: c in group && |c.path| > 1 && e == Column(c.name, c.path[1..])
  {
    if group == [] then []
    else
      var init := group[..|group| - 1];
      var last := group[|group| - 1];
      assert group == init + [last];
      var rest := Rest(init);
      if |last.path| > 1 then
        assert forall j :: 0 <= j < |rest| ==> rest[j].name != last.name by {
          forall j | 0 <= j < |rest| ensures rest[j].name != last.name {
            assert rest[j] in rest;
          }
        }
        rest + [Column(last.name, last.path[1..])]
      else rest
  }

  /** `keys.Any(k => k.Equals(column, StringComparison.OrdinalIgnoreCase))`. */
  predicate IsKeyColumn(keys: seq<string>, column: string) {
    exists k :: k in keys && Lower(k) == Lower(column)
  }

  /** No node, at any depth, has the kind ValueList. */
  predicate NoValueList(maps: seq<DataMap>)
    decreases maps
  {
    forall i :: 0 <= i < |maps| ==> maps[i].mapType != ValueListMap && NoValueList(maps[i].maps)
  }

  lemma NoValueListAppend(maps: seq<DataMap>, node: DataMap)
    requires NoValueList(maps) && node.mapType != ValueListMap && NoValueList(node.maps)
    ensures NoValueList(maps + [node])
  {
    var all := maps + [node];
    forall i | 0 <= i < |all|
      ensures all[i].mapType != ValueListMap && NoValueList(all[i].maps)
    {
      if i < |maps| {
        assert all[i] == maps[i];
      }
    }
  }

  /** GetDataMap<T>: one node per group whose key names a property of T. */
  function DataMaps(ty: Ty, cols: seq<Column>, keys: seq<string>): (r: Result<seq<DataMap>>)
    requires IsDictionary(cols)
    ensures r.Err? ==> r.error == ArgumentError(DuplicateProperty)
    ensures !NoDup(LowerNames(PropsOf(ty))) ==> r.Err?
    ensures r.Ok? ==> NoValueList(r.value)
    decreases ty, 2
  {
    if !NoDup(LowerNames(PropsOf(ty))) then Err(ArgumentError(DuplicateProperty))
    else
      FirstsSpec(Heads(cols));
      MapsFrom(ty, cols, keys, GroupKeys(cols), 0, [])
  }

  /** The loop over the groups of GetDataMap from group g on. */
  function MapsFrom(ty: Ty, cols: seq<Column>, keys: seq<string>, groups: seq<string>, g: nat,
                    acc: seq<DataMap>): (r: Result<seq<DataMap>>)
    requires IsDictionary(cols) && g <= |groups| && NoValueList(acc)
    requires forall j :: 0 <= j < |groups| ==> groups[j] in Heads(cols)
    ensures r.Err? ==> r.error == ArgumentError(DuplicateProperty)
    ensures r.Ok? ==> NoValueList(r.value)
    decreases ty, 1, |groups| - g
  {
    if g == |groups| then Ok(acc)
    else match FirstProp(PropsOf(ty), groups[g])
      case None => MapsFrom(ty, cols, keys, groups, g + 1, acc)
      case Some(i) =>
        var group := GroupOf(cols, groups[g]);
        GroupHead(cols, groups[g]);
        var node :- NodeFor(ty, i, group, keys);
        NoValueListAppend(acc, node);
        MapsFrom(ty, cols, keys, groups, g + 1, acc + [node])
  }

  /** The node for property i of T and its group of columns. */
  function NodeFor(ty: Ty, i: nat, group: seq<Column>, keys: seq<string>): (r: Result<DataMap>)
    requires i < |PropsOf(ty)| && IsDictionary(group) && |group| > 0
    ensures r.Err? ==> r.error == ArgumentError(DuplicateProperty)
    ensures r.Ok? ==> r.value.mapType != ValueListMap && NoValueList(r.value.maps)
    decreases ty, 0
  {
    var prop := PropsOf(ty)[i];
    assert prop in ty.props;
    if IsValueType(prop.ty) then
      Ok(DataMap(prop, Some(group[0].name), IsKeyColumn(keys, group[0].name), ValueMap, []))
    else if prop.ty.Lst? then
      var children :- DataMaps(prop.ty.elem, Rest(group), keys);
      Ok(DataMap(prop, None, false, ListMap, children))
    else
      var children :- DataMaps(prop.ty, Rest(group), keys);
      Ok(DataMap(prop, None, false, ReferenceMap, children))
  }

  /** The type whose map a non-value property gets: a list's element type (the array element
      type or the first generic argument), otherwise the declared type. */
  function ChildType(ty: Ty): Ty {
    if ty.Lst? then ty.elem else ty
  }

  /** What a node of T's map says, in terms of the columns: its property is a property of T
      whose lower-cased name is the group key; a value property is a Value node on the first
      column of the group, a key iff some caller key equals that column ignoring case; any
      other property is a List or Reference node whose children are the map of its element
      or declared type over the group's columns with one segment removed. */
  predicate NodeShape(ty: Ty, cols: seq<Column>, keys: seq<string>, n: DataMap)
    requires IsDictionary(cols)
  {
    var key := Lower(n.property.name);
    n.property in PropsOf(ty) &&
    (IsValueType(n.property.ty) ==>
       n.mapType == ValueMap && n.maps == [] && FirstColumn(cols, key).Some? &&
       n.column == Some(cols[FirstColumn(cols, key).value].name) &&
       (n.isKey <==> IsKeyColumn(keys, cols[FirstColumn(cols, key).value].name))) &&
    (!IsValueType(n.property.ty) ==>
       n.mapType == (if IsListType(n.property.ty) then ListMap else ReferenceMap) &&
       n.column.None? && !n.isKey &&
       DataMaps(ChildType(n.property.ty), Rest(GroupOf(cols, key)), keys) == Ok(n.maps))
  }

  /** The lower-cased property names of some nodes. */
  function NodeKeys(nodes: seq<DataMap>): (r: seq<string>)
    ensures |r| == |nodes|
    ensures forall k :: 0 <= k < |nodes| ==> r[k] == Lower(nodes[k].property.name)
  {
    seq(|nodes|, k requires 0 <= k < |nodes| => Lower(nodes[k].property.name))
  }

  /** The nodes built for the first g groups: each has its shape, names one of those groups,
      no two name the same property, and every one of those groups that names a property has its node. */
  predicate Covers(ty: Ty, cols: seq<Column>, keys: seq<string>, nodes: seq<DataMap>, g: nat)
    requires IsDictionary(cols) && g <= |GroupKeys(cols)|
  {
    NoDup(NodeKeys(nodes)) &&
    (forall k :: 0 <= k < |nodes| ==> NodeShape(ty, cols, keys, nodes[k]) && NodeKeys(nodes)[k] in GroupKeys(cols)[..g]) &&
    (forall j :: 0 <= j < g && FirstProp(PropsOf(ty), GroupKeys(cols)[j]).Some? ==> GroupKeys(cols)[j] in NodeKeys(nodes))
  }

  /** The node built for a group has the shape NodeShape describes. */
  lemma NodeForShape(ty: Ty, cols: seq<Column>, keys: seq<string>, key: string, i: nat)
    requires IsDictionary(cols) && FirstProp(PropsOf(ty), key) == Some(i) && key in Heads(cols)
    ensures NodeFor(ty, i, GroupOf(cols, key), keys).Ok? ==>
      NodeShape(ty, cols, keys, NodeFor(ty, i, GroupOf(cols, key), keys).value) &&
      Lower(NodeFor(ty, i, GroupOf(cols, key), keys).value.property.name) == key
  {
    var prop := PropsOf(ty)[i];
    assert prop in PropsOf(ty) && Lower(prop.name) == key;
    var group := GroupOf(cols, key);
    GroupHead(cols, key);
    var r := NodeFor(ty, i, group, keys);
    if r.Ok? && IsValueType(prop.ty) {
      assert r.value == DataMap(prop, Some(group[0].name), IsKeyColumn(keys, group[0].name), ValueMap, []);
      ValueNodeShape(ty, cols, keys, prop);
    } else if r.Ok? {
      var kind := if IsListType(prop.ty) then ListMap else ReferenceMap;
      assert r.value == DataMap(prop, None, false, kind, r.value.maps);
      assert DataMaps(ChildType(prop.ty), Rest(group), keys) == Ok(r.value.maps);
      ChildNodeShape(ty, cols, keys, prop, r.value.maps);
    }
  }

  /** A value property's node on the first column of its group has its shape. */
  lemma ValueNodeShape(ty: Ty, cols: seq<Column>, keys: seq<string>, prop: Prop)
    requires IsDictionary(cols) && prop in PropsOf(ty) && IsValueType(prop.ty)
    requires FirstColumn(cols, Lower(prop.name)).Some? && GroupOf(cols, Lower(prop.name)) != []
    requires GroupOf(cols, Lower(prop.name))[0] == cols[FirstColumn(cols, Lower(prop.name)).value]
    ensures var head := GroupOf(cols, Lower(prop.name))[0];
      NodeShape(ty, cols, keys, DataMap(prop, Some(head.name), IsKeyColumn(keys, head.name), ValueMap, []))
  {
  }

  /** A list or reference property's node over the map of its child type has its shape. */
  lemma ChildNodeShape(ty: Ty, cols: seq<Column>, keys: seq<string>, prop: Prop, maps: seq<DataMap>)
    requires IsDictionary(cols) && prop in PropsOf(ty) && !IsValueType(prop.ty)
    requires DataMaps(ChildType(prop.ty), Rest(GroupOf(cols, Lower(prop.name))), keys) == Ok(maps)
    ensures NodeShape(ty, cols, keys, DataMap(prop, None, false, if IsListType(prop.ty) then ListMap else ReferenceMap, maps))
  {
  }

  /** A group that names no property adds no node. */
  lemma CoversSkip(ty: Ty, cols: seq<Column>, keys: seq<string>, acc: seq<DataMap>, g: nat)
    requires IsDictionary(cols) && g < |GroupKeys(cols)| && Covers(ty, cols, keys, acc, g)
    requires FirstProp(PropsOf(ty), GroupKeys(cols)[g]).None?
    ensures Covers(ty, cols, keys, acc, g + 1)
  {
    var groups := GroupKeys(cols);
    assert groups[..g + 1] == groups[..g] + [groups[g]];
    forall k | 0 <= k < |acc|
      ensures NodeKeys(acc)[k] in groups[..g + 1]
    {
      assert NodeKeys(acc)[k] in groups[..g];
    }
  }

  /** A group that names a property adds that property's node, which no earlier node names. */
  lemma CoversStep(ty: Ty, cols: seq<Column>, keys: seq<string>, acc: seq<DataMap>, g: nat, node: DataMap)
    requires IsDictionary(cols) && g < |GroupKeys(cols)| && NoDup(GroupKeys(cols))
    requires Covers(ty, cols, keys, acc, g)
    requires NodeShape(ty, cols, keys, node) && Lower(node.property.name) == GroupKeys(cols)[g]
    ensures Covers(ty, cols, keys, acc + [node], g + 1)
  {
    var groups := GroupKeys(cols);
    var next := acc + [node];
    assert NodeKeys(next) == NodeKeys(acc) + [groups[g]];
    NamesStep(NodeKeys(acc), groups, g);
    ShapesStep(ty, cols, keys, acc, node);
    CoverageStep(ty, NodeKeys(acc), groups, g);
  }

  lemma ShapesStep(ty: Ty, cols: seq<Column>, keys: seq<string>, acc: seq<DataMap>, node: DataMap)
    requires IsDictionary(cols)
    requires forall k :: 0 <= k < |acc| ==> NodeShape(ty, cols, keys, acc[k])
    requires NodeShape(ty, cols, keys, node)
    ensures forall k :: 0 <= k < |acc| + 1 ==> NodeShape(ty, cols, keys, (acc + [node])[k])
  {
    forall k | 0 <= k < |acc| + 1
      ensures NodeShape(ty, cols, keys, (acc + [node])[k])
    {
      if k < |acc| {
        assert (acc + [node])[k] == acc[k];
      }
    }
  }

  /** Every one of the first g + 1 groups that names a property is among the names, once
      group g's name is added. */
  lemma CoverageStep(ty: Ty, names: seq<string>, groups: seq<string>, g: nat)
    requires g < |groups|
    requires forall j :: 0 <= j < g && FirstProp(PropsOf(ty), groups[j]).Some? ==> groups[j] in names
    ensures forall j :: 0 <= j < g + 1 && FirstProp(PropsOf(ty), groups[j]).Some? ==> groups[j] in names + [groups[g]]
  {
  }

  /** Adding group g's name to distinct names taken from the first g groups keeps them
      distinct and taken from the first g + 1 groups. */
  lemma NamesStep(names: seq<string>, groups: seq<string>, g: nat)
    requires g < |groups| && NoDup(groups) && NoDup(names)
    requires forall k :: 0 <= k < |names| ==> names[k] in groups[..g]
    ensures NoDup(names + [groups[g]])
    ensures forall k :: 0 <= k < |names| + 1 ==> (names + [groups[g]])[k] in groups[..g + 1]
  {
    assert groups[..g + 1] == groups[..g] + [groups[g]];
    assert groups[g] !in groups[..g];
    var next := names + [groups[g]];
    forall a, b | 0 <= a < b < |next|
      ensures next[a] != next[b]
    {
      if b == |names| {
        assert names[a] in groups[..g];
      } else {
        assert next[a] == names[a] && next[b] == names[b];
      }
    }
    forall k | 0 <= k < |next|
      ensures next[k] in groups[..g + 1]
    {
      if k < |names| {
        assert next[k] == names[k] && names[k] in groups[..g];
      }
    }
  }

  lemma {:induction false} MapsFromCovers(ty: Ty, cols: seq<Column>, keys: seq<string>, g: nat, acc: seq<DataMap>)
    requires IsDictionary(cols) && g <= |GroupKeys(cols)| && NoValueList(acc)
    requires forall j :: 0 <= j < |GroupKeys(cols)| ==> GroupKeys(cols)[j] in Heads(cols)
    requires NoDup(GroupKeys(cols)) && Covers(ty, cols, keys, acc, g)
    ensures var r := MapsFrom(ty, cols, keys, GroupKeys(cols), g, acc);
      r.Ok? ==> Covers(ty, cols, keys, r.value, |GroupKeys(cols)|)
    decreases |GroupKeys(cols)| - g
  {
    var groups := GroupKeys(cols);
    if g < |groups| {
      var found := FirstProp(PropsOf(ty), groups[g]);
      if found.None? {
        MapsFromSkip(ty, cols, keys, groups, g, acc);
        CoversSkip(ty, cols, keys, acc, g);
        MapsFromCovers(ty, cols, keys, g + 1, acc);
      } else {
        GroupHead(cols, groups[g]);
        MapsFromAdd(ty, cols, keys, groups, g, acc, found.value);
        var node := NodeFor(ty, found.value, GroupOf(cols, groups[g]), keys);
        if node.Ok? {
          CoversNode(ty, cols, keys, g, acc);
          MapsFromCovers(ty, cols, keys, g + 1, acc + [node.value]);
        }
      }
    } else {
      assert MapsFrom(ty, cols, keys, groups, g, acc) == Ok(acc);
    }
  }

  /** A group that names no property is skipped. */
  lemma MapsFromSkip(ty: Ty, cols: seq<Column>, keys: seq<string>, groups: seq<string>, g: nat, acc: seq<DataMap>)
    requires IsDictionary(cols) && g < |groups| && NoValueList(acc)
    requires forall j :: 0 <= j < |groups| ==> groups[j] in Heads(cols)
    requires FirstProp(PropsOf(ty), groups[g]).None?
    ensures MapsFrom(ty, cols, keys, groups, g, acc) == MapsFrom(ty, cols, keys, groups, g + 1, acc)
  {
  }

  /** A group that names property i adds its node, or ends the loop with the node's error. */
  lemma MapsFromAdd(ty: Ty, cols: seq<Column>, keys: seq<string>, groups: seq<string>, g: nat, acc: seq<DataMap>, i: nat)
    requires IsDictionary(cols) && g < |groups| && NoValueList(acc)
    requires forall j :: 0 <= j < |groups| ==> groups[j] in Heads(cols)
    requires FirstProp(PropsOf(ty), groups[g]) == Some(i) && GroupOf(cols, groups[g]) != []
    ensures NodeFor(ty, i, GroupOf(cols, groups[g]), keys).Err? ==>
      MapsFrom(ty, cols, keys, groups, g, acc) == Err(NodeFor(ty, i, GroupOf(cols, groups[g]), keys).error)
    ensures NodeFor(ty, i, GroupOf(cols, groups[g]), keys).Ok? ==>
      NoValueList(acc + [NodeFor(ty, i, GroupOf(cols, groups[g]), keys).value]) &&
      MapsFrom(ty, cols, keys, groups, g, acc) ==
        MapsFrom(ty, cols, keys, groups, g + 1, acc + [NodeFor(ty, i, GroupOf(cols, groups[g]), keys).value])
  {
    var node := NodeFor(ty, i, GroupOf(cols, groups[g]), keys);
    if node.Ok? {
      NoValueListAppend(acc, node.value);
    }
  }

  /** A group that names a property, whose node builds, moves the loop on by that node. */
  lemma CoversNode(ty: Ty, cols: seq<Column>, keys: seq<string>, g: nat, acc: seq<DataMap>)
    requires IsDictionary(cols) && g < |GroupKeys(cols)| && NoValueList(acc)
    requires forall j :: 0 <= j < |GroupKeys(cols)| ==> GroupKeys(cols)[j] in Heads(cols)
    requires NoDup(GroupKeys(cols)) && Covers(ty, cols, keys, acc, g)
    requires FirstProp(PropsOf(ty), GroupKeys(cols)[g]).Some?
    requires NodeFor(ty, FirstProp(PropsOf(ty), GroupKeys(cols)[g]).value, GroupOf(cols, GroupKeys(cols)[g]), keys).Ok?
    ensures var node := NodeFor(ty, FirstProp(PropsOf(ty), GroupKeys(cols)[g]).value, GroupOf(cols, GroupKeys(cols)[g]), keys).value;
      Covers(ty, cols, keys, acc + [node], g + 1)
  {
    var groups := GroupKeys(cols);
    var i := FirstProp(PropsOf(ty), groups[g]).value;
    GroupHead(cols, groups[g]);
    var node := NodeFor(ty, i, GroupOf(cols, groups[g]), keys).value;
    NodeForShape(ty, cols, keys, groups[g], i);
    CoversStep(ty, cols, keys, acc, g, node);
  }

  /** GetDataMap<T>: the nodes are exactly the groups whose key is the lower-cased name of a
      property of T, one node per property, each of the shape NodeShape describes; two
      properties of T with the same lower-cased name make ToDictionary throw. */
  lemma DataMapsSpec(ty: Ty, cols: seq<Column>, keys: seq<string>)
    requires IsDictionary(cols)
    ensures var r := DataMaps(ty, cols, keys);
      r.Ok? ==>
        NoDup(NodeKeys(r.value)) &&
        (forall n :: n in r.value ==> NodeShape(ty, cols, keys, n) && Lower(n.property.name) in Heads(cols)) &&
        (forall c :: 0 <= c < |cols| && FirstProp(PropsOf(ty), cols[c].path[0]).Some? ==>
           cols[c].path[0] in NodeKeys(r.value))
    ensures !NoDup(LowerNames(PropsOf(ty))) ==> DataMaps(ty, cols, keys) == Err(ArgumentError(DuplicateProperty))
  {
    if NoDup(LowerNames(PropsOf(ty))) {
      var groups := GroupKeys(cols);
      FirstsSpec(Heads(cols));
      assert Covers(ty, cols, keys, [], 0);
      MapsFromCovers(ty, cols, keys, 0, []);
      var r := DataMaps(ty, cols, keys);
      assert r == MapsFrom(ty, cols, keys, groups, 0, []);
      if r.Ok? {
        CoversAll(ty, cols, keys, r.value);
      }
    }
  }

  /** Nodes that cover every group describe the whole map. */
  lemma CoversAll(ty: Ty, cols: seq<Column>, keys: seq<string>, nodes: seq<DataMap>)
    requires IsDictionary(cols) && Covers(ty, cols, keys, nodes, |GroupKeys(cols)|)
    ensures NoDup(NodeKeys(nodes))
    ensures forall n :: n in nodes ==> NodeShape(ty, cols, keys, n) && Lower(n.property.name) in Heads(cols)
    ensures forall c :: 0 <= c < |cols| && FirstProp(PropsOf(ty), cols[c].path[0]).Some? ==>
      cols[c].path[0] in NodeKeys(nodes)
  {
    var groups := GroupKeys(cols);
    FirstsSpec(Heads(cols));
    assert groups[..|groups|] == groups;
    forall n | n in nodes
      ensures NodeShape(ty, cols, keys, n) && Lower(n.property.name) in Heads(cols)
    {
      var k :| 0 <= k < |nodes| && nodes[k] == n;
      assert NodeKeys(nodes)[k] in groups;
    }
    forall c | 0 <= c < |cols| && FirstProp(PropsOf(ty), cols[c].path[0]).Some?
      ensures cols[c].path[0] in NodeKeys(nodes)
    {
      assert Heads(cols)[c] in Heads(cols);
      var j :| 0 <= j < |groups| && groups[j] == cols[c].path[0];
    }
  }

  /** GetDataMap, as the source runs it: the properties of T by lower-cased name, then a loop
      over the column groups adding one node per group that names a property. */
  method GetDataMap(ty: Ty, columns: seq<Column>, keys: seq<string>) returns (r: Result<seq<DataMap>>)
    requires IsDictionary(columns)
    ensures r == DataMaps(ty, columns, keys)
    decreases ty, 2
  {
    if !NoDup(LowerNames(PropsOf(ty))) {
      return Err(ArgumentError(DuplicateProperty));
    }
    var groups := GroupKeys(columns);
    FirstsSpec(Heads(columns));
    var maps: seq<DataMap> := [];
    var g := 0;
    while g < |groups|
      invariant 0 <= g <= |groups| && NoValueList(maps)
      invariant MapsFrom(ty, columns, keys, groups, 0, []) == MapsFrom(ty, columns, keys, groups, g, maps)
    {
      var next := MapGroup(ty, columns, keys, groups, g, maps);
      if next.Err? {
        return Err(next.error);
      }
      maps := next.value;
      g := g + 1;
    }
    return Ok(maps);
  }

  /** One group of GetDataMap's loop: when its key names a property of T, the node for it is
      built and added; otherwise the group is skipped. */
  method MapGroup(ty: Ty, columns: seq<Column>, keys: seq<string>, groups: seq<string>, g: nat,
                  maps: seq<DataMap>) returns (r: Result<seq<DataMap>>)
    requires IsDictionary(columns) && g < |groups| && NoValueList(maps)
    requires forall j :: 0 <= j < |groups| ==> groups[j] in Heads(columns)
    ensures r.Ok? ==> NoValueList(r.value)
    ensures r.Ok? ==> MapsFrom(ty, columns, keys, groups, g, maps) == MapsFrom(ty, columns, keys, groups, g + 1, r.value)
    ensures r.Err? ==> MapsFrom(ty, columns, keys, groups, g, maps) == Err(r.error)
    decreases ty, 1
  {
    var found := FirstProp(PropsOf(ty), groups[g]);
    if found.None? {
      MapsFromSkip(ty, columns, keys, groups, g, maps);
      return Ok(maps);
    }
    var group := GroupOf(columns, groups[g]);
    GroupHead(columns, groups[g]);
    MapsFromAdd(ty, columns, keys, groups, g, maps, found.value);
    var node := BuildNode(ty, found.value, group, keys);
    if node.Err? {
      return Err(node.error);
    }
    return Ok(maps + [node.value]);
  }

  /** The body of GetDataMap's loop for a group that names property i: a Value node, or the
      group's columns stripped of one segment and the map of the property's type over them. */
  method BuildNode(ty: Ty, i: nat, group: seq<Column>, keys: seq<string>) returns (r: Result<DataMap>)
    requires i < |PropsOf(ty)| && IsDictionary(group) && |group| > 0
    ensures r == NodeFor(ty, i, group, keys)
    decreases ty, 0
  {
    var prop := PropsOf(ty)[i];
    assert prop in ty.props;
    if IsValueType(prop.ty) {
      return Ok(DataMap(prop, Some(group[0].name), IsKeyColumn(keys, group[0].name), ValueMap, []));
    }
    var columnsDict: seq<Column> := [];
    for k := 0 to |group|
      invariant IsDictionary(group[..k]) && columnsDict == Rest(group[..k])
    {
      assert group[..k + 1][..k] == group[..k];
      var arr := group[k].path[1..];
      if |arr| > 0 {
        columnsDict := columnsDict + [Column(group[k].name, arr)];
      }
    }
    assert group[..|group|] == group;
    if prop.ty.Lst? {
      var children :- GetDataMap(prop.ty.elem, columnsDict, keys);
      return Ok(DataMap(prop, None, false, ListMap, children));
    }
    var children :- GetDataMap(prop.ty, columnsDict, keys);
    return Ok(DataMap(prop, None, false, ReferenceMap, children));
  }
}

=== FILE: draft_comparer.dfy ===
/** The draft HashItemEqualityComparer<T> of the New namespace: key values are compared with
    the reference operator `!=` instead of Equals, and there is no fallback for a null key set. */
module DraftHashComparer {
  import opened Wrappers
  import opened TypeModel
  import opened HashComparer

  /** `(object)a == (object)b` on two results of PropertyInfo.GetValue: null is the same only as
      null; a value of a value type is boxed afresh by every GetValue, so two such boxes are
      never the same object; instances of reference types are the same when `identical` says so. */
  predicate SameReference(ty: Ty, a: Val, b: Val, identical: (Val, Val) -> bool)
    ensures SameReference(ty, a, b, identical) ==> (a.Null? <==> b.Null?)
    ensures a.Null? && b.Null? ==> SameReference(ty, a, b, identical)
    ensures IsValueType(ty) && !ty.Str? && !a.Null? ==> !SameReference(ty, a, b, identical)
  {
    if a.Null? || b.Null? then a.Null? && b.Null?
    else if IsValueType(ty) && !ty.Str? then false
    else identical(a, b)
  }

  /** The key loop of the draft Equals from key i on: the first pair of values that are not the
      same object ends it with false. */
  function DraftKeysEqualFrom(props: seq<Prop>, keys: seq<nat>, i: nat, identical: (Val, Val) -> bool,
                              x: Val, y: Val): (r: Result<bool>)
    requires i <= |keys| && KeysWithin(keys, |props|) && IsItem(x, |props|) && IsItem(y, |props|)
    ensures r.Err? ==> r.error == Target && (x.Null? || y.Null?)
    ensures x.Obj? && y.Obj? ==>
      (r == Ok(true) <==>
       forall j :: i <= j < |keys| ==> SameReference(props[keys[j]].ty, x.fields[keys[j]], y.fields[keys[j]], identical))
    decreases |keys| - i
  {
    if i == |keys| then Ok(true)
    else
      var vx :- GetValue(x, keys[i]);
      var vy :- GetValue(y, keys[i]);
      if !SameReference(props[keys[i]].ty, vx, vy, identical) then Ok(false)
      else DraftKeysEqualFrom(props, keys, i + 1, identical, x, y)
  }

  /** The draft Equals: iterating a null key set raises NullReferenceException. */
  function DraftEqualsSpec(props: seq<Prop>, keyProperties: Option<seq<nat>>, identical: (Val, Val) -> bool,
                           x: Val, y: Val): (r: Result<bool>)
    requires keyProperties.Some? ==> KeysWithin(keyProperties.value, |props|)
    requires IsItem(x, |props|) && IsItem(y, |props|)
    ensures keyProperties.None? ==> r == Err(NullReference)
    ensures keyProperties.Some? && r.Err? ==> r.error == Target && (x.Null? || y.Null?)
    ensures keyProperties.Some? && x.Obj? && y.Obj? ==>
      (r == Ok(true) <==>
       forall j :: 0 <= j < |keyProperties.value| ==>
         SameReference(props[keyProperties.value[j]].ty, x.fields[keyProperties.value[j]],
                       y.fields[keyProperties.value[j]], identical))
  {
    match keyProperties
    case None => Err(NullReference)
    case Some(keys) => DraftKeysEqualFrom(props, keys, 0, identical, x, y)
  }

  /** The draft GetHashCode: the same fold as the released comparer, without its fallback. */
  function DraftHashSpec(props: seq<Prop>, keyProperties: Option<seq<nat>>, hashOf: Val -> int, obj: Val): (r: Result<int>)
    requires keyProperties.Some? ==> KeysWithin(keyProperties.value, |props|)
    requires IsItem(obj, |props|)
    ensures r.Ok? ==> -TwoTo31 <= r.value < TwoTo31
    ensures keyProperties.None? ==> r == Err(NullReference)
    ensures keyProperties.Some? && obj.Obj? ==>
      (r.Ok? <==> forall j :: 0 <= j < |keyProperties.value| ==> !obj.fields[keyProperties.value[j]].Null?)
  {
    match keyProperties
    case None => Err(NullReference)
    case Some(keys) => HashFrom(keys, |props|, 0, Seed, hashOf, obj)
  }

  /** The draft's hash equals the released comparer's on any key set that is not null; with a
      null key set the draft raises NullReferenceException where the released one falls back to
      T's own GetHashCode. */
  lemma DraftHashMatchesReleased(props: seq<Prop>, keys: seq<nat>, hashOf: Val -> int, objHash: Val -> int, obj: Val)
    requires KeysWithin(keys, |props|) && IsItem(obj, |props|)
    ensures DraftHashSpec(props, Some(keys), hashOf, obj) == HashSpec(Some(keys), |props|, hashOf, objHash, obj)
    ensures DraftHashSpec(props, None, hashOf, obj) == Err(NullReference)
  {
  }

  /** With an empty key set every pair is equal; with a null one both methods throw. */
  lemma DraftKeySetEdges(props: seq<Prop>, identical: (Val, Val) -> bool, x: Val, y: Val)
    requires IsItem(x, |props|) && IsItem(y, |props|)
    ensures DraftEqualsSpec(props, Some([]), identical, x, y) == Ok(true)
    ensures DraftEqualsSpec(props, None, identical, x, y) == Err(NullReference)
  {
  }

  /** Comparing by reference: a key of a value type with a value on x never matches, not even
      when an item is compared with itself, so the draft finds no two instances equal. */
  lemma {:induction false} BoxedKeyNeverMatches(props: seq<Prop>, keys: seq<nat>, identical: (Val, Val) -> bool, x: Val, y: Val)
    requires KeysWithin(keys, |props|) && x.Obj? && y.Obj? && IsItem(x, |props|) && IsItem(y, |props|)
    requires |keys| > 0 && IsValueType(props[keys[0]].ty) && !props[keys[0]].ty.Str?
    requires !x.fields[keys[0]].Null?
    ensures DraftKeysEqualFrom(props, keys, 0, identical, x, y) == Ok(false)
  {
  }

  /** An instance with an int key of 1 is not equal to itself under the draft, while the
      released comparer finds it equal. */
  lemma DraftNotReflexive(identical: (Val, Val) -> bool, same: (Val, Val) -> bool)
    ensures var props := [Prop("ID", Value("Int32"))];
      var x := Obj([Datum(Other("Int32", "1"))]);
      DraftEqualsSpec(props, Some([0]), identical, x, x) == Ok(false) &&
      EqualsSpec(Some([0]), 1, same, x, x) == Ok(true)
  {
    var props := [Prop("ID", Value("Int32"))];
    var x := Obj([Datum(Other("Int32", "1"))]);
    BoxedKeyNeverMatches(props, [0], identical, x, x);
    KeysEqualReflexive([0], 1, x);
  }

  class DraftHashItemEqualityComparer {
    /** The properties of T. */
    const props: seq<Prop>
    /** `_keyProperties`, by index into `props`; None for a null key set. */
    const keyProperties: Option<seq<nat>>
    /** Object identity of two instances of reference types. */
    const identical: (Val, Val) -> bool
    /** GetHashCode of a key value. */
    const hashOf: Val -> int
    /** HashItem. */
    var hashItem: Val

    predicate Valid() {
      keyProperties.Some? ==> KeysWithin(keyProperties.value, |props|)
    }

    /** The constructor: HashItem starts as default(T). */
    constructor (props: seq<Prop>, keyProperties: Option<seq<nat>>, ty: Ty, identical: (Val, Val) -> bool, hashOf: Val -> int)
      requires keyProperties.Some? ==> KeysWithin(keyProperties.value, |props|)
      ensures Valid()
      ensures this.props == props && this.keyProperties == keyProperties
      ensures this.identical == identical && this.hashOf == hashOf
      ensures hashItem == Default(ty)
    {
      this.props := props;
      this.keyProperties := keyProperties;
      this.identical := identical;
      this.hashOf := hashOf;
      hashItem := Default(ty);
    }

    /** Equals: on a true result HashItem becomes x; otherwise it is left as it was. */
    method Equals(x: Val, y: Val) returns (r: Result<bool>)
      requires Valid() && IsItem(x, |props|) && IsItem(y, |props|)
      modifies this
      ensures r == DraftEqualsSpec(props, keyProperties, identical, x, y)
      ensures hashItem == if r == Ok(true) then x else old(hashItem)
    {
      if keyProperties.None? {
        return Err(NullReference);
      }
      var keys := keyProperties.value;
      var i := 0;
      while i < |keys|
        invariant 0 <= i <= |keys| && hashItem == old(hashItem)
        invariant DraftKeysEqualFrom(props, keys, 0, identical, x, y) == DraftKeysEqualFrom(props, keys, i, identical, x, y)
      {
        var vx :- GetValue(x, keys[i]);
        var vy :- GetValue(y, keys[i]);
        if !SameReference(props[keys[i]].ty, vx, vy, identical) {
          return Ok(false);
        }
        i := i + 1;
      }
      hashItem := x;
      return Ok(true);
    }

    /** GetHashCode: starts at 27 and folds `13 * hash + hash(value)` over the key values. */
    method GetHashCode(obj: Val) returns (r: Result<int>)
      requires Valid() && IsItem(obj, |props|)
      ensures r == DraftHashSpec(props, keyProperties, hashOf, obj)
    {
      if keyProperties.None? {
        return Err(NullReference);
      }
      var keys := keyProperties.value;
      var hash := Seed;
      var i := 0;
      while i < |keys|
        invariant 0 <= i <= |keys|
        invariant HashFrom(keys, |props|, 0, Seed, hashOf, obj) == HashFrom(keys, |props|, i, hash, hashOf, obj)
      {
        var v :- GetValue(obj, keys[i]);
        if v.Null? {
          return Err(NullReference);
        }
        hash := Mix(hash, hashOf(v));
        i := i + 1;
      }
      return Ok(hash);
    }
  }
}

=== FILE: engine.dfy ===
/** The materializer as the source runs it: the row loops of List and Get, the column loop
    of CreateObjectWithDataReader and the calls between them, each proved to compute the
    function of the Materializer module that describes it. Objects are values here: a
    method returns the object it has filled. */
module Engine {
  import opened Wrappers
  import opened Text
  import opened TypeModel
  import opened DataReader
  import opened Converter
  import opened Keys
  import opened Materializer

  /** List<T>: one pass over the rows, building the list. */
  method List(env: Env, reader: Reader, keys: seq<string>, ty: Ty) returns (r: Result<seq<Val>>)
    requires NoNestedKeys(keys)
    ensures r == Listed(env, reader, keys, ty)
  {
    var columnNames := GetColumnNames(reader);
    var list: seq<Val> := [];
    var i := 0;
    while i < |reader.rows|
      invariant 0 <= i <= |reader.rows|
      invariant forall k :: 0 <= k < |list| ==> IsInstance(list[k], ty)
      invariant Listed(env, reader, keys, ty) == ListedFrom(env, reader, columnNames, keys, ty, i, list)
    {
      list :- ListRow(env, reader, columnNames, keys, ty, i, list);
      i := i + 1;
    }
    return Ok(list);
  }

  /** The body of List's row loop: the list after row i. Computes RowListed. */
  method ListRow(env: Env, reader: Reader, columnNames: seq<string>, keys: seq<string>, ty: Ty,
                 i: nat, list: seq<Val>) returns (r: Result<seq<Val>>)
    requires NoNestedKeys(keys) && i < |reader.rows|
    requires forall k :: 0 <= k < |list| ==> IsInstance(list[k], ty)
    ensures r == RowListed(env, reader, columnNames, keys, ty, i, list)
  {
    var row := reader.rows[i];
    if IsObjectPath(ty) {
      r := GetObjectFromDataReaderForList(env, reader, row, columnNames, keys, "", ty, list);
    } else {
      var cell :- FirstCell(row);
      var v := env.unbox(cell, ty);
      if v.None? {
        return Err(InvalidCast);
      }
      r := Ok(list + [v.value]);
    }
  }

  /** Get<T>: one pass over the rows, refreshing the object. */
  method Get(env: Env, reader: Reader, keys: seq<string>, ty: Ty) returns (r: Result<Val>)
    requires NoNestedKeys(keys)
    ensures r == Got(env, reader, keys, ty)
  {
    var columnNames := GetColumnNames(reader);
    var obj := Default(ty);
    var i := 0;
    while i < |reader.rows|
      invariant 0 <= i <= |reader.rows|
      invariant obj == Default(ty) || IsInstance(obj, ty)
      invariant Got(env, reader, keys, ty) == GotFrom(env, reader, columnNames, keys, ty, i, obj)
    {
      var row := reader.rows[i];
      if IsObjectPath(ty) {
        obj :- GetObjectFromDataReader(env, reader, row, columnNames, keys, "", ty, obj);
      } else {
        var cell :- FirstCell(row);
        var v := env.unbox(cell, ty);
        if v.None? {
          return Err(InvalidCast);
        }
        obj := v.value;
      }
      i := i + 1;
    }
    return Ok(obj);
  }

  /** GetObjectFromDataReader, list overload: the list after this row. Computes ItemMerged. */
  method GetObjectFromDataReaderForList(env: Env, reader: Reader, row: seq<Cell>, columnNames: seq<string>,
                                        keys: seq<string>, prefix: string, ty: Ty, items: seq<Val>)
    returns (r: Result<seq<Val>>)
    requires NoNestedKeys(keys)
    requires forall i :: 0 <= i < |items| ==> IsInstance(items[i], ty)
    ensures r == ItemMerged(env, reader, row, columnNames, keys, prefix, ty, items)
    decreases ty, 3
  {
    var blank :- Fresh(ty);
    assert ty.Rec? ==> forall i :: 0 <= i < |items| ==> InstanceOf(items[i], ty) by {
      if ty.Rec? {
        forall i | 0 <= i < |items| ensures InstanceOf(items[i], ty) {
          assert IsInstance(items[i], ty);
        }
      }
    }
    var m :- ValidateKeyProperties(env, reader, row, keys, prefix, ty, AList(items));
    if m.NewItem? {
      var filled :- CreateObjectWithDataReader(env, reader, row, columnNames, keys, prefix, ty, blank);
      return Ok(items + [filled]);
    }
    var filled :- CreateObjectWithDataReader(env, reader, row, columnNames, keys, prefix, ty, m.obj);
    if IsValueType(ty) {
      return Ok(items);
    }
    return Ok(items[m.at := filled]);
  }

  /** GetObjectFromDataReader, single-object overload: the object after this row. Computes
      ObjectRefreshed. */
  method GetObjectFromDataReader(env: Env, reader: Reader, row: seq<Cell>, columnNames: seq<string>,
                                 keys: seq<string>, prefix: string, ty: Ty, prev: Val)
    returns (r: Result<Val>)
    requires NoNestedKeys(keys)
    requires prev == Default(ty) || IsInstance(prev, ty)
    ensures r == ObjectRefreshed(env, reader, row, columnNames, keys, prefix, ty, prev)
    decreases ty, 3
  {
    var blank :- Fresh(ty);
    var obj := blank;
    if prev != Default(ty) {
      assert ty.Rec? ==> InstanceOf(prev, ty);
      var target := if prev.Items? then AList(prev.items) else AnObject(prev);
      var m :- ValidateKeyProperties(env, reader, row, keys, prefix, ty, target);
      if m.Existing? {
        obj := m.obj;
      }
    }
    r := CreateObjectWithDataReader(env, reader, row, columnNames, keys, prefix, ty, obj);
  }

  /** CreateObjectWithDataReader: visits every column once, in order. Computes Filled. */
  method CreateObjectWithDataReader(env: Env, reader: Reader, row: seq<Cell>, columnNames: seq<string>,
                                    keys: seq<string>, prefix: string, ty: Ty, obj: Val)
    returns (r: Result<Val>)
    requires NoNestedKeys(keys) && IsInstance(obj, ty)
    ensures r == Filled(env, reader, row, columnNames, keys, prefix, ty, obj)
    decreases ty, 2
  {
    var cols :- ColumnsOf(env, reader, columnNames);
    var st :- FillColumns(env, reader, row, columnNames, keys, prefix, ty, cols, obj);
    return Ok(st.obj);
  }

  /** The column loop of CreateObjectWithDataReader, over the columns it visits. */
  method FillColumns(env: Env, reader: Reader, row: seq<Cell>, columnNames: seq<string>,
                     keys: seq<string>, prefix: string, ty: Ty, cols: seq<string>, obj: Val)
    returns (r: Result<FillState>)
    requires NoNestedKeys(keys) && IsInstance(obj, ty)
    ensures r == FilledFrom(env, reader, row, columnNames, keys, prefix, ty, cols, 0, FillState(obj, []))
    decreases ty, 1
  {
    var st := FillState(obj, []);
    var i := 0;
    while i < |cols|
      invariant 0 <= i <= |cols| && IsInstance(st.obj, ty)
      invariant FilledFrom(env, reader, row, columnNames, keys, prefix, ty, cols, 0, FillState(obj, []))
             == FilledFrom(env, reader, row, columnNames, keys, prefix, ty, cols, i, st)
    {
      var next := FillColumn(env, reader, row, columnNames, keys, prefix, ty, cols[i], st);
      FilledFromStep(env, reader, row, columnNames, keys, prefix, ty, cols, i, st);
      if next.Err? {
        return Err(next.error);
      }
      st := next.value;
      i := i + 1;
    }
    return Ok(st);
  }

  /** The body of the column loop for one column. Computes ColumnFilled. */
  method FillColumn(env: Env, reader: Reader, row: seq<Cell>, columnNames: seq<string>, keys: seq<string>,
                    prefix: string, ty: Ty, col: string, st: FillState) returns (r: Result<FillState>)
    requires NoNestedKeys(keys) && IsInstance(st.obj, ty)
    ensures r == ColumnFilled(env, reader, row, columnNames, keys, prefix, ty, col, st)
    decreases ty, 0, 1
  {
    var cell :- ReadCell(reader, row, col);
    if cell.DbNull? || !Contains(col, prefix) {
      return Ok(st);
    }
    if IsValueType(ty) {
      var v :- GetValueFromDataReader(env, reader, row, col, ty);
      return Ok(FillState(v, st.seen));
    }
    var name := PropertyNameOf(col, prefix);
    if name in st.seen {
      return Ok(st);
    }
    var seen := st.seen + [name];
    var found := FirstProp(PropsOf(ty), name);
    if found.None? {
      return Ok(FillState(st.obj, seen));
    }
    var v :- FillProperty(env, reader, row, columnNames, keys, prefix, ty, st.obj, found.value, name, col);
    SetFieldKeepsInstance(st.obj, ty, found.value, v);
    return Ok(FillState(SetField(st.obj, found.value, v), seen));
  }

  /** The new value of one property: the merged list, the rebuilt object or the converted cell.
      Computes PropertyFilled. */
  method FillProperty(env: Env, reader: Reader, row: seq<Cell>, columnNames: seq<string>, keys: seq<string>,
                      prefix: string, ty: Ty, obj: Val, i: nat, name: string, col: string) returns (r: Result<Val>)
    requires NoNestedKeys(keys) && ty.Rec? && i < |ty.props| && InstanceOf(obj, ty)
    ensures r == PropertyFilled(env, reader, row, columnNames, keys, prefix, ty, obj, i, name, col)
    decreases ty, 0, 0
  {
    var prop := ty.props[i];
    assert prop in ty.props;
    match prop.ty
    case Lst(shape, elem) =>
      if env.variant.Current? && shape.OtherInterface? {
        return Err(ApplicationError(prop.name));
      }
      var current := obj.fields[i];
      assert Conforms(current, prop.ty);
      var items :- CurrentList(env.variant, shape, current);
      var merged :- GetObjectFromDataReaderForList(env, reader, row, columnNames, keys, prefix + name + ".", elem, items);
      r := ConvertObjectList(shape, merged);
    case Rec(_, _, _) =>
      r := GetObjectFromDataReader(env, reader, row, columnNames, keys, prefix + name + ".", prop.ty, Null);
    case _ =>
      r := GetValueFromDataReader(env, reader, row, col, prop.ty);
  }
}

=== FILE: keys.dfy ===
/** ValidateKeyProperties: which caller keys apply at a nesting level, and which item of the
    list (or whether the object) being filled is the one the current row refines. */
module Keys {
  import opened Wrappers
  import opened Text
  import opened TypeModel
  import opened DataReader
  import opened Converter

  /** Keys of the `prop@nested` form name a property of a property; they are not part of this model. */
  predicate NoNestedKeys(keys: seq<string>) {
    forall i :: 0 <= i < |keys| ==> '@' !in keys[i]
  }

  /** A key applies at the level of `prefix` when it has as many dots as the prefix
      and contains it, without case. The top level has the empty prefix. */
  predicate AppliesAt(key: string, prefix: string) {
    CountChar(key, '.') == CountChar(prefix, '.') && Contains(Lower(key), Lower(prefix))
  }

  /** `actualKeys`: the keys that apply at this level, in caller order. */
  function ApplicableKeys(keys: seq<string>, prefix: string): (r: seq<string>)
    ensures |r| <= |keys|
    ensures forall k :: k in r <==> k in keys && AppliesAt(k, prefix)
  {
    if keys == [] then []
    else (if AppliesAt(keys[0], prefix) then [keys[0]] else []) + ApplicableKeys(keys[1..], prefix)
  }

  /** When no key applies, the filter is empty. */
  lemma {:induction false} NoneApply(keys: seq<string>, prefix: string)
    requires forall k :: k in keys ==> !AppliesAt(k, prefix)
    ensures ApplicableKeys(keys, prefix) == []
  {
    if keys != [] {
      assert keys[0] in keys;
      NoneApply(keys[1..], prefix);
    }
  }

  /** At the top level exactly the keys without a dot apply. */
  lemma TopLevelKeys(keys: seq<string>)
    ensures forall k :: k in keys ==> (AppliesAt(k, "") <==> '.' !in k)
    ensures forall k :: k in ApplicableKeys(keys, "") <==> k in keys && '.' !in k
  {
    forall k | k in keys
      ensures AppliesAt(k, "") <==> '.' !in k
    {
      ContainsEmpty(Lower(k));
      if '.' in k {
        CountPositive(k, '.');
      }
    }
  }

  lemma {:induction false} CountPositive(s: string, c: char)
    requires c in s
    ensures CountChar(s, c) > 0
  {
    if s[0] != c {
      CountPositive(s[1..], c);
    }
  }

  /** The key with the prefix removed: lower-cased with every occurrence of the prefix
      deleted, or the key as given at the top level. */
  function StripKey(key: string, prefix: string): string {
    if prefix != "" then ReplaceAll(Lower(key), Lower(prefix), "") else key
  }

  function StripAll(keys: seq<string>, prefix: string): (r: seq<string>)
    ensures |r| == |keys|
    ensures forall i :: 0 <= i < |keys| ==> r[i] == StripKey(keys[i], prefix)
  {
    seq(|keys|, i requires 0 <= i < |keys| => StripKey(keys[i], prefix))
  }

  /** An entry of `dictProps`: a (stripped) key and the index of the property it names. */
  datatype KeyProp = KeyProp(key: string, index: nat)

  predicate Indexed(entries: seq<KeyProp>, props: seq<Prop>) {
    forall k :: 0 <= k < |entries| ==> entries[k].index < |props|
  }

  predicate HasKey(entries: seq<KeyProp>, key: string) {
    exists k :: 0 <= k < |entries| && entries[k].key == key
  }

  /** Building `dictProps`: each key names the last property with that lower-cased name,
      or raises ArgumentException; adding a key twice raises ArgumentException too. */
  function ResolveFrom(keys: seq<string>, props: seq<Prop>, i: nat, acc: seq<KeyProp>): (r: Result<seq<KeyProp>>)
    requires i <= |keys| && |acc| == i && Indexed(acc, props)
    ensures r.Ok? ==> |r.value| == |keys| && Indexed(r.value, props) && r.value[..i] == acc
    ensures r.Ok? ==> forall k :: i <= k < |keys| ==>
      r.value[k].key == keys[k] && LastProp(props, Lower(keys[k])) == Some(r.value[k].index)
    ensures r.Err? ==> r.error == ArgumentError(UnknownKey) || r.error == ArgumentError(DuplicateKey)
    decreases |keys| - i
  {
    if i == |keys| then Ok(acc)
    else match LastProp(props, Lower(keys[i]))
      case None => Err(ArgumentError(UnknownKey))
      case Some(p) =>
        if HasKey(acc, keys[i]) then Err(ArgumentError(DuplicateKey))
        else ResolveFrom(keys, props, i + 1, acc + [KeyProp(keys[i], p)])
  }

  /** Only value-type and string properties may be keys. */
  function CheckScalar(entries: seq<KeyProp>, props: seq<Prop>): (r: Result<seq<KeyProp>>)
    requires Indexed(entries, props)
    ensures r.Ok? <==> forall k :: 0 <= k < |entries| ==> IsValueType(props[entries[k].index].ty)
    ensures r.Ok? ==> r.value == entries
    ensures r.Err? ==> r.error == ArgumentError(NonScalarKey)
  {
    if forall k :: 0 <= k < |entries| ==> IsValueType(props[entries[k].index].ty) then Ok(entries)
    else Err(ArgumentError(NonScalarKey))
  }

  /** The key properties, checked: `dictProps` after both validation loops. */
  function KeyProps(keys: seq<string>, prefix: string, props: seq<Prop>): (r: Result<seq<KeyProp>>)
    ensures r.Ok? ==> |r.value| == |ApplicableKeys(keys, prefix)| && Indexed(r.value, props)
    ensures r.Err? ==> r.error.ArgumentError?
  {
    var entries :- ResolveFrom(StripAll(ApplicableKeys(keys, prefix), prefix), props, 0, []);
    CheckScalar(entries, props)
  }

  /** An item whose key properties can be read. */
  predicate HasFields(item: Val, props: seq<Prop>) {
    item.Obj? && |item.fields| == |props|
  }

  /** `keyProperty.GetValue(item).Equals(GetValueFromDataReader(prefix + keyProperty.Name))`:
      the conversion runs first, then a null property value raises NullReferenceException. */
  function KeyEquals(env: Env, reader: Reader, row: seq<Cell>, prefix: string, props: seq<Prop>, e: KeyProp, item: Val): (r: Result<bool>)
    requires e.index < |props| && HasFields(item, props)
    ensures r == Ok(true) <==>
      (!item.fields[e.index].Null? &&
       GetValueFromDataReader(env, reader, row, prefix + props[e.index].name, props[e.index].ty) == Ok(item.fields[e.index]))
    ensures r.Err? ==>
      (r.error == NullReference ||
       GetValueFromDataReader(env, reader, row, prefix + props[e.index].name, props[e.index].ty) == Err(r.error))
    ensures GetValueFromDataReader(env, reader, row, prefix + props[e.index].name, props[e.index].ty).Ok? ==>
      (r.Err? <==> item.fields[e.index].Null?)
  {
    var cell :- GetValueFromDataReader(env, reader, row, prefix + props[e.index].name, props[e.index].ty);
    var field := item.fields[e.index];
    if field.Null? then Err(NullReference) else Ok(field == cell)
  }

  /** An item passes the chained `Where` filters: keys are tried in order, and the first
      mismatch drops the item without trying the rest. */
  function SurvivesFrom(env: Env, reader: Reader, row: seq<Cell>, prefix: string, props: seq<Prop>,
                        entries: seq<KeyProp>, k: nat, item: Val): (r: Result<bool>)
    requires k <= |entries| && Indexed(entries, props) && (entries != [] ==> HasFields(item, props))
    ensures r == Ok(true) ==>
      forall m :: k <= m < |entries| ==> KeyEquals(env, reader, row, prefix, props, entries[m], item) == Ok(true)
    decreases |entries| - k
  {
    if k == |entries| then Ok(true)
    else
      var eq :- KeyEquals(env, reader, row, prefix, props, entries[k], item);
      if !eq then Ok(false) else SurvivesFrom(env, reader, row, prefix, props, entries, k + 1, item)
  }

  /** Counting the filtered list: items are pulled one by one through every filter; the
      result is the last surviving index. */
  function MatchFrom(env: Env, reader: Reader, row: seq<Cell>, prefix: string, props: seq<Prop>,
                     entries: seq<KeyProp>, items: seq<Val>, j: nat, last: Option<nat>): (r: Result<Option<nat>>)
    requires j <= |items| && Indexed(entries, props)
    requires entries != [] ==> forall i :: 0 <= i < |items| ==> HasFields(items[i], props)
    requires last.Some? ==> last.value < j
    ensures r.Ok? && r.value.Some? ==> r.value.value < |items|
    ensures r.Ok? && r.value.Some? && r.value != last ==> j <= r.value.value
    decreases |items| - j
  {
    if j == |items| then Ok(last)
    else
      var keep :- SurvivesFrom(env, reader, row, prefix, props, entries, 0, items[j]);
      MatchFrom(env, reader, row, prefix, props, entries, items, j + 1, if keep then Some(j) else last)
  }

  /** The single-object case: every key is compared, none is skipped, and the object is
      kept only when all compare equal. */
  function ObjectKeysFrom(env: Env, reader: Reader, row: seq<Cell>, prefix: string, props: seq<Prop>,
                          entries: seq<KeyProp>, k: nat, item: Val, allEqual: bool): (r: Result<bool>)
    requires k <= |entries| && Indexed(entries, props) && (entries != [] ==> HasFields(item, props))
    ensures r == Ok(true) ==> allEqual
    decreases |entries| - k
  {
    if k == |entries| then Ok(allEqual)
    else
      var eq :- KeyEquals(env, reader, row, prefix, props, entries[k], item);
      ObjectKeysFrom(env, reader, row, prefix, props, entries, k + 1, item, allEqual && eq)
  }

  /** The last index holding v. */
  function LastEqual(items: seq<Val>, v: Val): (r: Option<nat>)
    ensures r.Some? ==> r.value < |items| && items[r.value] == v
    ensures r.Some? ==> forall j :: r.value < j < |items| ==> items[j] != v
    ensures r.None? ==> v !in items
  {
    if items == [] then None
    else if items[|items| - 1] == v then Some(|items| - 1)
    else LastEqual(items[..|items| - 1], v)
  }

  /** What is being filled: a list (the list overload) or a single earlier object. */
  datatype Target = AList(items: seq<Val>) | AnObject(obj: Val)

  /** The outcome: fill a new instance, or refine the existing item found at `at`. */
  datatype Match = NewItem | Existing(obj: Val, at: nat)

  predicate Filling(target: Target, ty: Ty) {
    match target
    case AList(items) => ty.Rec? ==> forall i :: 0 <= i < |items| ==> InstanceOf(items[i], ty)
    case AnObject(obj) => IsInstance(obj, ty)
  }

  /** The item a row refines: none when no key applies here; for a list of values, the last
      element equal to the cell named by the prefix; for a list of objects, the last element
      whose key properties all equal the row's cells; for one object, that object when all
      its keys are equal. */
  function KeyValidation(env: Env, reader: Reader, row: seq<Cell>, keys: seq<string>, prefix: string,
                         ty: Ty, target: Target): (r: Result<Match>)
    requires NoNestedKeys(keys) && Filling(target, ty)
    ensures ApplicableKeys(keys, prefix) == [] ==> r == Ok(NewItem)
    ensures r.Ok? && r.value.Existing? && target.AList? ==>
      r.value.at < |target.items| && r.value.obj == target.items[r.value.at]
    ensures r.Ok? && r.value.Existing? && target.AnObject? ==> r.value.obj == target.obj
    ensures r.Ok? && r.value.Existing? ==> IsInstance(r.value.obj, ty)
  {
    if ApplicableKeys(keys, prefix) == [] then Ok(NewItem)
    else if target.AList? && IsValueType(ty) then
      if target.items == [] then Ok(NewItem)
      else
        var v :- GetValueFromDataReader(env, reader, row, prefix, ty);
        match LastEqual(target.items, v)
        case None => Ok(NewItem)
        case Some(j) => Ok(Existing(target.items[j], j))
    else
      var props := PropsOf(ty);
      var entries :- KeyProps(keys, prefix, props);
      assert entries != [] && entries[0].index < |props|;
      assert ty.Rec?;
      match target
      case AnObject(obj) =>
        assert InstanceOf(obj, ty);
        var same :- ObjectKeysFrom(env, reader, row, prefix, props, entries, 0, obj, true);
        if same then Ok(Existing(obj, 0)) else Ok(NewItem)
      case AList(items) =>
        assert forall i :: 0 <= i < |items| ==> InstanceOf(items[i], ty);
        var last :- MatchFrom(env, reader, row, prefix, props, entries, items, 0, None);
        match last
        case None => Ok(NewItem)
        case Some(j) => Ok(Existing(items[j], j))
  }

  /** The item a list match selects is the last that survives every key filter:
      it survives, and every later item is dropped. */
  lemma {:induction false} LastMatchIsLast(env: Env, reader: Reader, row: seq<Cell>, prefix: string, props: seq<Prop>,
                                           entries: seq<KeyProp>, items: seq<Val>, j: nat, last: Option<nat>)
    requires j <= |items| && Indexed(entries, props)
    requires entries != [] ==> forall i :: 0 <= i < |items| ==> HasFields(items[i], props)
    requires last.Some? ==> last.value < j
    requires last.Some? ==> SurvivesFrom(env, reader, row, prefix, props, entries, 0, items[last.value]) == Ok(true)
    requires last.Some? ==> forall k :: last.value < k < j ==>
      SurvivesFrom(env, reader, row, prefix, props, entries, 0, items[k]) == Ok(false)
    requires last.None? ==> forall k :: 0 <= k < j ==>
      SurvivesFrom(env, reader, row, prefix, props, entries, 0, items[k]) == Ok(false)
    ensures var r := MatchFrom(env, reader, row, prefix, props, entries, items, j, last);
      r.Ok? && r.value.Some? ==>
        SurvivesFrom(env, reader, row, prefix, props, entries, 0, items[r.value.value]) == Ok(true) &&
        forall k :: r.value.value < k < |items| ==>
          SurvivesFrom(env, reader, row, prefix, props, entries, 0, items[k]) == Ok(false)
    ensures var r := MatchFrom(env, reader, row, prefix, props, entries, items, j, last);
      r == Ok(None) ==> forall k :: 0 <= k < |items| ==>
        SurvivesFrom(env, reader, row, prefix, props, entries, 0, items[k]) == Ok(false)
    decreases |items| - j
  {
    if j < |items| {
      var keep := SurvivesFrom(env, reader, row, prefix, props, entries, 0, items[j]);
      if keep.Ok? {
        LastMatchIsLast(env, reader, row, prefix, props, entries, items, j + 1, if keep.value then Some(j) else last);
      }
    }
  }

  /** A list item survives exactly when every key property equals the row's cell
      (and no conversion or null property interrupts the scan). */
  lemma {:induction false} SurvivesIffAllEqual(env: Env, reader: Reader, row: seq<Cell>, prefix: string, props: seq<Prop>,
                                               entries: seq<KeyProp>, k: nat, item: Val)
    requires k <= |entries| && Indexed(entries, props) && (entries != [] ==> HasFields(item, props))
    requires forall m :: k <= m < |entries| ==> KeyEquals(env, reader, row, prefix, props, entries[m], item).Ok?
    ensures SurvivesFrom(env, reader, row, prefix, props, entries, k, item).Ok?
    ensures SurvivesFrom(env, reader, row, prefix, props, entries, k, item).value <==>
      forall m :: k <= m < |entries| ==> KeyEquals(env, reader, row, prefix, props, entries[m], item) == Ok(true)
    decreases |entries| - k
  {
    if k < |entries| {
      SurvivesIffAllEqual(env, reader, row, prefix, props, entries, k + 1, item);
      AllEqualSplit(env, reader, row, prefix, props, entries, k, item);
    }
  }

  /** Every key from k on compares equal exactly when key k does and every later key does. */
  lemma AllEqualSplit(env: Env, reader: Reader, row: seq<Cell>, prefix: string, props: seq<Prop>,
                      entries: seq<KeyProp>, k: nat, item: Val)
    requires k < |entries| && Indexed(entries, props) && HasFields(item, props)
    ensures (forall m :: k <= m < |entries| ==> KeyEquals(env, reader, row, prefix, props, entries[m], item) == Ok(true)) ==
      (KeyEquals(env, reader, row, prefix, props, entries[k], item) == Ok(true) &&
       forall m :: k + 1 <= m < |entries| ==> KeyEquals(env, reader, row, prefix, props, entries[m], item) == Ok(true))
  {
  }

  /** The single object is kept exactly when every key compares equal; a mismatch on an
      early key does not stop the later keys from being read. */
  lemma {:induction false} ObjectKeptIffAllEqual(env: Env, reader: Reader, row: seq<Cell>, prefix: string, props: seq<Prop>,
                                                 entries: seq<KeyProp>, k: nat, item: Val, allEqual: bool)
    requires k <= |entries| && Indexed(entries, props) && (entries != [] ==> HasFields(item, props))
    requires forall m :: k <= m < |entries| ==> KeyEquals(env, reader, row, prefix, props, entries[m], item).Ok?
    ensures ObjectKeysFrom(env, reader, row, prefix, props, entries, k, item, allEqual).Ok?
    ensures ObjectKeysFrom(env, reader, row, prefix, props, entries, k, item, allEqual).value <==>
      allEqual && forall m :: k <= m < |entries| ==> KeyEquals(env, reader, row, prefix, props, entries[m], item) == Ok(true)
    decreases |entries| - k
  {
    if k < |entries| {
      var eq := KeyEquals(env, reader, row, prefix, props, entries[k], item);
      ObjectKeptIffAllEqual(env, reader, row, prefix, props, entries, k + 1, item, allEqual && eq.value);
      assert ObjectKeysFrom(env, reader, row, prefix, props, entries, k, item, allEqual) ==
        ObjectKeysFrom(env, reader, row, prefix, props, entries, k + 1, item, allEqual && eq.value);
      AllEqualSplit(env, reader, row, prefix, props, entries, k, item);
    }
  }

  /** Every key is read even after a mismatch: an error on a later key is raised although an
      earlier key already differs. */
  lemma {:induction false} ObjectKeysReadAll(env: Env, reader: Reader, row: seq<Cell>, prefix: string, props: seq<Prop>,
                                             entries: seq<KeyProp>, k: nat, item: Val, allEqual: bool, m: nat)
    requires k <= m < |entries| && Indexed(entries, props) && HasFields(item, props)
    requires forall n :: k <= n < m ==> KeyEquals(env, reader, row, prefix, props, entries[n], item).Ok?
    requires KeyEquals(env, reader, row, prefix, props, entries[m], item).Err?
    ensures ObjectKeysFrom(env, reader, row, prefix, props, entries, k, item, allEqual).Err?
    decreases m - k
  {
    var eq := KeyEquals(env, reader, row, prefix, props, entries[k], item);
    if k < m {
      assert eq.Ok?;
      ObjectKeysReadAll(env, reader, row, prefix, props, entries, k + 1, item, allEqual && eq.value, m);
      assert ObjectKeysFrom(env, reader, row, prefix, props, entries, k, item, allEqual) ==
        ObjectKeysFrom(env, reader, row, prefix, props, entries, k + 1, item, allEqual && eq.value);
    } else {
      assert eq.Err?;
    }
  }

  /** A key that names no property at its level is rejected with an ArgumentException
      (an earlier duplicate key may be reported first). */
  lemma {:induction false} UnknownKeyRejected(keys: seq<string>, props: seq<Prop>, i: nat, acc: seq<KeyProp>, bad: nat)
    requires i <= bad < |keys| && |acc| == i && Indexed(acc, props)
    requires LastProp(props, Lower(keys[bad])).None?
    ensures ResolveFrom(keys, props, i, acc).Err?
    decreases |keys| - i
  {
    if i < bad {
      match LastProp(props, Lower(keys[i]))
      case None =>
      case Some(p) =>
        if !HasKey(acc, keys[i]) {
          UnknownKeyRejected(keys, props, i + 1, acc + [KeyProp(keys[i], p)], bad);
        }
    }
  }

  /** Two keys that coincide after prefix stripping cannot both be added to `dictProps`. */
  lemma {:induction false} DuplicateKeyRejected(keys: seq<string>, props: seq<Prop>, i: nat, acc: seq<KeyProp>, a: nat, b: nat)
    requires i <= a < b < |keys| && keys[a] == keys[b] && |acc| == i && Indexed(acc, props)
    ensures ResolveFrom(keys, props, i, acc).Err?
    decreases |keys| - i
  {
    var r := ResolveFrom(keys, props, i, acc);
    if r.Ok? {
      assert r.value[a].key == keys[a];
      DuplicateCaught(keys, props, i, acc, a, b);
    }
  }

  lemma {:induction false} DuplicateCaught(keys: seq<string>, props: seq<Prop>, i: nat, acc: seq<KeyProp>, a: nat, b: nat)
    requires i <= b < |keys| && a < b && |acc| == i && Indexed(acc, props)
    requires a < i ==> acc[a].key == keys[b]
    requires a >= i ==> keys[a] == keys[b]
    ensures ResolveFrom(keys, props, i, acc).Err?
    decreases |keys| - i
  {
    match LastProp(props, Lower(keys[i]))
    case None =>
    case Some(p) =>
      if i == b {
        assert HasKey(acc, keys[i]);
      } else if !HasKey(acc, keys[i]) {
        var acc' := acc + [KeyProp(keys[i], p)];
        assert a < i + 1 ==> acc'[a].key == keys[b];
        DuplicateCaught(keys, props, i + 1, acc', a, b);
      }
  }

  /** ValidateKeyProperties rejects, with an ArgumentException, a key that applies at this level
      but names no property, when the keys are matched against properties (an object, or a
      list of objects). */
  lemma KeyValidationRejectsUnknown(env: Env, reader: Reader, row: seq<Cell>, keys: seq<string>, prefix: string,
                                    ty: Ty, target: Target, bad: nat)
    requires NoNestedKeys(keys) && Filling(target, ty)
    requires !(target.AList? && IsValueType(ty))
    requires bad < |ApplicableKeys(keys, prefix)|
    requires LastProp(PropsOf(ty), Lower(StripKey(ApplicableKeys(keys, prefix)[bad], prefix))).None?
    ensures KeyValidation(env, reader, row, keys, prefix, ty, target).Err?
    ensures KeyValidation(env, reader, row, keys, prefix, ty, target).error.ArgumentError?
  {
    UnknownKeyRejected(StripAll(ApplicableKeys(keys, prefix), prefix), PropsOf(ty), 0, [], bad);
  }

  /** ... and a key whose property is neither a value type nor a string. */
  lemma KeyValidationRejectsNonScalar(env: Env, reader: Reader, row: seq<Cell>, keys: seq<string>, prefix: string,
                                      ty: Ty, target: Target, entries: seq<KeyProp>, bad: nat)
    requires NoNestedKeys(keys) && Filling(target, ty)
    requires !(target.AList? && IsValueType(ty)) && ApplicableKeys(keys, prefix) != []
    requires ResolveFrom(StripAll(ApplicableKeys(keys, prefix), prefix), PropsOf(ty), 0, []) == Ok(entries)
    requires bad < |entries| && !IsValueType(PropsOf(ty)[entries[bad].index].ty)
    ensures KeyValidation(env, reader, row, keys, prefix, ty, target) == Err(ArgumentError(NonScalarKey))
  {
  }

  /** A list of values is matched by value: the selected element is the last one equal to the
      cell the prefix names, and none after it is. */
  lemma ScalarListMatch(env: Env, reader: Reader, row: seq<Cell>, keys: seq<string>, prefix: string,
                        ty: Ty, items: seq<Val>, obj: Val, at: nat)
    requires NoNestedKeys(keys) && Filling(AList(items), ty) && IsValueType(ty)
    requires KeyValidation(env, reader, row, keys, prefix, ty, AList(items)) == Ok(Existing(obj, at))
    ensures GetValueFromDataReader(env, reader, row, prefix, ty).Ok?
    ensures obj == GetValueFromDataReader(env, reader, row, prefix, ty).value
    ensures forall k :: at < k < |items| ==> items[k] != obj
  {
  }

  /** A list of objects is matched by its keys: the selected element is the last one that
      passes every key filter. */
  lemma ObjectListMatch(env: Env, reader: Reader, row: seq<Cell>, keys: seq<string>, prefix: string,
                        ty: Ty, items: seq<Val>, obj: Val, at: nat)
    requires NoNestedKeys(keys) && Filling(AList(items), ty) && !IsValueType(ty)
    requires KeyValidation(env, reader, row, keys, prefix, ty, AList(items)) == Ok(Existing(obj, at))
    ensures ty.Rec? && KeyProps(keys, prefix, PropsOf(ty)).Ok?
    ensures var entries := KeyProps(keys, prefix, PropsOf(ty)).value;
      SurvivesFrom(env, reader, row, prefix, PropsOf(ty), entries, 0, obj) == Ok(true) &&
      forall k :: at < k < |items| ==> SurvivesFrom(env, reader, row, prefix, PropsOf(ty), entries, 0, items[k]) == Ok(false)
  {
    var props := PropsOf(ty);
    var entries := KeyProps(keys, prefix, props).value;
    assert entries[0].index < |props|;
    assert forall i :: 0 <= i < |items| ==> InstanceOf(items[i], ty);
    LastMatchIsLast(env, reader, row, prefix, props, entries, items, 0, None);
  }

  /** The two `dictProps` loops of ValidateKeyProperties: resolve each key to its property,
      then reject a key property that is neither a value type nor a string. */
  method BuildKeyProperties(keys: seq<string>, prefix: string, props: seq<Prop>) returns (r: Result<seq<KeyProp>>)
    ensures r == KeyProps(keys, prefix, props)
  {
    var stripped := StripAll(ApplicableKeys(keys, prefix), prefix);
    var dictProps :- ResolveKeys(stripped, props);
    r := CheckKeyProperties(dictProps, props);
  }

  /** The first loop: `dictProps.Add(key, property)` for each stripped key. */
  method ResolveKeys(stripped: seq<string>, props: seq<Prop>) returns (r: Result<seq<KeyProp>>)
    ensures r == ResolveFrom(stripped, props, 0, [])
  {
    var dictProps: seq<KeyProp> := [];
    var i := 0;
    while i < |stripped|
      invariant 0 <= i <= |stripped| && |dictProps| == i && Indexed(dictProps, props)
      invariant ResolveFrom(stripped, props, 0, []) == ResolveFrom(stripped, props, i, dictProps)
    {
      var p := LastProp(props, Lower(stripped[i]));
      if p.None? {
        return Err(ArgumentError(UnknownKey));
      }
      if HasKey(dictProps, stripped[i]) {
        return Err(ArgumentError(DuplicateKey));
      }
      dictProps := dictProps + [KeyProp(stripped[i], p.value)];
      i := i + 1;
    }
    return Ok(dictProps);
  }

  /** The second loop: every key property must be a value type or a string. */
  method CheckKeyProperties(entries: seq<KeyProp>, props: seq<Prop>) returns (r: Result<seq<KeyProp>>)
    requires Indexed(entries, props)
    ensures r == CheckScalar(entries, props)
  {
    var k := 0;
    while k < |entries|
      invariant 0 <= k <= |entries|
      invariant forall m :: 0 <= m < k ==> IsValueType(props[entries[m].index].ty)
    {
      if !IsValueType(props[entries[k].index].ty) {
        return Err(ArgumentError(NonScalarKey));
      }
      k := k + 1;
    }
    return Ok(entries);
  }

  /** The single-object loop: every key is compared and `isNewObj` records any mismatch. */
  method CompareObjectKeys(env: Env, reader: Reader, row: seq<Cell>, prefix: string, props: seq<Prop>,
                           entries: seq<KeyProp>, obj: Val) returns (r: Result<bool>)
    requires Indexed(entries, props) && HasFields(obj, props)
    ensures r == ObjectKeysFrom(env, reader, row, prefix, props, entries, 0, obj, true)
  {
    var isNewObj := false;
    var k := 0;
    while k < |entries|
      invariant 0 <= k <= |entries|
      invariant ObjectKeysFrom(env, reader, row, prefix, props, entries, 0, obj, true)
             == ObjectKeysFrom(env, reader, row, prefix, props, entries, k, obj, !isNewObj)
    {
      var eq :- KeyEquals(env, reader, row, prefix, props, entries[k], obj);
      if !eq {
        isNewObj := true;
      }
      k := k + 1;
    }
    return Ok(!isNewObj);
  }

  /** One item pulled through the chained key filters. */
  method ItemSurvives(env: Env, reader: Reader, row: seq<Cell>, prefix: string, props: seq<Prop>,
                      entries: seq<KeyProp>, item: Val) returns (r: Result<bool>)
    requires Indexed(entries, props) && (entries != [] ==> HasFields(item, props))
    ensures r == SurvivesFrom(env, reader, row, prefix, props, entries, 0, item)
  {
    var k := 0;
    while k < |entries|
      invariant 0 <= k <= |entries|
      invariant SurvivesFrom(env, reader, row, prefix, props, entries, 0, item)
             == SurvivesFrom(env, reader, row, prefix, props, entries, k, item)
    {
      var eq :- KeyEquals(env, reader, row, prefix, props, entries[k], item);
      if !eq {
        return Ok(false);
      }
      k := k + 1;
    }
    return Ok(true);
  }

  /** `subList.Count()` then `subList.LastOrDefault()`: the index of the last survivor. */
  method LastSurvivor(env: Env, reader: Reader, row: seq<Cell>, prefix: string, props: seq<Prop>,
                      entries: seq<KeyProp>, items: seq<Val>) returns (r: Result<Option<nat>>)
    requires Indexed(entries, props)
    requires entries != [] ==> forall i :: 0 <= i < |items| ==> HasFields(items[i], props)
    ensures r == MatchFrom(env, reader, row, prefix, props, entries, items, 0, None)
  {
    var last: Option<nat> := None;
    var j := 0;
    while j < |items|
      invariant 0 <= j <= |items| && (last.Some? ==> last.value < j)
      invariant MatchFrom(env, reader, row, prefix, props, entries, items, 0, None)
             == MatchFrom(env, reader, row, prefix, props, entries, items, j, last)
    {
      var keep :- ItemSurvives(env, reader, row, prefix, props, entries, items[j]);
      if keep {
        last := Some(j);
      }
      j := j + 1;
    }
    return Ok(last);
  }

  /** ValidateKeyProperties: the keys that apply here, then a match by value for a list of
      values, or by key properties for an object or a list of objects. */
  method ValidateKeyProperties(env: Env, reader: Reader, row: seq<Cell>, keys: seq<string>, prefix: string,
                               ty: Ty, target: Target) returns (r: Result<Match>)
    requires NoNestedKeys(keys) && Filling(target, ty)
    ensures r == KeyValidation(env, reader, row, keys, prefix, ty, target)
  {
    if ApplicableKeys(keys, prefix) == [] {
      return Ok(NewItem);
    }
    if target.AList? && IsValueType(ty) {
      if target.items == [] {
        return Ok(NewItem);
      }
      var v :- GetValueFromDataReader(env, reader, row, prefix, ty);
      var found := LastEqual(target.items, v);
      if found.None? {
        return Ok(NewItem);
      }
      return Ok(Existing(target.items[found.value], found.value));
    }
    var props := PropsOf(ty);
    var dictProps :- BuildKeyProperties(keys, prefix, props);
    assert ty.Rec? by {
      assert dictProps[0].index < |props|;
    }
    match target {
      case AnObject(obj) =>
        assert InstanceOf(obj, ty);
        var same :- CompareObjectKeys(env, reader, row, prefix, props, dictProps, obj);
        if !same {
          return Ok(NewItem);
        }
        return Ok(Existing(obj, 0));
      case AList(items) =>
        assert forall j :: 0 <= j < |items| ==> InstanceOf(items[j], ty);
        var last :- LastSurvivor(env, reader, row, prefix, props, dictProps, items);
        if last.None? {
          return Ok(NewItem);
        }
        return Ok(Existing(items[last.value], last.value));
    }
  }
}

=== FILE: materializer.dfy ===
/** The row-by-row materializer of DatabaseExtensions: List, Get, both GetObjectFromDataReader
    overloads and CreateObjectWithDataReader, as functions of the reader, one row at a time. */
module Materializer {
  import opened Wrappers
  import opened Text
  import opened TypeModel
  import opened DataReader
  import opened Converter
  import opened Keys

  /** The state of one CreateObjectWithDataReader call: the object being filled and
      `properties`, the property names already handled. */
  datatype FillState = FillState(obj: Val, seen: seq<string>)

  /** The columns CreateObjectWithDataReader walks: the names computed once by GetColumnNames
      in the current engine, the schema table read afresh in the legacy one. */
  function ColumnsOf(env: Env, reader: Reader, columnNames: seq<string>): (r: Result<seq<string>>)
    ensures env.variant.Current? ==> r == Ok(columnNames)
    ensures env.variant.Legacy? ==> r == LegacyColumnNames(reader)
  {
    if env.variant.Current? then Ok(columnNames) else LegacyColumnNames(reader)
  }

  /** The property name a column fills at the level of `prefix`: the text before the first
      dot once every occurrence of the prefix is removed. */
  function PropertyNameOf(column: string, prefix: string): (r: string)
    ensures '.' !in r
    ensures prefix == "" ==> StartsWith(column, r) && (|r| < |column| ==> column[|r|] == '.')
    ensures prefix != "" ==>
      var stripped := ReplaceAll(column, prefix, "");
      StartsWith(stripped, r) && (|r| < |stripped| ==> stripped[|r|] == '.')
  {
    FirstSegment(if prefix == "" then column else ReplaceAll(column, prefix, ""))
  }

  /** The list a list property holds before this row: its value, or an empty array or new
      collection when it is null. The legacy engine instantiates an interface type directly,
      which fails. */
  function CurrentList(variant: Variant, shape: ListShape, current: Val): (r: Result<seq<Val>>)
    requires current.Null? || current.Items?
    ensures current.Items? ==> r == Ok(current.items)
    ensures r.Err? ==> r.error == MissingMethod && variant.Legacy? && current.Null?
  {
    if current.Items? then Ok(current.items)
    else if shape.ArrayOf? || shape.ListOf? || shape.OtherClass? || variant.Current? then Ok([])
    else Err(MissingMethod)
  }

  /** ConvertObjectList and the SetValue that stores its result: the items, as a List<E> or an
      E[], in order; a List<E> fits neither an interface it does not implement nor another
      collection class. */
  function ConvertObjectList(shape: ListShape, items: seq<Val>): (r: Result<Val>)
    ensures r.Ok? <==> !shape.OtherInterface? && !shape.OtherClass?
    ensures r.Ok? ==> r.value.Items? && r.value.items == items
    ensures r.Err? ==> r.error == ArgumentError(NotAssignable)
  {
    if shape.OtherInterface? || shape.OtherClass? then Err(ArgumentError(NotAssignable)) else Ok(Items(items))
  }

  /** GetObjectFromDataReader, list overload: a blank T (or the item the keys select) is filled
      from the row; a blank one is appended, a selected one of reference type is refined where
      it is, a selected value-type one is a copy and leaves the list as it was. */
  function ItemMerged(env: Env, reader: Reader, row: seq<Cell>, columnNames: seq<string>, keys: seq<string>,
                      prefix: string, ty: Ty, items: seq<Val>): (r: Result<seq<Val>>)
    requires NoNestedKeys(keys)
    requires forall i :: 0 <= i < |items| ==> IsInstance(items[i], ty)
    ensures r.Ok? ==> forall i :: 0 <= i < |r.value| ==> IsInstance(r.value[i], ty)
    ensures r.Ok? ==> |items| <= |r.value| <= |items| + 1
    decreases ty, 3
  {
    var blank :- Fresh(ty);
    assert ty.Rec? ==> forall i :: 0 <= i < |items| ==> InstanceOf(items[i], ty) by {
      if ty.Rec? {
        forall i | 0 <= i < |items| ensures InstanceOf(items[i], ty) {
          assert IsInstance(items[i], ty);
        }
      }
    }
    var m :- KeyValidation(env, reader, row, keys, prefix, ty, AList(items));
    match m
    case NewItem =>
      var filled :- Filled(env, reader, row, columnNames, keys, prefix, ty, blank);
      Ok(items + [filled])
    case Existing(obj, at) =>
      var filled :- Filled(env, reader, row, columnNames, keys, prefix, ty, obj);
      if IsValueType(ty) then Ok(items) else Ok(items[at := filled])
  }

  /** GetObjectFromDataReader, single-object overload: the earlier object is refined when it is
      not default(T) and the keys select it; otherwise a blank instance is filled. */
  function ObjectRefreshed(env: Env, reader: Reader, row: seq<Cell>, columnNames: seq<string>, keys: seq<string>,
                           prefix: string, ty: Ty, prev: Val): (r: Result<Val>)
    requires NoNestedKeys(keys)
    requires prev == Default(ty) || IsInstance(prev, ty)
    ensures r.Ok? ==> IsInstance(r.value, ty)
    decreases ty, 3
  {
    var blank :- Fresh(ty);
    if prev == Default(ty) then Filled(env, reader, row, columnNames, keys, prefix, ty, blank)
    else
      assert ty.Rec? ==> InstanceOf(prev, ty);
      var target := if prev.Items? then AList(prev.items) else AnObject(prev);
      var m :- KeyValidation(env, reader, row, keys, prefix, ty, target);
      match m
      case NewItem => Filled(env, reader, row, columnNames, keys, prefix, ty, blank)
      case Existing(obj, _) => Filled(env, reader, row, columnNames, keys, prefix, ty, obj)
  }

  /** CreateObjectWithDataReader: the object after every column has been visited. */
  function Filled(env: Env, reader: Reader, row: seq<Cell>, columnNames: seq<string>, keys: seq<string>,
                  prefix: string, ty: Ty, obj: Val): (r: Result<Val>)
    requires NoNestedKeys(keys) && IsInstance(obj, ty)
    ensures r.Ok? ==> IsInstance(r.value, ty)
    decreases ty, 2
  {
    var cols :- ColumnsOf(env, reader, columnNames);
    var st :- FilledFrom(env, reader, row, columnNames, keys, prefix, ty, cols, 0, FillState(obj, []));
    Ok(st.obj)
  }

  /** The column loop from column i on. */
  function FilledFrom(env: Env, reader: Reader, row: seq<Cell>, columnNames: seq<string>, keys: seq<string>,
                      prefix: string, ty: Ty, cols: seq<string>, i: nat, st: FillState): (r: Result<FillState>)
    requires NoNestedKeys(keys) && IsInstance(st.obj, ty) && i <= |cols|
    ensures r.Ok? ==> IsInstance(r.value.obj, ty)
    decreases ty, 1, |cols| - i
  {
    if i == |cols| then Ok(st)
    else
      var next :- ColumnFilled(env, reader, row, columnNames, keys, prefix, ty, cols[i], st);
      FilledFrom(env, reader, row, columnNames, keys, prefix, ty, cols, i + 1, next)
  }

  /** The column loop, one step unrolled. */
  lemma FilledFromStep(env: Env, reader: Reader, row: seq<Cell>, columnNames: seq<string>, keys: seq<string>,
                       prefix: string, ty: Ty, cols: seq<string>, i: nat, st: FillState)
    requires NoNestedKeys(keys) && IsInstance(st.obj, ty) && i < |cols|
    ensures var next := ColumnFilled(env, reader, row, columnNames, keys, prefix, ty, cols[i], st);
      next.Err? ==> FilledFrom(env, reader, row, columnNames, keys, prefix, ty, cols, i, st) == Err(next.error)
    ensures var next := ColumnFilled(env, reader, row, columnNames, keys, prefix, ty, cols[i], st);
      next.Ok? ==>
        FilledFrom(env, reader, row, columnNames, keys, prefix, ty, cols, i, st) ==
        FilledFrom(env, reader, row, columnNames, keys, prefix, ty, cols, i + 1, next.value)
  {
  }

  /** One column: skipped when its cell is NULL or it lacks the prefix; for a value-type T it
      replaces the value; otherwise it fills the property it names, unless that property was
      already handled in this call. */
  function ColumnFilled(env: Env, reader: Reader, row: seq<Cell>, columnNames: seq<string>, keys: seq<string>,
                        prefix: string, ty: Ty, col: string, st: FillState): (r: Result<FillState>)
    requires NoNestedKeys(keys) && IsInstance(st.obj, ty)
    ensures r.Ok? ==> IsInstance(r.value.obj, ty)
    ensures r.Ok? ==>
      (r.value.seen == st.seen ||
       (PropertyNameOf(col, prefix) !in st.seen && r.value.seen == st.seen + [PropertyNameOf(col, prefix)]))
    ensures r.Ok? && r.value.seen != st.seen ==> Carries(reader, row, prefix, col)
    ensures IsValueType(ty) && Carries(reader, row, prefix, col) ==>
      (r.Ok? <==> GetValueFromDataReader(env, reader, row, col, ty).Ok?) &&
      (r.Ok? ==> r.value.obj == GetValueFromDataReader(env, reader, row, col, ty).value)
    ensures ty.Rec? && r.Ok? ==>
      InstanceOf(st.obj, ty) && InstanceOf(r.value.obj, ty) &&
      forall j :: 0 <= j < |ty.props| && !Writes(reader, row, prefix, ty, col, j) ==>
        r.value.obj.fields[j] == st.obj.fields[j]
    ensures ty.Rec? && PropertyNameOf(col, prefix) !in st.seen ==>
      forall j: nat :: Writes(reader, row, prefix, ty, col, j) ==>
        (r.Ok? <==> PropertyFilled(env, reader, row, columnNames, keys, prefix, ty, st.obj, j, PropertyNameOf(col, prefix), col).Ok?) &&
        (r.Ok? ==>
          r.value.obj.fields[j] == PropertyFilled(env, reader, row, columnNames, keys, prefix, ty, st.obj, j, PropertyNameOf(col, prefix), col).value &&
          r.value.seen == st.seen + [PropertyNameOf(col, prefix)])
    decreases ty, 0, 1
  {
    var cell :- ReadCell(reader, row, col);
    if cell.DbNull? || !Contains(col, prefix) then Ok(st)
    else if IsValueType(ty) then
      var v :- GetValueFromDataReader(env, reader, row, col, ty);
      Ok(FillState(v, st.seen))
    else
      var name := PropertyNameOf(col, prefix);
      if name in st.seen then Ok(st)
      else
        var seen := st.seen + [name];
        match FirstProp(PropsOf(ty), name)
        case None => Ok(FillState(st.obj, seen))
        case Some(i) =>
          var v :- PropertyFilled(env, reader, row, columnNames, keys, prefix, ty, st.obj, i, name, col);
          SetFieldKeepsInstance(st.obj, ty, i, v);
          Ok(FillState(SetField(st.obj, i, v), seen))
  }

  /** The new value of property i, named `name` in the column `col`: a list property gets the
      list merged with this row's item, a reference property a new instance filled from this
      row, a value property the converted cell. */
  function PropertyFilled(env: Env, reader: Reader, row: seq<Cell>, columnNames: seq<string>, keys: seq<string>,
                          prefix: string, ty: Ty, obj: Val, i: nat, name: string, col: string): (r: Result<Val>)
    requires NoNestedKeys(keys) && ty.Rec? && i < |ty.props| && InstanceOf(obj, ty)
    ensures r.Ok? ==> Conforms(r.value, ty.props[i].ty)
    ensures !ty.props[i].ty.Lst? && !ty.props[i].ty.Rec? ==> r == GetValueFromDataReader(env, reader, row, col, ty.props[i].ty)
    decreases ty, 0, 0
  {
    var prop := ty.props[i];
    assert prop in ty.props;
    match prop.ty
    case Lst(shape, elem) =>
      if env.variant.Current? && shape.OtherInterface? then Err(ApplicationError(prop.name))
      else
        var current := obj.fields[i];
        assert Conforms(current, prop.ty);
        var items :- CurrentList(env.variant, shape, current);
        var merged :- ItemMerged(env, reader, row, columnNames, keys, prefix + name + ".", elem, items);
        ConvertObjectList(shape, merged)
    case Rec(_, _, _) =>
      ObjectRefreshed(env, reader, row, columnNames, keys, prefix + name + ".", prop.ty, Null)
    case _ =>
      GetValueFromDataReader(env, reader, row, col, prop.ty)
  }

  /** `default(T) == null && typeof(T) != typeof(string)`: T is built by GetObjectFromDataReader
      rather than cast from the first column. */
  predicate IsObjectPath(ty: Ty) {
    DefaultIsNull(ty) && !ty.Str?
  }

  /** The row loop of List from row i on. */
  function ListedFrom(env: Env, reader: Reader, columnNames: seq<string>, keys: seq<string>, ty: Ty,
                      i: nat, list: seq<Val>): (r: Result<seq<Val>>)
    requires NoNestedKeys(keys) && i <= |reader.rows|
    requires forall k :: 0 <= k < |list| ==> IsInstance(list[k], ty)
    ensures r.Ok? ==> forall k :: 0 <= k < |r.value| ==> IsInstance(r.value[k], ty)
    decreases |reader.rows| - i
  {
    if i == |reader.rows| then Ok(list)
    else
      var next :- RowListed(env, reader, columnNames, keys, ty, i, list);
      ListedFrom(env, reader, columnNames, keys, ty, i + 1, next)
  }

  /** The row loop of List, one step unrolled. */
  lemma ListedFromStep(env: Env, reader: Reader, columnNames: seq<string>, keys: seq<string>, ty: Ty,
                       i: nat, list: seq<Val>)
    requires NoNestedKeys(keys) && i < |reader.rows|
    requires forall k :: 0 <= k < |list| ==> IsInstance(list[k], ty)
    ensures var next := RowListed(env, reader, columnNames, keys, ty, i, list);
      next.Err? ==> ListedFrom(env, reader, columnNames, keys, ty, i, list) == Err(next.error)
    ensures var next := RowListed(env, reader, columnNames, keys, ty, i, list);
      next.Ok? ==>
        ListedFrom(env, reader, columnNames, keys, ty, i, list) ==
        ListedFrom(env, reader, columnNames, keys, ty, i + 1, next.value)
  {
  }

  /** One row of List: an object type merges the row into the list; a scalar type appends the
      first cell cast to T, with InvalidCast when the cast fails. */
  function RowListed(env: Env, reader: Reader, columnNames: seq<string>, keys: seq<string>, ty: Ty,
                     i: nat, list: seq<Val>): (r: Result<seq<Val>>)
    requires NoNestedKeys(keys) && i < |reader.rows|
    requires forall k :: 0 <= k < |list| ==> IsInstance(list[k], ty)
    ensures r.Ok? ==> forall k :: 0 <= k < |r.value| ==> IsInstance(r.value[k], ty)
  {
    if IsObjectPath(ty) then
      ItemMerged(env, reader, reader.rows[i], columnNames, keys, "", ty, list)
    else
      var cell :- FirstCell(reader.rows[i]);
      match env.unbox(cell, ty)
      case None => Err(InvalidCast)
      case Some(v) => Ok(list + [v])
  }

  /** The row loop of Get from row i on. */
  function GotFrom(env: Env, reader: Reader, columnNames: seq<string>, keys: seq<string>, ty: Ty,
                   i: nat, obj: Val): (r: Result<Val>)
    requires NoNestedKeys(keys) && i <= |reader.rows|
    requires obj == Default(ty) || IsInstance(obj, ty)
    ensures r.Ok? ==> r.value == Default(ty) || IsInstance(r.value, ty)
    decreases |reader.rows| - i
  {
    if i == |reader.rows| then Ok(obj)
    else if IsObjectPath(ty) then
      var next :- ObjectRefreshed(env, reader, reader.rows[i], columnNames, keys, "", ty, obj);
      GotFrom(env, reader, columnNames, keys, ty, i + 1, next)
    else
      var cell :- FirstCell(reader.rows[i]);
      match env.unbox(cell, ty)
      case None => Err(InvalidCast)
      case Some(v) => GotFrom(env, reader, columnNames, keys, ty, i + 1, v)
  }

  /** List<T>: the list built from every row. */
  function Listed(env: Env, reader: Reader, keys: seq<string>, ty: Ty): (r: Result<seq<Val>>)
    requires NoNestedKeys(keys)
    ensures r.Ok? ==> forall k :: 0 <= k < |r.value| ==> IsInstance(r.value[k], ty)
    ensures reader.rows == [] ==> r == Ok([])
  {
    ListedFrom(env, reader, ColumnNames(reader), keys, ty, 0, [])
  }

  /** Get<T>: default(T) when there is no row, else the value after the last row. */
  function Got(env: Env, reader: Reader, keys: seq<string>, ty: Ty): (r: Result<Val>)
    requires NoNestedKeys(keys)
    ensures r.Ok? ==> r.value == Default(ty) || IsInstance(r.value, ty)
    ensures reader.rows == [] ==> r == Ok(Default(ty))
  {
    GotFrom(env, reader, ColumnNames(reader), keys, ty, 0, Default(ty))
  }

  /** A NULL cell, or a column outside the current prefix, changes nothing. */
  lemma NullOrForeignColumnSkipped(env: Env, reader: Reader, row: seq<Cell>, columnNames: seq<string>, keys: seq<string>,
                                   prefix: string, ty: Ty, col: string, st: FillState)
    requires NoNestedKeys(keys) && IsInstance(st.obj, ty)
    requires ReadCell(reader, row, col) == Ok(DbNull) || (ReadCell(reader, row, col).Ok? && !Contains(col, prefix))
    ensures ColumnFilled(env, reader, row, columnNames, keys, prefix, ty, col, st) == Ok(st)
  {
  }

  /** The first column naming a property wins: once the name is in `properties`, a later
      column with the same property name changes nothing. */
  lemma FirstColumnWins(env: Env, reader: Reader, row: seq<Cell>, columnNames: seq<string>, keys: seq<string>,
                        prefix: string, ty: Ty, col: string, st: FillState)
    requires NoNestedKeys(keys) && IsInstance(st.obj, ty) && !IsValueType(ty)
    requires ReadCell(reader, row, col).Ok? && PropertyNameOf(col, prefix) in st.seen
    ensures ColumnFilled(env, reader, row, columnNames, keys, prefix, ty, col, st) == Ok(st)
  {
  }

  /** `properties` never holds a name twice, and a fill call only adds to it. */
  lemma {:induction false} OncePerProperty(env: Env, reader: Reader, row: seq<Cell>, columnNames: seq<string>, keys: seq<string>,
                                           prefix: string, ty: Ty, cols: seq<string>, i: nat, st: FillState)
    requires NoNestedKeys(keys) && IsInstance(st.obj, ty) && i <= |cols| && NoDup(st.seen)
    ensures var r := FilledFrom(env, reader, row, columnNames, keys, prefix, ty, cols, i, st);
      r.Ok? ==> NoDup(r.value.seen) && st.seen <= r.value.seen
    decreases |cols| - i
  {
    if i < |cols| {
      var next := ColumnFilled(env, reader, row, columnNames, keys, prefix, ty, cols[i], st);
      if next.Ok? {
        ColumnFilledSeen(env, reader, row, columnNames, keys, prefix, ty, cols[i], st);
        OncePerProperty(env, reader, row, columnNames, keys, prefix, ty, cols, i + 1, next.value);
      }
    }
  }

  /** One column adds at most one name to `properties`, and only a name not yet there. */
  lemma ColumnFilledSeen(env: Env, reader: Reader, row: seq<Cell>, columnNames: seq<string>, keys: seq<string>,
                         prefix: string, ty: Ty, col: string, st: FillState)
    requires NoNestedKeys(keys) && IsInstance(st.obj, ty) && NoDup(st.seen)
    ensures var r := ColumnFilled(env, reader, row, columnNames, keys, prefix, ty, col, st);
      r.Ok? ==> NoDup(r.value.seen) && st.seen <= r.value.seen
  {
    var r := ColumnFilled(env, reader, row, columnNames, keys, prefix, ty, col, st);
    if r.Ok? && r.value.seen != st.seen {
      NoDupAppend(st.seen, PropertyNameOf(col, prefix));
    }
  }

  /** Column `col` takes part in this row: its cell is not NULL and it carries the prefix. */
  predicate Carries(reader: Reader, row: seq<Cell>, prefix: string, col: string) {
    ReadCell(reader, row, col).Ok? && !ReadCell(reader, row, col).value.DbNull? && Contains(col, prefix)
  }

  /** Column `col` writes property j in this row: it takes part, and the name it yields
      resolves to property j. */
  predicate Writes(reader: Reader, row: seq<Cell>, prefix: string, ty: Ty, col: string, j: nat) {
    Carries(reader, row, prefix, col) && FirstProp(PropsOf(ty), PropertyNameOf(col, prefix)) == Some(j)
  }

  /** NULL never overwrites: a property that no remaining column writes keeps its value
      (so a list or nested property is visited only when one of its columns is not NULL). */
  lemma {:induction false} UntouchedPropertyKept(env: Env, reader: Reader, row: seq<Cell>, columnNames: seq<string>, keys: seq<string>,
                                                 prefix: string, ty: Ty, cols: seq<string>, i: nat, st: FillState, j: nat)
    requires NoNestedKeys(keys) && ty.Rec? && InstanceOf(st.obj, ty) && i <= |cols| && j < |ty.props|
    requires forall c :: i <= c < |cols| ==> !Writes(reader, row, prefix, ty, cols[c], j)
    ensures var r := FilledFrom(env, reader, row, columnNames, keys, prefix, ty, cols, i, st);
      r.Ok? ==> r.value.obj.Obj? && |r.value.obj.fields| == |ty.props| && r.value.obj.fields[j] == st.obj.fields[j]
    decreases |cols| - i
  {
    if i < |cols| {
      var next := ColumnFilled(env, reader, row, columnNames, keys, prefix, ty, cols[i], st);
      if next.Ok? {
        assert next.value.obj.fields[j] == st.obj.fields[j];
        UntouchedPropertyKept(env, reader, row, columnNames, keys, prefix, ty, cols, i + 1, next.value, j);
      }
    }
  }

  /** A property's new value depends on the object only through that property's current value
      (the list being merged); the rest of the object plays no part. */
  lemma PropertyFilledLocal(env: Env, reader: Reader, row: seq<Cell>, columnNames: seq<string>, keys: seq<string>,
                            prefix: string, ty: Ty, obj1: Val, obj2: Val, i: nat, name: string, col: string)
    requires NoNestedKeys(keys) && ty.Rec? && i < |ty.props| && InstanceOf(obj1, ty) && InstanceOf(obj2, ty)
    requires obj1.fields[i] == obj2.fields[i]
    ensures PropertyFilled(env, reader, row, columnNames, keys, prefix, ty, obj1, i, name, col)
         == PropertyFilled(env, reader, row, columnNames, keys, prefix, ty, obj2, i, name, col)
  {
  }

  /** Once its name is in `properties`, a property keeps its value to the end of the call:
      the columns that name it are skipped and no other column writes it. */
  lemma {:induction false} KeptOnceSeen(env: Env, reader: Reader, row: seq<Cell>, columnNames: seq<string>, keys: seq<string>,
                                        prefix: string, ty: Ty, cols: seq<string>, i: nat, st: FillState, j: nat)
    requires NoNestedKeys(keys) && ty.Rec? && InstanceOf(st.obj, ty) && i <= |cols| && j < |ty.props|
    requires Lower(ty.props[j].name) in st.seen
    ensures var r := FilledFrom(env, reader, row, columnNames, keys, prefix, ty, cols, i, st);
      r.Ok? ==> InstanceOf(r.value.obj, ty) && r.value.obj.fields[j] == st.obj.fields[j]
    decreases |cols| - i
  {
    if i < |cols| {
      var next := ColumnFilled(env, reader, row, columnNames, keys, prefix, ty, cols[i], st);
      FilledFromStep(env, reader, row, columnNames, keys, prefix, ty, cols, i, st);
      if next.Ok? {
        KeptStep(env, reader, row, columnNames, keys, prefix, ty, cols[i], st, j);
        KeptOnceSeen(env, reader, row, columnNames, keys, prefix, ty, cols, i + 1, next.value, j);
      }
    }
  }

  /** One column of KeptOnceSeen. */
  lemma KeptStep(env: Env, reader: Reader, row: seq<Cell>, columnNames: seq<string>, keys: seq<string>,
                 prefix: string, ty: Ty, col: string, st: FillState, j: nat)
    requires NoNestedKeys(keys) && ty.Rec? && InstanceOf(st.obj, ty) && j < |ty.props|
    requires Lower(ty.props[j].name) in st.seen
    requires ColumnFilled(env, reader, row, columnNames, keys, prefix, ty, col, st).Ok?
    ensures var next := ColumnFilled(env, reader, row, columnNames, keys, prefix, ty, col, st).value;
      InstanceOf(next.obj, ty) && next.obj.fields[j] == st.obj.fields[j] && Lower(ty.props[j].name) in next.seen
  {
    if Writes(reader, row, prefix, ty, col, j) {
      FirstColumnWins(env, reader, row, columnNames, keys, prefix, ty, col, st);
    }
  }

  /** A column before the first writer of property j leaves the property, and the absence of
      its name from `properties`, as they were; the loop goes on from the next column. */
  lemma BeforeFirstWriter(env: Env, reader: Reader, row: seq<Cell>, columnNames: seq<string>, keys: seq<string>,
                          prefix: string, ty: Ty, cols: seq<string>, i: nat, st: FillState, c: nat, j: nat)
    requires NoNestedKeys(keys) && ty.Rec? && InstanceOf(st.obj, ty) && i < c < |cols|
    requires Writes(reader, row, prefix, ty, cols[c], j) && PropertyNameOf(cols[c], prefix) !in st.seen
    requires !Writes(reader, row, prefix, ty, cols[i], j)
    ensures var next := ColumnFilled(env, reader, row, columnNames, keys, prefix, ty, cols[i], st);
      next.Err? ==> FilledFrom(env, reader, row, columnNames, keys, prefix, ty, cols, i, st).Err?
    ensures var next := ColumnFilled(env, reader, row, columnNames, keys, prefix, ty, cols[i], st);
      var name := PropertyNameOf(cols[c], prefix);
      next.Ok? ==>
        InstanceOf(next.value.obj, ty) && name !in next.value.seen &&
        FilledFrom(env, reader, row, columnNames, keys, prefix, ty, cols, i, st) ==
          FilledFrom(env, reader, row, columnNames, keys, prefix, ty, cols, i + 1, next.value) &&
        PropertyFilled(env, reader, row, columnNames, keys, prefix, ty, st.obj, j, name, cols[c]) ==
          PropertyFilled(env, reader, row, columnNames, keys, prefix, ty, next.value.obj, j, name, cols[c])
  {
    var name := PropertyNameOf(cols[c], prefix);
    var next := ColumnFilled(env, reader, row, columnNames, keys, prefix, ty, cols[i], st);
    FilledFromStep(env, reader, row, columnNames, keys, prefix, ty, cols, i, st);
    if next.Ok? {
      if next.value.seen != st.seen {
        assert PropertyNameOf(cols[i], prefix) != name;
      }
      PropertyFilledLocal(env, reader, row, columnNames, keys, prefix, ty, st.obj, next.value.obj, j, name, cols[c]);
    }
  }

  /** The first writer of property j stores the property's new value and records its name. */
  lemma AtFirstWriter(env: Env, reader: Reader, row: seq<Cell>, columnNames: seq<string>, keys: seq<string>,
                      prefix: string, ty: Ty, col: string, st: FillState, j: nat)
    requires NoNestedKeys(keys) && ty.Rec? && InstanceOf(st.obj, ty)
    requires Writes(reader, row, prefix, ty, col, j) && PropertyNameOf(col, prefix) !in st.seen
    requires ColumnFilled(env, reader, row, columnNames, keys, prefix, ty, col, st).Ok?
    ensures j < |ty.props|
    ensures var next := ColumnFilled(env, reader, row, columnNames, keys, prefix, ty, col, st).value;
      var v := PropertyFilled(env, reader, row, columnNames, keys, prefix, ty, st.obj, j, PropertyNameOf(col, prefix), col);
      InstanceOf(next.obj, ty) && v.Ok? && next.obj.fields[j] == v.value && Lower(ty.props[j].name) in next.seen
  {
  }

  /** The first column that writes a property decides its value: the property ends the call
      holding what that column gives it, computed from the property's value before the call. */
  lemma {:induction false} FirstWriterWins(env: Env, reader: Reader, row: seq<Cell>, columnNames: seq<string>, keys: seq<string>,
                                           prefix: string, ty: Ty, cols: seq<string>, i: nat, st: FillState, c: nat, j: nat)
    requires NoNestedKeys(keys) && ty.Rec? && InstanceOf(st.obj, ty) && i <= c < |cols|
    requires Writes(reader, row, prefix, ty, cols[c], j)
    requires forall k :: i <= k < c ==> !Writes(reader, row, prefix, ty, cols[k], j)
    requires PropertyNameOf(cols[c], prefix) !in st.seen
    ensures var r := FilledFrom(env, reader, row, columnNames, keys, prefix, ty, cols, i, st);
      var v := PropertyFilled(env, reader, row, columnNames, keys, prefix, ty, st.obj, j, PropertyNameOf(cols[c], prefix), cols[c]);
      r.Ok? ==> InstanceOf(r.value.obj, ty) && v.Ok? && r.value.obj.fields[j] == v.value
    decreases |cols| - i
  {
    if i < c {
      var next := ColumnFilled(env, reader, row, columnNames, keys, prefix, ty, cols[i], st);
      BeforeFirstWriter(env, reader, row, columnNames, keys, prefix, ty, cols, i, st, c, j);
      if next.Ok? {
        FirstWriterWins(env, reader, row, columnNames, keys, prefix, ty, cols, i + 1, next.value, c, j);
      }
    } else {
      FromFirstWriter(env, reader, row, columnNames, keys, prefix, ty, cols, c, st, j);
    }
  }

  /** FirstWriterWins from the writing column itself. */
  lemma FromFirstWriter(env: Env, reader: Reader, row: seq<Cell>, columnNames: seq<string>, keys: seq<string>,
                        prefix: string, ty: Ty, cols: seq<string>, c: nat, st: FillState, j: nat)
    requires NoNestedKeys(keys) && ty.Rec? && InstanceOf(st.obj, ty) && c < |cols|
    requires Writes(reader, row, prefix, ty, cols[c], j) && PropertyNameOf(cols[c], prefix) !in st.seen
    ensures var r := FilledFrom(env, reader, row, columnNames, keys, prefix, ty, cols, c, st);
      var v := PropertyFilled(env, reader, row, columnNames, keys, prefix, ty, st.obj, j, PropertyNameOf(cols[c], prefix), cols[c]);
      r.Ok? ==> InstanceOf(r.value.obj, ty) && v.Ok? && r.value.obj.fields[j] == v.value
  {
    var next := ColumnFilled(env, reader, row, columnNames, keys, prefix, ty, cols[c], st);
    FilledFromStep(env, reader, row, columnNames, keys, prefix, ty, cols, c, st);
    if next.Ok? {
      AtFirstWriter(env, reader, row, columnNames, keys, prefix, ty, cols[c], st, j);
      KeptOnceSeen(env, reader, row, columnNames, keys, prefix, ty, cols, c + 1, next.value, j);
    }
  }

  /** CreateObjectWithDataReader fills property j from the first column of the row that
      writes it; a value or string property then holds that column's converted cell. */
  lemma FilledFromFirstWriter(env: Env, reader: Reader, row: seq<Cell>, columnNames: seq<string>, keys: seq<string>,
                              prefix: string, ty: Ty, obj: Val, cols: seq<string>, c: nat, j: nat)
    requires NoNestedKeys(keys) && ty.Rec? && InstanceOf(obj, ty)
    requires ColumnsOf(env, reader, columnNames) == Ok(cols) && c < |cols|
    requires Writes(reader, row, prefix, ty, cols[c], j)
    requires forall k :: 0 <= k < c ==> !Writes(reader, row, prefix, ty, cols[k], j)
    ensures var r := Filled(env, reader, row, columnNames, keys, prefix, ty, obj);
      var v := PropertyFilled(env, reader, row, columnNames, keys, prefix, ty, obj, j, PropertyNameOf(cols[c], prefix), cols[c]);
      r.Ok? ==> InstanceOf(r.value, ty) && v.Ok? && r.value.fields[j] == v.value
    ensures var r := Filled(env, reader, row, columnNames, keys, prefix, ty, obj);
      r.Ok? && !ty.props[j].ty.Lst? && !ty.props[j].ty.Rec? ==>
        InstanceOf(r.value, ty) && r.value.fields[j] == GetValueFromDataReader(env, reader, row, cols[c], ty.props[j].ty).value
  {
    FirstWriterWins(env, reader, row, columnNames, keys, prefix, ty, cols, 0, FillState(obj, []), c, j);
  }

  /** For a value-type T the columns that take no part leave the value as it was. */
  lemma {:induction false} NoCarrierKeeps(env: Env, reader: Reader, row: seq<Cell>, columnNames: seq<string>, keys: seq<string>,
                                          prefix: string, ty: Ty, cols: seq<string>, i: nat, st: FillState)
    requires NoNestedKeys(keys) && IsValueType(ty) && IsInstance(st.obj, ty) && i <= |cols|
    requires forall k :: i <= k < |cols| ==> !Carries(reader, row, prefix, cols[k])
    ensures var r := FilledFrom(env, reader, row, columnNames, keys, prefix, ty, cols, i, st);
      r.Ok? ==> r.value.obj == st.obj
    decreases |cols| - i
  {
    if i < |cols| {
      var next := ColumnFilled(env, reader, row, columnNames, keys, prefix, ty, cols[i], st);
      FilledFromStep(env, reader, row, columnNames, keys, prefix, ty, cols, i, st);
      if next.Ok? {
        NullOrForeignColumnSkipped(env, reader, row, columnNames, keys, prefix, ty, cols[i], st);
        NoCarrierKeeps(env, reader, row, columnNames, keys, prefix, ty, cols, i + 1, st);
      }
    }
  }

  /** For a value-type T every column that takes part replaces the value, so the last one
      decides it: the value is that column's converted cell. */
  lemma {:induction false} LastCarrierWins(env: Env, reader: Reader, row: seq<Cell>, columnNames: seq<string>, keys: seq<string>,
                                           prefix: string, ty: Ty, cols: seq<string>, i: nat, st: FillState, c: nat)
    requires NoNestedKeys(keys) && IsValueType(ty) && IsInstance(st.obj, ty) && i <= c < |cols|
    requires Carries(reader, row, prefix, cols[c])
    requires forall k :: c < k < |cols| ==> !Carries(reader, row, prefix, cols[k])
    ensures var r := FilledFrom(env, reader, row, columnNames, keys, prefix, ty, cols, i, st);
      r.Ok? ==>
        GetValueFromDataReader(env, reader, row, cols[c], ty).Ok? &&
        r.value.obj == GetValueFromDataReader(env, reader, row, cols[c], ty).value
    decreases |cols| - i
  {
    var next := ColumnFilled(env, reader, row, columnNames, keys, prefix, ty, cols[i], st);
    FilledFromStep(env, reader, row, columnNames, keys, prefix, ty, cols, i, st);
    if next.Ok? {
      if i < c {
        LastCarrierWins(env, reader, row, columnNames, keys, prefix, ty, cols, i + 1, next.value, c);
      } else {
        NoCarrierKeeps(env, reader, row, columnNames, keys, prefix, ty, cols, i + 1, next.value);
      }
    }
  }

  /** CreateObjectWithDataReader on a value-type T (an element of a list of values) gives the
      converted cell of the last column of the row that is not NULL and carries the prefix. */
  lemma FilledFromLastColumn(env: Env, reader: Reader, row: seq<Cell>, columnNames: seq<string>, keys: seq<string>,
                             prefix: string, ty: Ty, obj: Val, cols: seq<string>, c: nat)
    requires NoNestedKeys(keys) && IsValueType(ty) && IsInstance(obj, ty)
    requires ColumnsOf(env, reader, columnNames) == Ok(cols) && c < |cols|
    requires Carries(reader, row, prefix, cols[c])
    requires forall k :: c < k < |cols| ==> !Carries(reader, row, prefix, cols[k])
    ensures var r := Filled(env, reader, row, columnNames, keys, prefix, ty, obj);
      r.Ok? ==>
        GetValueFromDataReader(env, reader, row, cols[c], ty).Ok? &&
        r.value == GetValueFromDataReader(env, reader, row, cols[c], ty).value
  {
    LastCarrierWins(env, reader, row, columnNames, keys, prefix, ty, cols, 0, FillState(obj, []), c);
  }

  /** A nested reference property is replaced in every row that reaches it by a new instance
      filled from that row alone: its earlier value plays no part. */
  lemma NestedReferenceRebuilt(env: Env, reader: Reader, row: seq<Cell>, columnNames: seq<string>, keys: seq<string>,
                               prefix: string, ty: Ty, obj1: Val, obj2: Val, i: nat, name: string, col: string)
    requires NoNestedKeys(keys) && ty.Rec? && i < |ty.props| && ty.props[i].ty.Rec?
    requires InstanceOf(obj1, ty) && InstanceOf(obj2, ty)
    ensures PropertyFilled(env, reader, row, columnNames, keys, prefix, ty, obj1, i, name, col)
         == PropertyFilled(env, reader, row, columnNames, keys, prefix, ty, obj2, i, name, col)
    ensures Fresh(ty.props[i].ty).Ok? ==>
      PropertyFilled(env, reader, row, columnNames, keys, prefix, ty, obj1, i, name, col)
        == Filled(env, reader, row, columnNames, keys, prefix + name + ".", ty.props[i].ty, Fresh(ty.props[i].ty).value)
    ensures Fresh(ty.props[i].ty).Err? ==>
      PropertyFilled(env, reader, row, columnNames, keys, prefix, ty, obj1, i, name, col) == Err(MissingMethod)
  {
  }

  /** A list property that the row reaches, an array, a List<E> or an interface List<E>
      implements, is stored as the list it held (empty when null) merged with this row's item
      under the prefix `name.`; it fails exactly when that merge fails. */
  lemma ListPropertyMerged(env: Env, reader: Reader, row: seq<Cell>, columnNames: seq<string>, keys: seq<string>,
                           prefix: string, ty: Ty, obj: Val, i: nat, name: string, col: string)
    requires NoNestedKeys(keys) && ty.Rec? && i < |ty.props| && InstanceOf(obj, ty)
    requires ty.props[i].ty.Lst?
    requires ty.props[i].ty.shape.ArrayOf? || ty.props[i].ty.shape.ListOf? || ty.props[i].ty.shape.ListInterface?
    requires obj.fields[i].Items? || env.variant.Current? || !ty.props[i].ty.shape.ListInterface?
    ensures var items := if obj.fields[i].Items? then obj.fields[i].items else [];
      (forall k :: 0 <= k < |items| ==> IsInstance(items[k], ty.props[i].ty.elem)) &&
      var merged := ItemMerged(env, reader, row, columnNames, keys, prefix + name + ".", ty.props[i].ty.elem, items);
      PropertyFilled(env, reader, row, columnNames, keys, prefix, ty, obj, i, name, col)
        == if merged.Ok? then Ok(Items(merged.value)) else Err(merged.error)
  {
    assert Conforms(obj.fields[i], ty.props[i].ty);
  }

  /** In the current engine a list property typed as an interface that List<E> does not
      implement is rejected before any item is built. */
  lemma InterfaceListRejected(env: Env, reader: Reader, row: seq<Cell>, columnNames: seq<string>, keys: seq<string>,
                              prefix: string, ty: Ty, obj: Val, i: nat, name: string, col: string)
    requires NoNestedKeys(keys) && ty.Rec? && i < |ty.props| && InstanceOf(obj, ty)
    requires env.variant.Current? && ty.props[i].ty.Lst? && ty.props[i].ty.shape.OtherInterface?
    ensures PropertyFilled(env, reader, row, columnNames, keys, prefix, ty, obj, i, name, col)
         == Err(ApplicationError(ty.props[i].name))
  {
  }

  /** The legacy engine has no such check: an interface-typed list property that is still
      null cannot be instantiated. */
  lemma LegacyInterfaceListFails(env: Env, reader: Reader, row: seq<Cell>, columnNames: seq<string>, keys: seq<string>,
                                 prefix: string, ty: Ty, obj: Val, i: nat, name: string, col: string)
    requires NoNestedKeys(keys) && ty.Rec? && i < |ty.props| && InstanceOf(obj, ty)
    requires env.variant.Legacy? && ty.props[i].ty.Lst? && obj.fields[i].Null?
    requires ty.props[i].ty.shape.ListInterface? || ty.props[i].ty.shape.OtherInterface?
    ensures PropertyFilled(env, reader, row, columnNames, keys, prefix, ty, obj, i, name, col) == Err(MissingMethod)
  {
  }

  /** A list property of another collection class is instantiated and merged like a List<E>,
      but the List<E> that ConvertObjectList returns cannot be stored in it, so filling it
      always fails, with ArgumentException once the merge itself has succeeded. */
  lemma CollectionClassRejected(env: Env, reader: Reader, row: seq<Cell>, columnNames: seq<string>, keys: seq<string>,
                                prefix: string, ty: Ty, obj: Val, i: nat, name: string, col: string)
    requires NoNestedKeys(keys) && ty.Rec? && i < |ty.props| && InstanceOf(obj, ty)
    requires ty.props[i].ty.Lst? && ty.props[i].ty.shape.OtherClass?
    ensures PropertyFilled(env, reader, row, columnNames, keys, prefix, ty, obj, i, name, col).Err?
    ensures var items := if obj.fields[i].Items? then obj.fields[i].items else [];
      (forall k :: 0 <= k < |items| ==> IsInstance(items[k], ty.props[i].ty.elem)) &&
      (ItemMerged(env, reader, row, columnNames, keys, prefix + name + ".", ty.props[i].ty.elem, items).Ok? ==>
         PropertyFilled(env, reader, row, columnNames, keys, prefix, ty, obj, i, name, col) == Err(ArgumentError(NotAssignable)))
  {
    assert Conforms(obj.fields[i], ty.props[i].ty);
  }

  /** With no key at this level every row fills a new item and appends it. */
  lemma UnkeyedListAppends(env: Env, reader: Reader, row: seq<Cell>, columnNames: seq<string>, keys: seq<string>,
                           prefix: string, ty: Ty, items: seq<Val>)
    requires NoNestedKeys(keys) && forall i :: 0 <= i < |items| ==> IsInstance(items[i], ty)
    requires ApplicableKeys(keys, prefix) == []
    ensures var r := ItemMerged(env, reader, row, columnNames, keys, prefix, ty, items);
      r.Ok? ==> |r.value| == |items| + 1 && r.value[..|items|] == items
    ensures Fresh(ty).Ok? && Filled(env, reader, row, columnNames, keys, prefix, ty, Fresh(ty).value).Ok? ==>
      ItemMerged(env, reader, row, columnNames, keys, prefix, ty, items)
        == Ok(items + [Filled(env, reader, row, columnNames, keys, prefix, ty, Fresh(ty).value).value])
  {
  }

  /** When the keys select an item, nothing is appended: an item of reference type is refilled
      where it stands, a value-type item is a copy and the list stays as it was. */
  lemma KeyedListRefinesMatch(env: Env, reader: Reader, row: seq<Cell>, columnNames: seq<string>, keys: seq<string>,
                              prefix: string, ty: Ty, items: seq<Val>, obj: Val, at: nat)
    requires NoNestedKeys(keys) && forall i :: 0 <= i < |items| ==> IsInstance(items[i], ty)
    requires Filling(AList(items), ty)
    requires KeyValidation(env, reader, row, keys, prefix, ty, AList(items)) == Ok(Existing(obj, at))
    ensures var r := ItemMerged(env, reader, row, columnNames, keys, prefix, ty, items);
      r.Ok? ==> |r.value| == |items|
    ensures IsValueType(ty) ==> ItemMerged(env, reader, row, columnNames, keys, prefix, ty, items).Ok? ==>
      ItemMerged(env, reader, row, columnNames, keys, prefix, ty, items) == Ok(items)
    ensures !IsValueType(ty) && Fresh(ty).Ok? && Filled(env, reader, row, columnNames, keys, prefix, ty, obj).Ok? ==>
      at < |items| && obj == items[at] &&
      ItemMerged(env, reader, row, columnNames, keys, prefix, ty, items)
        == Ok(items[at := Filled(env, reader, row, columnNames, keys, prefix, ty, obj).value])
  {
    var filled := Filled(env, reader, row, columnNames, keys, prefix, ty, obj);
    if Fresh(ty).Ok? && filled.Ok? {
      assert ItemMerged(env, reader, row, columnNames, keys, prefix, ty, items)
        == if IsValueType(ty) then Ok(items) else Ok(items[at := filled.value]);
    }
  }

  /** When the keys select nothing, a new item is filled and appended at the end. */
  lemma KeyedListAppendsOnMiss(env: Env, reader: Reader, row: seq<Cell>, columnNames: seq<string>, keys: seq<string>,
                               prefix: string, ty: Ty, items: seq<Val>)
    requires NoNestedKeys(keys) && forall i :: 0 <= i < |items| ==> IsInstance(items[i], ty)
    requires Filling(AList(items), ty)
    requires KeyValidation(env, reader, row, keys, prefix, ty, AList(items)) == Ok(NewItem)
    ensures var r := ItemMerged(env, reader, row, columnNames, keys, prefix, ty, items);
      r.Ok? ==> |r.value| == |items| + 1 && r.value[..|items|] == items
  {
  }

  /** List<T> without a key at the top level: one element per row, duplicates included. */
  lemma {:induction false} UnkeyedAccumulation(env: Env, reader: Reader, columnNames: seq<string>, keys: seq<string>,
                                               ty: Ty, i: nat, list: seq<Val>)
    requires NoNestedKeys(keys) && i <= |reader.rows| && forall k :: 0 <= k < |list| ==> IsInstance(list[k], ty)
    requires forall k :: k in keys ==> '.' in k
    ensures var r := ListedFrom(env, reader, columnNames, keys, ty, i, list);
      r.Ok? ==> |r.value| == |list| + |reader.rows| - i && r.value[..|list|] == list
    decreases |reader.rows| - i
  {
    if i < |reader.rows| {
      var next := RowListed(env, reader, columnNames, keys, ty, i, list);
      if next.Ok? {
        UnkeyedRowAppends(env, reader, columnNames, keys, ty, i, list);
        UnkeyedAccumulation(env, reader, columnNames, keys, ty, i + 1, next.value);
        ListedFromStep(env, reader, columnNames, keys, ty, i, list);
        var r := ListedFrom(env, reader, columnNames, keys, ty, i + 1, next.value);
        if r.Ok? {
          PrefixOfPrefix(r.value, next.value, list);
        }
      }
    }
  }

  /** Without top-level keys, one row appends exactly one element to the list. */
  lemma UnkeyedRowAppends(env: Env, reader: Reader, columnNames: seq<string>, keys: seq<string>,
                          ty: Ty, i: nat, list: seq<Val>)
    requires NoNestedKeys(keys) && i < |reader.rows| && forall k :: 0 <= k < |list| ==> IsInstance(list[k], ty)
    requires forall k :: k in keys ==> '.' in k
    ensures var r := RowListed(env, reader, columnNames, keys, ty, i, list);
      r.Ok? ==> |r.value| == |list| + 1 && r.value[..|list|] == list
  {
    TopLevelKeys(keys);
    NoneApply(keys, "");
    if IsObjectPath(ty) {
      UnkeyedListAppends(env, reader, reader.rows[i], columnNames, keys, "", ty, list);
    }
  }

  /** List<T> of a scalar T: the first column of every row, cast to T, in row order. */
  lemma {:induction false} ScalarListOnePerRow(env: Env, reader: Reader, columnNames: seq<string>, keys: seq<string>,
                                               ty: Ty, i: nat, list: seq<Val>)
    requires NoNestedKeys(keys) && i <= |reader.rows| && !IsObjectPath(ty)
    requires forall k :: 0 <= k < |list| ==> IsInstance(list[k], ty)
    ensures var r := ListedFrom(env, reader, columnNames, keys, ty, i, list);
      r.Ok? ==>
        |r.value| == |list| + |reader.rows| - i && r.value[..|list|] == list &&
        forall k :: i <= k < |reader.rows| ==>
          FirstCell(reader.rows[k]).Ok? &&
          Some(r.value[|list| + k - i]) == env.unbox(FirstCell(reader.rows[k]).value, ty)
    decreases |reader.rows| - i
  {
    if i < |reader.rows| {
      var cell := FirstCell(reader.rows[i]);
      if cell.Ok? && env.unbox(cell.value, ty).Some? {
        var next := list + [env.unbox(cell.value, ty).value];
        assert RowListed(env, reader, columnNames, keys, ty, i, list) == Ok(next);
        ListedFromStep(env, reader, columnNames, keys, ty, i, list);
        ScalarListOnePerRow(env, reader, columnNames, keys, ty, i + 1, next);
        var r := ListedFrom(env, reader, columnNames, keys, ty, i + 1, next);
        if r.Ok? {
          PrefixOfPrefix(r.value, next, list);
          assert r.value[|list|] == r.value[..|next|][|list|];
        }
      }
    }
  }

  /** Get<T> of a scalar T: the first column of the last row (default(T) without rows). */
  lemma {:induction false} ScalarGetLastRow(env: Env, reader: Reader, columnNames: seq<string>, keys: seq<string>,
                                            ty: Ty, i: nat, obj: Val)
    requires NoNestedKeys(keys) && i <= |reader.rows| && !IsObjectPath(ty)
    requires obj == Default(ty) || IsInstance(obj, ty)
    ensures var r := GotFrom(env, reader, columnNames, keys, ty, i, obj);
      r.Ok? ==>
        (i == |reader.rows| ==> r.value == obj) &&
        (i < |reader.rows| ==>
           FirstCell(Last(reader.rows)).Ok? &&
           Some(r.value) == env.unbox(FirstCell(Last(reader.rows)).value, ty))
    decreases |reader.rows| - i
  {
    if i < |reader.rows| {
      var cell := FirstCell(reader.rows[i]);
      if cell.Ok? && env.unbox(cell.value, ty).Some? {
        ScalarGetLastRow(env, reader, columnNames, keys, ty, i + 1, env.unbox(cell.value, ty).value);
      }
    }
  }

  function Last<T>(s: seq<T>): T
    requires |s| > 0
  {
    s[|s| - 1]
  }

  /** Without a key at this level the earlier object is never selected: the result is what a
      blank instance filled from this row gives. */
  lemma RefreshIgnoresPrevious(env: Env, reader: Reader, row: seq<Cell>, columnNames: seq<string>, keys: seq<string>,
                               prefix: string, ty: Ty, prev: Val)
    requires NoNestedKeys(keys) && (prev == Default(ty) || IsInstance(prev, ty))
    requires ApplicableKeys(keys, prefix) == []
    ensures ObjectRefreshed(env, reader, row, columnNames, keys, prefix, ty, prev)
         == ObjectRefreshed(env, reader, row, columnNames, keys, prefix, ty, Default(ty))
  {
    assert ty.Rec? ==> prev == Default(ty) || InstanceOf(prev, ty);
  }

  /** Get<T> of an object T without a top-level key: the object built from the last row alone. */
  lemma {:induction false} UnkeyedGetLastRowOnly(env: Env, reader: Reader, columnNames: seq<string>, keys: seq<string>,
                                                 ty: Ty, i: nat, obj: Val)
    requires NoNestedKeys(keys) && i < |reader.rows| && IsObjectPath(ty)
    requires obj == Default(ty) || IsInstance(obj, ty)
    requires forall k :: k in keys ==> '.' in k
    ensures GotFrom(env, reader, columnNames, keys, ty, i, obj).Ok? ==>
      GotFrom(env, reader, columnNames, keys, ty, i, obj)
        == ObjectRefreshed(env, reader, Last(reader.rows), columnNames, keys, "", ty, Default(ty))
    decreases |reader.rows| - i
  {
    TopLevelKeys(keys);
    NoneApply(keys, "");
    var next := ObjectRefreshed(env, reader, reader.rows[i], columnNames, keys, "", ty, obj);
    RefreshIgnoresPrevious(env, reader, reader.rows[i], columnNames, keys, "", ty, obj);
    if next.Ok? && i + 1 < |reader.rows| {
      UnkeyedGetLastRowOnly(env, reader, columnNames, keys, ty, i + 1, next.value);
    }
  }
}

=== FILE: nameof.dfy ===
/** NameOf<T>: a dotted property path built by member access on a dynamic object, rendered
    with the affixes it was constructed with, with square brackets or with double quotes. */
module DottedNames {
  import opened Wrappers
  import opened Text
  import opened TypeModel

  /** NameOfAffix.SQL and NameOfAffix.DB2; any other int can be cast to the enum as well. */
  const SQL: int := 0
  const DB2: int := 1

  /** An instance of NameOf<ty>. A null `_name` renders and tests like the empty string, so it
      is written as "". */
  datatype NameOf = NameOf(ty: Ty, name: string, prefix: string, suffix: string)

  /** `new NameOf<T>()`: no name, empty affixes. */
  function Create(ty: Ty): (r: NameOf)
    ensures r.ty == ty && r.name == ""
    ensures r.prefix == "" && r.suffix == ""
  {
    NameOf(ty, "", "", "")
  }

  /** `new NameOf<T>(prefix, suffix)`. */
  function CreateWithAffixes(ty: Ty, prefix: string, suffix: string): (r: NameOf)
    ensures r.ty == ty && r.name == ""
    ensures r.prefix == prefix && r.suffix == suffix
  {
    NameOf(ty, "", prefix, suffix)
  }

  /** `new NameOf<T>(affix)`: brackets for SQL, double quotes for DB2, and
      ArgumentOutOfRangeException for any other value. */
  function CreateWithAffix(ty: Ty, affix: int): (r: Result<NameOf>)
    ensures r.Ok? <==> affix == SQL || affix == DB2
    ensures r.Err? ==> r.error == ArgumentOutOfRange("affix")
    ensures r.Ok? ==> r.value.ty == ty && r.value.name == ""
    ensures affix == SQL ==> r.Ok? && r.value.prefix == "[" && r.value.suffix == "]"
    ensures affix == DB2 ==> r.Ok? && r.value.prefix == "\"" && r.value.suffix == "\""
  {
    if affix == SQL then Ok(NameOf(ty, "", "[", "]"))
    else if affix == DB2 then Ok(NameOf(ty, "", "\"", "\""))
    else Err(ArgumentOutOfRange("affix"))
  }

  /** ToString(): the name between the prefix and the suffix. */
  function ToString(n: NameOf): (r: string)
    ensures |r| == |n.prefix| + |n.name| + |n.suffix|
    ensures r[..|n.prefix|] == n.prefix && r[|r| - |n.suffix|..] == n.suffix
    ensures r[|n.prefix|..|r| - |n.suffix|] == n.name
  {
    n.prefix + n.name + n.suffix
  }

  /** ToSQL: the name in square brackets, whatever the affixes. */
  function ToSQL(n: NameOf): (r: string)
    ensures |r| == |n.name| + 2 && r[0] == '[' && r[|r| - 1] == ']'
    ensures r[1..|r| - 1] == n.name
  {
    "[" + n.name + "]"
  }

  /** ToDB2: the name in double quotes, whatever the affixes. */
  function ToDB2(n: NameOf): (r: string)
    ensures |r| == |n.name| + 2 && r[0] == '"' && r[|r| - 1] == '"'
    ensures r[1..|r| - 1] == n.name
  {
    "\"" + n.name + "\""
  }

  /** The implicit conversion to string: ToString, so a name without affixes converts to itself. */
  function AsString(n: NameOf): (r: string)
    ensures r == ToString(n)
    ensures n.prefix == "" && n.suffix == "" ==> r == n.name
  {
    ToString(n)
  }

  /** The renderings: without affixes ToString is the bare name; the implicit conversion is
      ToString; ToSQL and ToDB2 depend on the name alone; with the SQL or DB2 affixes ToString
      is ToSQL or ToDB2. */
  lemma Renderings(n: NameOf, m: NameOf)
    ensures n.prefix == "" && n.suffix == "" ==> ToString(n) == n.name
    ensures AsString(n) == ToString(n)
    ensures n.name == m.name ==> ToSQL(n) == ToSQL(m) && ToDB2(n) == ToDB2(m)
    ensures n.prefix == "[" && n.suffix == "]" ==> ToString(n) == ToSQL(n)
    ensures n.prefix == "\"" && n.suffix == "\"" ==> ToString(n) == ToDB2(n)
    ensures |ToString(n)| == |n.prefix| + |n.name| + |n.suffix|
  {
  }

  /** The indices from i on of the properties whose names equal `member` ignoring case, in order. */
  function MatchingFrom(props: seq<Prop>, member: string, i: nat): (r: seq<nat>)
    requires i <= |props|
    ensures forall k :: 0 <= k < |r| ==> i <= r[k] < |props| && Lower(props[r[k]].name) == Lower(member)
    ensures forall j :: i <= j < |props| && Lower(props[j].name) == Lower(member) ==> j in r
    ensures forall k, l :: 0 <= k < l < |r| ==> r[k] < r[l]
    decreases |props| - i
  {
    if i == |props| then []
    else
      var rest := MatchingFrom(props, member, i + 1);
      if Lower(props[i].name) == Lower(member) then [i] + rest else rest
  }

  /** The name of a member reached from `name`: joined with '.', without a leading dot. */
  function Dotted(name: string, member: string): string {
    name + (if name == "" then "" else ".") + member
  }

  /** The type a member access is scoped to: the element type of a list property. */
  function Scope(ty: Ty): Ty {
    if ty.Lst? then ty.elem else ty
  }

  /** Member access (GetProperty): the one property whose name matches ignoring case, with
      MissingMemberException when there is none and AmbiguousMatchException when there are
      several; the child carries the declared name and the parent's affixes. */
  function GetProperty(n: NameOf, member: string): (r: Result<NameOf>)
    ensures r.Err? ==> r.error == MissingMember(member) || r.error == AmbiguousMatch
    ensures r == Err(MissingMember(member)) <==>
      forall j :: 0 <= j < |PropsOf(n.ty)| ==> Lower(PropsOf(n.ty)[j].name) != Lower(member)
    ensures r == Err(AmbiguousMatch) <==>
      exists j, k :: 0 <= j < k < |PropsOf(n.ty)| &&
        Lower(PropsOf(n.ty)[j].name) == Lower(member) && Lower(PropsOf(n.ty)[k].name) == Lower(member)
    ensures r.Ok? ==>
      exists j :: 0 <= j < |PropsOf(n.ty)| && Lower(PropsOf(n.ty)[j].name) == Lower(member) &&
        r.value == NameOf(Scope(PropsOf(n.ty)[j].ty), Dotted(n.name, PropsOf(n.ty)[j].name), n.prefix, n.suffix)
  {
    var props := PropsOf(n.ty);
    var found := MatchingFrom(props, member, 0);
    if |found| == 0 then Err(MissingMember(member))
    else if |found| > 1 then
      assert found[0] < found[1];
      Err(AmbiguousMatch)
    else
      var p := props[found[0]];
      assert forall j, k :: 0 <= j < k < |props| && Lower(props[j].name) == Lower(member) ==>
        Lower(props[k].name) != Lower(member) by {
        forall j, k | 0 <= j < k < |props| && Lower(props[j].name) == Lower(member)
          ensures Lower(props[k].name) != Lower(member) {
          assert j in found;
        }
      }
      Ok(NameOf(Scope(p.ty), Dotted(n.name, p.name), n.prefix, n.suffix))
  }

  /** A chain of member accesses, as in `name.Order.Items.Product`. */
  function Walk(n: NameOf, members: seq<string>): (r: Result<NameOf>)
    ensures members == [] ==> r == Ok(n)
    ensures r.Ok? ==> r.value.prefix == n.prefix && r.value.suffix == n.suffix
    ensures r.Err? ==> r.error == AmbiguousMatch || exists k :: 0 <= k < |members| && r.error == MissingMember(members[k])
    decreases |members|
  {
    if members == [] then Ok(n)
    else
      var child :- GetProperty(n, members[0]);
      Walk(child, members[1..])
  }

  lemma DottedLower(name: string, member: string, m: string)
    requires Lower(member) == Lower(m)
    ensures Lower(Dotted(name, member)) == Lower(Dotted(name, m))
  {
    var sep := if name == "" then "" else ".";
    LowerConcat(name + sep, member);
    LowerConcat(name + sep, m);
  }

  /** One more access after a member whose declared name matches `m` ignoring case. */
  lemma DottedStep(name: string, declared: string, m: string, tail: string)
    requires Lower(declared) == Lower(m) && declared != ""
    ensures Lower(Dotted(Dotted(name, declared), tail)) == Lower(Dotted(name, m + "." + tail))
  {
    var child := Dotted(name, declared);
    DottedLower(name, declared, m);
    LowerConcat(child, "." + tail);
    LowerConcat(Dotted(name, m), "." + tail);
    assert Dotted(child, tail) == child + "." + tail;
    assert Dotted(name, m) + "." + tail == Dotted(name, m + "." + tail);
  }

  /** A chain of accesses keeps the affixes, and its name is the starting name followed by the
      accessed members joined with '.', up to case. */
  lemma {:induction false} WalkPath(n: NameOf, members: seq<string>)
    requires members != []
    requires forall k :: 0 <= k < |members| ==> members[k] != ""
    ensures Walk(n, members).Ok? ==>
      Walk(n, members).value.prefix == n.prefix && Walk(n, members).value.suffix == n.suffix &&
      Lower(Walk(n, members).value.name) == Lower(Dotted(n.name, Join(members, '.')))
    decreases |members|
  {
    var c := GetProperty(n, members[0]);
    if c.Ok? {
      var child := c.value;
      var j :| 0 <= j < |PropsOf(n.ty)| && Lower(PropsOf(n.ty)[j].name) == Lower(members[0]) &&
        child == NameOf(Scope(PropsOf(n.ty)[j].ty), Dotted(n.name, PropsOf(n.ty)[j].name), n.prefix, n.suffix);
      var declared := PropsOf(n.ty)[j].name;
      DottedLower(n.name, declared, members[0]);
      if |members| == 1 {
        assert Walk(n, members) == Ok(child);
      } else {
        var rest := members[1..];
        WalkPath(child, rest);
        assert Walk(n, members) == Walk(child, rest);
        assert |Lower(declared)| == |members[0]| > 0;
        assert Join(members, '.') == members[0] + "." + Join(rest, '.');
        DottedStep(n.name, declared, members[0], Join(rest, '.'));
      }
    } else {
      assert Walk(n, members) == Err(c.error);
    }
  }

  /** Names reached from `new NameOf<T>(NameOfAffix.SQL)` render with ToString exactly as with
      ToSQL, and likewise for DB2 and ToDB2. */
  lemma {:induction false} AffixesCarryOver(ty: Ty, affix: int, members: seq<string>)
    requires affix == SQL || affix == DB2
    requires members != []
    requires forall k :: 0 <= k < |members| ==> members[k] != ""
    ensures var w := Walk(CreateWithAffix(ty, affix).value, members);
      w.Ok? ==> ToString(w.value) == (if affix == SQL then ToSQL(w.value) else ToDB2(w.value))
  {
    var root := CreateWithAffix(ty, affix).value;
    WalkPath(root, members);
  }
}

=== FILE: reader.dfy ===
/** The data reader as the mapper sees it: field names, an optional schema table,
    and the rows, each a sequence of cells in field order. */
module DataReader {
  import opened Wrappers
  import opened Text
  import opened TypeModel

  /** One row of GetSchemaTable(): the ColumnName and NumericScale cells
      (None: NumericScale holds DBNull). */
  datatype SchemaRow = SchemaRow(columnName: string, numericScale: Option<int>)

  /** GetSchemaTable(): whether it has a NumericScale column, and its rows. */
  datatype Schema = Schema(hasNumericScale: bool, rows: seq<SchemaRow>)

  /** A forward-only result: GetName(i) for each field, GetSchemaTable() (None when the
      provider does not support it), and the rows Read() advances through. */
  datatype Reader = Reader(fieldNames: seq<string>, schema: Option<Schema>, rows: seq<seq<Cell>>)

  /** The first position holding exactly `name`. */
  function ExactIndex(names: seq<string>, name: string): (r: Option<nat>)
    ensures r.Some? ==> r.value < |names| && names[r.value] == name
    ensures r.None? ==> name !in names
  {
    if names == [] then None
    else if names[0] == name then Some(0)
    else match ExactIndex(names[1..], name)
      case None => None
      case Some(k) => Some(k + 1)
  }

  /** The first position holding `name` up to case. */
  function CaseInsensitiveIndex(names: seq<string>, name: string): (r: Option<nat>)
    ensures r.Some? ==> r.value < |names| && Lower(names[r.value]) == Lower(name)
    ensures r.None? ==> forall j :: 0 <= j < |names| ==> Lower(names[j]) != Lower(name)
  {
    if names == [] then None
    else if Lower(names[0]) == Lower(name) then Some(0)
    else match CaseInsensitiveIndex(names[1..], name)
      case None => None
      case Some(k) => Some(k + 1)
  }

  /** IDataRecord.GetOrdinal: an exact match first, then a case-insensitive one. */
  function Ordinal(names: seq<string>, name: string): Option<nat> {
    match ExactIndex(names, name)
    case Some(i) => Some(i)
    case None => CaseInsensitiveIndex(names, name)
  }

  /** `dataReader[name]` on the current row; an unknown name raises IndexOutOfRange. */
  function ReadCell(reader: Reader, row: seq<Cell>, name: string): (r: Result<Cell>)
    ensures r.Err? ==> r.error == IndexOutOfRange
    ensures r.Ok? <==> exists i :: 0 <= i < |row| && Ordinal(reader.fieldNames, name) == Some(i)
  {
    match Ordinal(reader.fieldNames, name)
    case Some(i) => if i < |row| then Ok(row[i]) else Err(IndexOutOfRange)
    case None => Err(IndexOutOfRange)
  }

  /** `dataReader[0]` on the current row. */
  function FirstCell(row: seq<Cell>): (r: Result<Cell>)
    ensures r.Ok? <==> |row| > 0
  {
    if |row| > 0 then Ok(row[0]) else Err(IndexOutOfRange)
  }

  /** The column names the schema table lists, or the field names when there is no schema table. */
  function SourceNames(reader: Reader): (r: seq<string>)
    ensures reader.schema.None? ==> r == reader.fieldNames
    ensures reader.schema.Some? ==> |r| == |reader.schema.value.rows|
  {
    match reader.schema
    case None => reader.fieldNames
    case Some(schema) => seq(|schema.rows|, i requires 0 <= i < |schema.rows| => schema.rows[i].columnName)
  }

  function LowerAll(names: seq<string>): (r: seq<string>)
    ensures |r| == |names|
    ensures forall i :: 0 <= i < |names| ==> r[i] == Lower(names[i])
  {
    seq(|names|, i requires 0 <= i < |names| => Lower(names[i]))
  }

  /** The first occurrence of every value of s, in order (what a HashSet filled from s enumerates). */
  function Firsts(s: seq<string>): seq<string> {
    if s == [] then []
    else
      var init := Firsts(s[..|s| - 1]);
      if s[|s| - 1] in s[..|s| - 1] then init else init + [s[|s| - 1]]
  }

  /** Firsts keeps every value exactly once. */
  lemma {:induction false} FirstsSpec(s: seq<string>)
    ensures NoDup(Firsts(s))
    ensures forall x :: x in Firsts(s) <==> x in s
  {
    if s != [] {
      var init := s[..|s| - 1];
      FirstsSpec(init);
      assert s == init + [s[|s| - 1]];
    }
  }

  /** Extending the input by one value extends Firsts by that value when it is new. */
  lemma FirstsStep(s: seq<string>, i: nat)
    requires i < |s|
    ensures Firsts(s[..i + 1]) ==
      if s[i] in Firsts(s[..i]) then Firsts(s[..i]) else Firsts(s[..i]) + [s[i]]
  {
    FirstsSpec(s[..i]);
    assert s[..i + 1][..i] == s[..i];
  }

  /** The column names of the current engine: the schema table's (or the fields') names,
      lower-cased, each kept once at its first occurrence. */
  function ColumnNames(reader: Reader): seq<string> {
    Firsts(LowerAll(SourceNames(reader)))
  }

  /** Every lower-cased column name appears once, and nothing else does. */
  lemma ColumnNamesSpec(reader: Reader)
    ensures NoDup(ColumnNames(reader))
    ensures forall c :: c in ColumnNames(reader) <==> exists n :: n in SourceNames(reader) && Lower(n) == c
  {
    var lowered := LowerAll(SourceNames(reader));
    FirstsSpec(lowered);
    forall c ensures c in lowered <==> exists n :: n in SourceNames(reader) && Lower(n) == c {
      if c in lowered {
        var i :| 0 <= i < |lowered| && lowered[i] == c;
        assert SourceNames(reader)[i] in SourceNames(reader);
      }
      if exists n :: n in SourceNames(reader) && Lower(n) == c {
        var n :| n in SourceNames(reader) && Lower(n) == c;
        var i :| 0 <= i < |SourceNames(reader)| && SourceNames(reader)[i] == n;
        assert lowered[i] == c;
      }
    }
  }

  /** GetColumnNames: reads the schema table's ColumnName cells, falling back to GetName(i)
      when the provider does not support a schema table, and adds each lower-cased name
      to a set. */
  method GetColumnNames(reader: Reader) returns (columns: seq<string>)
    ensures columns == ColumnNames(reader)
  {
    var names := SourceNames(reader);
    var lowered := LowerAll(names);
    columns := [];
    var i := 0;
    while i < |names|
      invariant 0 <= i <= |names|
      invariant columns == Firsts(lowered[..i])
    {
      FirstsStep(lowered, i);
      var name := Lower(names[i]);
      if name !in columns {
        columns := columns + [name];
      }
      i := i + 1;
    }
    assert lowered[..|names|] == lowered;
  }

  /** The legacy engine's column loop: the schema table's ColumnName cells, lower-cased,
      without removing repeats; a provider without a schema table raises NotSupported. */
  function LegacyColumnNames(reader: Reader): (r: Result<seq<string>>)
    ensures r.Ok? <==> reader.schema.Some?
    ensures r.Ok? ==> r.value == LowerAll(SourceNames(reader))
  {
    if reader.schema.None? then Err(NotSupported) else Ok(LowerAll(SourceNames(reader)))
  }
}

=== FILE: registry.dfy ===
/** DatabaseProviderFactory: a registry of ADO.NET provider factories by alias, and the
    creation of a database object from a connection string and a registered alias. */
module ProviderRegistry {
  import opened Wrappers

  /** A DbProviderFactory instance: the name of its runtime type and its identity. */
  datatype Factory = Factory(typeName: string, id: nat)

  /** A GenericDatabase built from a connection string and a registered factory (null when a
      null factory was registered under an alias). */
  datatype Database = GenericDatabase(connectionString: string, factory: Option<Factory>)

  /** The parameter name the lookup failure passes to ArgumentOutOfRangeException. */
  const FactoryNotFound: string :=
    "Factory name not found. Please either use a registered factory alias or a type name of a registered factory (if no alias was informed), or register the factory using the RegisterFactory method."

  /** `AddOrUpdate(alias, factory, (k, a) => a)`: adds an alias that is not there; for one that
      is, the update function returns the existing value, so the entry is kept. */
  function Registered(factories: map<string, Option<Factory>>, alias: string, factory: Option<Factory>)
    : (r: map<string, Option<Factory>>)
    ensures alias in r
    ensures r[alias] == if alias in factories then factories[alias] else factory
    ensures r.Keys == factories.Keys + {alias}
    ensures forall a :: a in factories && a != alias ==> r[a] == factories[a]
  {
    if alias in factories then factories else factories[alias := factory]
  }

  /** The first registration of an alias wins: registering it again changes nothing. */
  lemma FirstRegistrationWins(factories: map<string, Option<Factory>>, alias: string, f: Option<Factory>, g: Option<Factory>)
    ensures Registered(Registered(factories, alias, f), alias, g) == Registered(factories, alias, f)
    ensures alias !in factories ==> Registered(Registered(factories, alias, f), alias, g)[alias] == f
  {
  }

  /** Registrations under different aliases do not interfere and commute. */
  lemma RegistrationsCommute(factories: map<string, Option<Factory>>, a: string, b: string, f: Option<Factory>, g: Option<Factory>)
    requires a != b
    ensures Registered(Registered(factories, a, f), b, g) == Registered(Registered(factories, b, g), a, f)
  {
  }

  /** Create(connectionString, factoryName): the guard on the connection string comes first and
      is not wrapped; an unknown name fails with InvalidOperationException around
      ArgumentOutOfRangeException; a known one yields a database over the registered factory. */
  function Created(factories: map<string, Option<Factory>>, connectionString: Option<string>, factoryName: Option<string>)
    : (r: Result<Database>)
    ensures connectionString.None? ==> r == Err(ArgumentNull("connectionString"))
    ensures connectionString == Some("") ==> r == Err(ArgumentError(EmptyString))
    ensures r.Ok? <==> connectionString.Some? && connectionString.value != "" &&
                       factoryName.Some? && factoryName.value in factories
    ensures r.Ok? ==> r.value == GenericDatabase(connectionString.value, factories[factoryName.value])
    ensures connectionString.Some? && connectionString.value != "" && !r.Ok? ==>
      r == Err(InvalidOperation(ArgumentOutOfRange(FactoryNotFound)))
  {
    match connectionString
    case None => Err(ArgumentNull("connectionString"))
    case Some(conn) =>
      if conn == "" then Err(ArgumentError(EmptyString))
      else if factoryName.Some? && factoryName.value in factories then
        Ok(GenericDatabase(conn, factories[factoryName.value]))
      else Err(InvalidOperation(ArgumentOutOfRange(FactoryNotFound)))
  }

  /** After a factory is registered under an alias that was free, Create under that alias
      builds a database over it; a taken alias still gives the factory registered first. */
  lemma CreateAfterRegister(factories: map<string, Option<Factory>>, alias: string, f: Option<Factory>, conn: string)
    requires conn != ""
    ensures Created(Registered(factories, alias, f), Some(conn), Some(alias)) ==
      Ok(GenericDatabase(conn, if alias in factories then factories[alias] else f))
  {
  }

  /** The registry. The source keeps it in a static ConcurrentDictionary shared by all callers;
      here it is the state of one object. */
  class DatabaseProviderFactory {
    var factories: map<string, Option<Factory>>

    constructor ()
      ensures factories == map[]
    {
      factories := map[];
    }

    /** RegisterFactory(factory, alias): a null alias is rejected by the dictionary. */
    method RegisterFactoryAs(factory: Option<Factory>, alias: Option<string>) returns (r: Result<()>)
      modifies this
      ensures alias.None? ==> r == Err(ArgumentNull("key")) && factories == old(factories)
      ensures alias.Some? ==> r == Ok(()) && factories == Registered(old(factories), alias.value, factory)
    {
      if alias.None? {
        return Err(ArgumentNull("key"));
      }
      if alias.value !in factories {
        factories := factories[alias.value := factory];
      }
      return Ok(());
    }

    /** RegisterFactory(factory): the alias is the name of the factory's type; a null factory
        raises NullReferenceException. */
    method RegisterFactory(factory: Option<Factory>) returns (r: Result<()>)
      modifies this
      ensures factory.None? ==> r == Err(NullReference) && factories == old(factories)
      ensures factory.Some? ==> r == Ok(()) && factories == Registered(old(factories), factory.value.typeName, factory)
    {
      if factory.None? {
        return Err(NullReference);
      }
      r := RegisterFactoryAs(factory, Some(factory.value.typeName));
    }

    /** Create(connectionString, factoryName). */
    method Create(connectionString: Option<string>, factoryName: Option<string>) returns (r: Result<Database>)
      ensures r == Created(factories, connectionString, factoryName)
    {
      if connectionString.None? {
        return Err(ArgumentNull("connectionString"));
      }
      if connectionString.value == "" {
        return Err(ArgumentError(EmptyString));
      }
      if factoryName.Some? && factoryName.value in factories {
        return Ok(GenericDatabase(connectionString.value, factories[factoryName.value]));
      }
      return Err(InvalidOperation(ArgumentOutOfRange(FactoryNotFound)));
    }

    /** Create(connectionString, factoryType): Create under the type's name; reading the name of
        a null type raises NullReferenceException before the guard. */
    method CreateForType(connectionString: Option<string>, factoryType: Option<string>) returns (r: Result<Database>)
      ensures factoryType.None? ==> r == Err(NullReference)
      ensures factoryType.Some? ==> r == Created(factories, connectionString, factoryType)
    {
      if factoryType.None? {
        return Err(NullReference);
      }
      r := Create(connectionString, factoryType);
    }
  }
}

=== FILE: text.dfy ===
/** The string operations the mapper relies on: lower-casing, counting, searching,
    replacing, splitting on '.', trimming. Ordinal comparisons and ASCII case
    mapping throughout. */
module Text {
  import opened Wrappers

  predicate IsUpper(c: char) {
    'A' <= c <= 'Z'
  }

  /** Char.ToLower restricted to ASCII letters. */
  function LowerChar(c: char): char {
    if IsUpper(c) then (c as int + 32) as char else c
  }

  /** The index of the first string of `names` equal to `name` (FirstOrDefault over names). */
  function FirstIndex(names: seq<string>, name: string): (r: Option<nat>)
    ensures r.Some? ==> r.value < |names| && names[r.value] == name
    ensures r.Some? ==> forall j :: 0 <= j < r.value ==> names[j] != name
    ensures r.None? ==> forall j :: 0 <= j < |names| ==> names[j] != name
  {
    if names == [] then None
    else if names[0] == name then Some(0)
    else match FirstIndex(names[1..], name)
      case None => None
      case Some(k) => Some(k + 1)
  }

  /** String.ToLower. */
  function Lower(s: string): (r: string)
    ensures |r| == |s|
    ensures forall i :: 0 <= i < |s| ==> r[i] == LowerChar(s[i])
  {
    seq(|s|, i requires 0 <= i < |s| => LowerChar(s[i]))
  }

  lemma LowerIdempotent(s: string)
    ensures Lower(Lower(s)) == Lower(s)
  {
    assert forall i :: 0 <= i < |s| ==> LowerChar(LowerChar(s[i])) == LowerChar(s[i]);
  }

  lemma LowerConcat(a: string, b: string)
    ensures Lower(a + b) == Lower(a) + Lower(b)
  {
    assert forall i :: 0 <= i < |a + b| ==> Lower(a + b)[i] == (Lower(a) + Lower(b))[i];
  }

  /** The number of occurrences of c in s (LINQ Count(ch => ch == c)). */
  function CountChar(s: string, c: char): (n: nat)
    ensures n <= |s|
    ensures c !in s ==> n == 0
  {
    if s == [] then 0 else (if s[0] == c then 1 else 0) + CountChar(s[1..], c)
  }

  predicate StartsWith(s: string, p: string) {
    |p| <= |s| && s[..|p|] == p
  }

  predicate OccursAt(s: string, p: string, i: nat) {
    i + |p| <= |s| && s[i..i + |p|] == p
  }

  /** String.IndexOf(p), compared ordinally: the first position where p occurs. */
  function IndexOf(s: string, p: string): (r: Option<nat>)
    ensures r.Some? ==> OccursAt(s, p, r.value)
    ensures r.Some? ==> forall j :: 0 <= j < r.value ==> !OccursAt(s, p, j)
    ensures r.None? ==> forall j :: 0 <= j <= |s| ==> !OccursAt(s, p, j)
    decreases |s|
  {
    if StartsWith(s, p) then Some(0)
    else if s == [] then None
    else
      match IndexOf(s[1..], p)
      case None =>
        assert forall j :: 1 <= j <= |s| ==> (OccursAt(s, p, j) <==> OccursAt(s[1..], p, j - 1));
        None
      case Some(k) =>
        assert forall j :: 1 <= j <= |s| ==> (OccursAt(s, p, j) <==> OccursAt(s[1..], p, j - 1));
        Some(k + 1)
  }

  /** `s.IndexOf(p) >= 0`. */
  predicate Contains(s: string, p: string) {
    IndexOf(s, p).Some?
  }

  lemma ContainsEmpty(s: string)
    ensures Contains(s, "")
  {
    assert OccursAt(s, "", 0);
  }

  lemma {:induction false} ContainsPrefixed(p: string, t: string)
    ensures Contains(p + t, p)
  {
    assert OccursAt(p + t, p, 0);
  }

  /** String.Replace(p, q): every non-overlapping occurrence of p, scanned from the left, becomes q. */
  function ReplaceAll(s: string, p: string, q: string): string
    requires |p| > 0
    decreases |s|
  {
    if StartsWith(s, p) then q + ReplaceAll(s[|p|..], p, q)
    else if s == [] then []
    else [s[0]] + ReplaceAll(s[1..], p, q)
  }

  /** Replacing a pattern that does not occur changes nothing. */
  lemma {:induction false} ReplaceAbsent(s: string, p: string, q: string)
    requires |p| > 0 && !Contains(s, p)
    ensures ReplaceAll(s, p, q) == s
    decreases |s|
  {
    if s != [] {
      assert !OccursAt(s, p, 0);
      assert !StartsWith(s, p);
      assert forall j :: 0 <= j <= |s[1..]| ==> !OccursAt(s[1..], p, j) by {
        forall j | 0 <= j <= |s[1..]| ensures !OccursAt(s[1..], p, j) {
          assert !OccursAt(s, p, j + 1);
        }
      }
      ReplaceAbsent(s[1..], p, q);
    }
  }

  /** A leading prefix that does not recur is stripped to the rest of the path. */
  lemma StripLeadingPrefix(p: string, t: string)
    requires |p| > 0 && !Contains(t, p)
    ensures ReplaceAll(p + t, p, "") == t
  {
    assert StartsWith(p + t, p);
    assert (p + t)[|p|..] == t;
    ReplaceAbsent(t, p, "");
  }

  /** The text before the first '.' (the whole string when there is none). */
  function FirstSegment(s: string): (r: string)
    ensures '.' !in r
    ensures StartsWith(s, r)
    ensures |r| < |s| ==> s[|r|] == '.'
  {
    if s == [] || s[0] == '.' then "" else [s[0]] + FirstSegment(s[1..])
  }

  /** String.Split(c). */
  function Split(s: string, c: char): (r: seq<string>)
    ensures |r| >= 1
    ensures forall i :: 0 <= i < |r| ==> c !in r[i]
  {
    if s == [] then [""]
    else
      var rest := Split(s[1..], c);
      if s[0] == c then [""] + rest else [[s[0]] + rest[0]] + rest[1..]
  }

  /** String.Join(c, parts). */
  function Join(parts: seq<string>, c: char): string
    requires |parts| >= 1
  {
    if |parts| == 1 then parts[0] else parts[0] + [c] + Join(parts[1..], c)
  }

  /** Splitting and joining again gives back the string. */
  lemma {:induction false} SplitJoin(s: string, c: char)
    ensures Join(Split(s, c), c) == s
  {
    if s != [] {
      var rest := Split(s[1..], c);
      SplitJoin(s[1..], c);
      if s[0] == c {
        assert Split(s, c)[1..] == rest;
      } else {
        var r := Split(s, c);
        assert r[0] == [s[0]] + rest[0];
        if |rest| == 1 {
          assert Join(r, c) == [s[0]] + rest[0];
        } else {
          assert r[1..] == rest[1..];
          assert Join(r, c) == [s[0]] + rest[0] + [c] + Join(rest[1..], c);
        }
      }
    }
  }

  /** The first piece of a split on '.' is the text before the first '.'. */
  lemma {:induction false} SplitHeadIsFirstSegment(s: string)
    ensures Split(s, '.')[0] == FirstSegment(s)
  {
    if s != [] && s[0] != '.' {
      SplitHeadIsFirstSegment(s[1..]);
    }
  }

  /** Char.IsWhiteSpace: the control characters U+0009 to U+000D and U+0085, and the
      Unicode space, line and paragraph separators. */
  predicate IsWhiteSpace(c: char) {
    ('\U{9}' <= c <= '\U{D}') || c == ' ' || c == '\U{85}' || c == '\U{A0}' || c == '\U{1680}' ||
    ('\U{2000}' <= c <= '\U{200A}') || c == '\U{2028}' || c == '\U{2029}' || c == '\U{202F}' ||
    c == '\U{205F}' || c == '\U{3000}'
  }

  function TrimStart(s: string): (r: string)
    ensures |r| <= |s|
    ensures r == s[|s| - |r|..]
    ensures r != [] ==> !IsWhiteSpace(r[0])
    ensures forall i :: 0 <= i < |s| - |r| ==> IsWhiteSpace(s[i])
  {
    if s != [] && IsWhiteSpace(s[0]) then TrimStart(s[1..]) else s
  }

  function TrimEnd(s: string): (r: string)
    ensures |r| <= |s|
    ensures r == s[..|r|]
    ensures r != [] ==> !IsWhiteSpace(r[|r| - 1])
    ensures forall i :: |r| <= i < |s| ==> IsWhiteSpace(s[i])
  {
    if s != [] && IsWhiteSpace(s[|s| - 1]) then TrimEnd(s[..|s| - 1]) else s
  }

  /** String.Trim. */
  function Trim(s: string): string {
    TrimEnd(TrimStart(s))
  }

  /** Trimming twice is trimming once. */
  lemma TrimIdempotent(s: string)
    ensures Trim(Trim(s)) == Trim(s)
  {
    var t := TrimStart(s);
    var u := TrimEnd(t);
    if u != [] {
      assert u[0] == t[0];
    }
    assert TrimStart(u) == u;
  }

  /** String.Replace(a, b) on characters. */
  function ReplaceChar(s: string, a: char, b: char): (r: string)
    ensures |r| == |s|
    ensures forall i :: 0 <= i < |s| ==> r[i] == (if s[i] == a then b else s[i])
  {
    seq(|s|, i requires 0 <= i < |s| => if s[i] == a then b else s[i])
  }

  /** `s.Trim().Replace('"', '\'')`, the normalisation every text cell goes through. */
  function Normalised(s: string): (r: string)
    ensures '"' !in r
    ensures |r| <= |s|
  {
    ReplaceChar(Trim(s), '"', '\'')
  }

  /** Normalising a trimmed string is normalising the string. */
  lemma NormalisedTrim(s: string)
    ensures Normalised(Trim(s)) == Normalised(s)
  {
    TrimIdempotent(s);
  }

  predicate NoDup<T(==)>(s: seq<T>) {
    forall i, j :: 0 <= i < j < |s| ==> s[i] != s[j]
  }

  /** A prefix of a prefix is a prefix. */
  lemma PrefixOfPrefix<T>(s: seq<T>, t: seq<T>, u: seq<T>)
    requires |t| <= |s| && s[..|t|] == t && |u| <= |t| && t[..|u|] == u
    ensures s[..|u|] == u
  {
    assert s[..|u|] == s[..|t|][..|u|];
  }

  /** Appending an element not yet present keeps a sequence free of duplicates. */
  lemma NoDupAppend<T>(s: seq<T>, x: T)
    requires NoDup(s) && x !in s
    ensures NoDup(s + [x])
  {
    forall i, j | 0 <= i < j < |s| + 1
      ensures (s + [x])[i] != (s + [x])[j]
    {
      if j == |s| {
        assert s[i] in s;
      }
    }
  }
}

=== FILE: types.dfy ===
/** Reified .NET types and values: what the mapper learns by reflection
    (property lists, value-type tests, list element types, parameterless
    construction) and what the data reader hands it (cells). */
module TypeModel {
  import opened Wrappers
  import opened Text

  /** How a collection-typed property is declared. */
  datatype ListShape =
    | ArrayOf          // E[]
    | ListOf           // List<E> itself
    | ListInterface    // an interface List<E> implements: IEnumerable<E>, IList<E>, ICollection<E>, ...
    | OtherInterface   // an interface List<E> does not implement
    | OtherClass       // another collection class with a parameterless constructor: HashSet<E>, Collection<E>, ...

  /** A member of an enum, in Enum.GetValues order, with its [DefaultValue] raw database value if any. */
  datatype EnumMember = EnumMember(name: string, value: int, raw: Option<Cell>)

  /** A property: its declared name and type. */
  datatype Prop = Prop(name: string, ty: Ty)

  datatype Ty =
    | Value(typeName: string)                              // a value type converted by the library: int, decimal, DateTime, a struct
    | Str                                                  // System.String
    | Bool                                                 // System.Boolean
    | Enum(typeName: string, members: seq<EnumMember>)
    | Nullable(underlying: Ty)                             // Nullable<U>
    | Rec(typeName: string, props: seq<Prop>, creatable: bool)  // a class; creatable: has a public parameterless constructor
    | Lst(shape: ListShape, elem: Ty)                      // IEnumerable (other than string) with element type elem

  /** A value as the data reader returns it. */
  datatype Cell =
    | DbNull                                 // DBNull.Value
    | Text(s: string)                        // System.String
    | Dec(mantissa: int, scale: nat)         // System.Decimal, worth mantissa / 10^scale
    | Other(typeName: string, repr: string)  // any other runtime value, by type and content

  /** A value held by a property, a list or a local of the mapper. */
  datatype Val =
    | Null                   // a null reference, or an empty Nullable
    | Flag(b: bool)          // a System.Boolean
    | Member(n: int)         // an enum value, by its underlying number
    | Zero(typeName: string) // default(T) of a value type the model does not look inside
    | Datum(c: Cell)         // a scalar produced by a library conversion or cast
    | Obj(fields: seq<Val>)  // an instance of a Rec type, one value per property
    | Items(items: seq<Val>) // the contents of a List<E> or an E[]

  /** `type.IsValueType || type == typeof(string)`. */
  predicate IsValueType(ty: Ty) {
    ty.Value? || ty.Str? || ty.Bool? || ty.Enum? || ty.Nullable?
  }

  /** `typeof(IEnumerable).IsAssignableFrom(type) && type != typeof(string)`. */
  predicate IsListType(ty: Ty) {
    ty.Lst?
  }

  /** Every type is exactly one of: a value type or string, a collection, a class.
      A string is a value here and never a collection. */
  lemma TypeKinds(ty: Ty)
    ensures IsValueType(ty) || IsListType(ty) || ty.Rec?
    ensures IsValueType(ty) ==> !IsListType(ty) && !ty.Rec?
    ensures IsListType(ty) ==> !ty.Rec?
    ensures ty.Str? ==> IsValueType(ty) && !IsListType(ty)
  {
  }

  /** `default(T) == null`: reference types and Nullable. */
  predicate DefaultIsNull(ty: Ty) {
    ty.Str? || ty.Rec? || ty.Lst? || ty.Nullable?
  }

  /** `Nullable.GetUnderlyingType(type) ?? type`. */
  function Unwrap(ty: Ty): Ty {
    if ty.Nullable? then ty.underlying else ty
  }

  /** `default(T)`. */
  function Default(ty: Ty): (v: Val)
    ensures DefaultIsNull(ty) <==> v.Null?
  {
    match ty
    case Value(n) => Zero(n)
    case Bool => Flag(false)
    case Enum(_, _) => Member(0)
    case _ => Null
  }

  /** The public instance properties reflection reports, in order (none are modelled for non-class types). */
  function PropsOf(ty: Ty): seq<Prop> {
    if ty.Rec? then ty.props else []
  }

  /** The default value of each property of a fresh instance. */
  function Defaults(props: seq<Prop>): (r: seq<Val>)
    ensures |r| == |props|
    ensures forall i :: 0 <= i < |props| ==> r[i] == Default(props[i].ty)
  {
    seq(|props|, i requires 0 <= i < |props| => Default(props[i].ty))
  }

  /** `Activator.CreateInstance<T>()`: default fields, or MissingMethod when T has no
      parameterless constructor (string, arrays, interfaces, classes without one). */
  function Fresh(ty: Ty): (r: Result<Val>)
    ensures r.Ok? ==> IsInstance(r.value, ty)
    ensures r.Err? ==> r.error == MissingMethod
    ensures ty.Rec? ==> (r.Ok? <==> ty.creatable)
    ensures ty.Rec? && r.Ok? ==> r.value == Obj(Defaults(ty.props))
    ensures IsValueType(ty) && !ty.Str? ==> r == Ok(Default(ty))
    ensures ty.Lst? ==> (r.Ok? <==> ty.shape.ListOf? || ty.shape.OtherClass?)
    ensures ty.Lst? && r.Ok? ==> r.value == Items([])
  {
    match ty
    case Str => Err(MissingMethod)
    case Rec(_, props, creatable) =>
      if creatable then
        assert forall i :: 0 <= i < |props| ==> Conforms(Defaults(props)[i], props[i].ty);
        Ok(Obj(Defaults(props)))
      else Err(MissingMethod)
    case Lst(shape, _) => if shape.ListOf? || shape.OtherClass? then Ok(Items([])) else Err(MissingMethod)
    case _ => Ok(Default(ty))
  }

  /** A value fits a declared type: records hold one conforming value per property,
      lists hold instances of their element type; null is allowed for references. */
  predicate Conforms(v: Val, ty: Ty)
    decreases ty, 1
  {
    match ty
    case Rec(_, _, _) => v.Null? || InstanceOf(v, ty)
    case Lst(_, elem) => v.Null? || (v.Items? && forall i :: 0 <= i < |v.items| ==> IsInstance(v.items[i], elem))
    case _ => true
  }

  /** A non-null instance of a record type. */
  predicate InstanceOf(v: Val, ty: Ty)
    requires ty.Rec?
    decreases ty, 0
  {
    v.Obj? && |v.fields| == |ty.props| &&
    forall i :: 0 <= i < |ty.props| ==> Conforms(v.fields[i], ty.props[i].ty)
  }

  /** What an object being filled, or a list item, is: non-null when T is a record type. */
  predicate IsInstance(v: Val, ty: Ty)
    decreases ty, 2
  {
    if ty.Rec? then InstanceOf(v, ty) else Conforms(v, ty)
  }

  lemma InstanceConforms(v: Val, ty: Ty)
    requires IsInstance(v, ty)
    ensures Conforms(v, ty)
  {
  }

  /** The index of the first property whose lower-cased name is `name` (FirstOrDefault). */
  function FirstProp(props: seq<Prop>, name: string): (r: Option<nat>)
    ensures r.Some? ==> r.value < |props| && Lower(props[r.value].name) == name
    ensures r.Some? ==> forall j :: 0 <= j < r.value ==> Lower(props[j].name) != name
    ensures r.None? ==> forall j :: 0 <= j < |props| ==> Lower(props[j].name) != name
  {
    FirstIndex(LowerNames(props), name)
  }

  /** The lower-cased names of the properties, in order. */
  function LowerNames(props: seq<Prop>): (r: seq<string>)
    ensures |r| == |props|
    ensures forall i :: 0 <= i < |props| ==> r[i] == Lower(props[i].name)
  {
    seq(|props|, i requires 0 <= i < |props| => Lower(props[i].name))
  }

  /** The index of the last property whose lower-cased name is `name` (LastOrDefault). */
  function LastProp(props: seq<Prop>, name: string): (r: Option<nat>)
    ensures r.Some? ==> r.value < |props| && Lower(props[r.value].name) == name
    ensures r.Some? ==> forall j :: r.value < j < |props| ==> Lower(props[j].name) != name
    ensures r.None? ==> forall j :: 0 <= j < |props| ==> Lower(props[j].name) != name
  {
    if props == [] then None
    else if Lower(props[|props| - 1].name) == name then Some(|props| - 1)
    else LastProp(props[..|props| - 1], name)
  }

  /** Reading property i of an instance (PropertyInfo.GetValue). */
  function FieldOf(obj: Val, i: nat): Val
    requires obj.Obj? && i < |obj.fields|
  {
    obj.fields[i]
  }

  /** Writing property i of an instance (PropertyInfo.SetValue). */
  function SetField(obj: Val, i: nat, v: Val): (r: Val)
    requires obj.Obj? && i < |obj.fields|
    ensures r.Obj? && |r.fields| == |obj.fields|
    ensures r.fields[i] == v
    ensures forall j :: 0 <= j < |obj.fields| && j != i ==> r.fields[j] == obj.fields[j]
  {
    Obj(obj.fields[i := v])
  }

  /** Writing a conforming value keeps an instance an instance. */
  lemma SetFieldKeepsInstance(obj: Val, ty: Ty, i: nat, v: Val)
    requires ty.Rec? && InstanceOf(obj, ty) && i < |ty.props|
    requires Conforms(v, ty.props[i].ty)
    ensures InstanceOf(SetField(obj, i, v), ty)
  {
  }
}

=== FILE: wrappers.dfy ===
/** Option and Result, and the .NET exceptions the mapper can raise, as values. */
module Wrappers {

  datatype Option<+T> = None | Some(value: T)

  /** Why an ArgumentException was raised. */
  datatype ArgumentReason =
    | UnknownKey          // a caller key names no property at its level
    | NonScalarKey        // a key property is neither a value type nor a string
    | DuplicateKey        // Dictionary.Add of a key that is already there
    | NotEnumMember       // Enum.Parse found no member of that name
    | NotAssignable       // PropertyInfo.SetValue with a value of the wrong type
    | DuplicateProperty   // ToDictionary over properties whose lower-cased names collide
    | DuplicateColumn     // Dictionary.Add of a column name that is already there
    | EmptyString         // a required string argument is empty

  /** The exceptions of the modelled code. */
  datatype Error =
    | ArgumentError(reason: ArgumentReason)     // System.ArgumentException
    | ArgumentNull(param: string)               // System.ArgumentNullException
    | ArgumentOutOfRange(param: string)         // System.ArgumentOutOfRangeException
    | InvalidOperation(inner: Error)            // System.InvalidOperationException wrapping another
    | ApplicationError(property: string)        // System.ApplicationException naming a property
    | NullReference                             // System.NullReferenceException
    | IndexOutOfRange                           // System.IndexOutOfRangeException
    | InvalidCast                               // System.InvalidCastException: no conversion, or a failed unboxing cast
    | Format                                    // System.FormatException: text that does not parse as the target type
    | Overflow                                  // System.OverflowException: a value outside the target type's range
    | MissingMethod                             // Activator.CreateInstance without a parameterless constructor
    | MissingMember(member: string)             // System.MissingMemberException
    | AmbiguousMatch                            // System.Reflection.AmbiguousMatchException
    | NotSupported                              // System.NotSupportedException
    | Target                                    // System.Reflection.TargetException: a property read on null

  /** The result of a call that returns a value or throws. */
  datatype Result<+T> = Ok(value: T) | Err(error: Error) {
    predicate IsFailure() {
      Err?
    }

    function PropagateFailure<U>(): Result<U>
      requires Err?
    {
      Err(error)
    }

    function Extract(): T
      requires Ok?
    {
      value
    }
  }
}
